=== FILE: README.md ===
# firebase-reporting, modelled in Dafny

firebase-reporting is an incremental roll-up engine on top of a hosted tree database.

- **Writes.** Each saved record is folded into metric cells, one per (filter, partition key, metric key). A metric key names a property and an evaluator (`max`, `min`, `first`, `last`, `sum`, `diff`, `multi`, `div`). Each write is a transaction that combines the stored value with the new one.
- **Time buckets.** Properties with an enabled retainer are also folded into per-bucket cells. A bucket is `floor(time / duration)`.
- **Reads.** A chain of small builder objects reads the cells back: `filter()` gives a report query, an evaluator selector gives a metric query, and then count queries or retainer queries.

This project models that core as pure functions over an immutable store:

| module | file | what it models |
|---|---|---|
| `Common`, `Assoc`, `Text`, `Sorting` | common, assoc, text, sorting | results and errors, ordered JS objects as association lists, decimal rendering and parsing, string order, sorting |
| `Evaluators` | evaluators.dfy | the eight built-in evaluators and their outcome (store a value, keep the old one, or a non-finite result) |
| `Cells` | cells.dfy | the transaction body of the newer registry as one fold step, and folds of whole value sequences |
| `Registry` | registry.dfy | the configuration: `addEvaluator`, `addFilter`, `addMetric`, `addRetainer`, `enableRetainer`, `getRetainer` |
| `PathKeys` | keys.dfy | `getMetricKey` and `getFilterKey`, with a decoder that proves partition keys unambiguous for integer-valued fields, and a collision for string-valued ones |
| `Buckets` | buckets.dfy | `getRetainerBucketKey` (including the infinite and NaN buckets of a zero duration) and `getEmptyBuckets` |
| `Store` | store.dfy | the database as a list of (cell, value) pairs; applying update targets one transaction at a time; the scans the queries perform |
| `Ingest` | ingest.dfy | `saveMetrics` as a plan: the exact update targets a batch issues, and the error that stops it |
| `ReportQueries`, `MetricQueries`, `CountQueries`, `RetainerQueries` | reportquery, metricquery, countquery, retainerquery | the query chain, with `value`, `select`, the range counts, `total`/`count`, `valuesAsObject` and `values` |
| `Agreement` | agreement.dfy | the cell a query reads is the cell saving wrote |
| `LegacyFold`, `LegacyIngest`, `LegacyReads` | legacy_fold, legacy_ingest, legacy_reads | the older registry (src/index.js): its fold, `saveMetricsForData`, `_getMetrics`, `_getTotalInternal`, `_getStatKey` |
| `LegacyQueries`, `OlderQueries` | legacy_query, older_query | the two older single-class query builders (src/query.js and dist/query.js) |

Conventions of the model:

- **Values.** Cell values are `real`, so JavaScript numbers are treated as exact. Record fields are integers; PathKeys also renders string values, to show where the partition key stops being unambiguous.
- **Errors.** A thrown string or a `TypeError` becomes an `Err` with a named `Error`.
- **Time.** The wall clock becomes a `now` parameter.
- **Store.** The store is an association list, so that every scan yields a deterministic sequence.

## Model

| member | source | states |
|---|---|---|
| Evaluators.ApplyBuiltin | dist/index.js:31-54 | only `div` by zero gives a non-finite result, and only `max`, `min` and `first` can ask to keep the old value |
| Evaluators.ParseName | dist/index.js:31-54 | a name that parses to an evaluator is that evaluator's registered name |
| Evaluators.ParseNameOfName | dist/index.js:31-54 | each built-in name parses back to its own evaluator |
| Evaluators.NamesDistinct | dist/index.js:31-54 | the eight built-in evaluators are registered under eight different names |
| Evaluators.BuiltinTable | dist/index.js:31-54 | the constructor's table maps each built-in name to its evaluator and holds no other name |
| Cells.Step | dist/index.js:223-234 | an absent or null cell takes the raw value; otherwise the evaluator's result is stored (a result of 0 included), and a null result or a missing evaluator keeps the old value |
| Cells.FoldAll | dist/index.js:223-234 | folding no values leaves the cell as it was; folding one or more always leaves a value |
| Cells.ZeroResultIsStored | dist/index.js:227-232 | a result of 0 (from `diff` of equal values, or `multi` by 0) is written, not mistaken for "keep" |
| Cells.FoldFront | dist/index.js:223-234 | folding a sequence is one step on its head, then the fold of its tail |
| Cells.FoldMax | dist/index.js:31-33 | `max` folded from an empty cell ends at the largest value |
| Cells.FoldMin | dist/index.js:34-36 | `min` folded from an empty cell ends at the smallest value |
| Cells.FoldFirstKeeps | dist/index.js:37-39 | `first` never changes a written cell |
| Cells.FoldFirst | dist/index.js:37-39 | `first` folded from an empty cell ends at the first value |
| Cells.FoldLast | dist/index.js:40-42 | `last` ends at the last value, whatever the cell held |
| Cells.FoldSum | dist/index.js:43-45 | `sum` folded from an empty cell ends at the sum of the values |
| Cells.FoldDiff | dist/index.js:46-48 | `diff` ends at the first value minus the sum of the rest |
| Cells.FoldMulti | dist/index.js:49-51 | `multi` ends at the product of the values |
| Cells.FoldDiv | dist/index.js:52-54 | `div` ends at the first value divided by the product of the rest, when none of the rest is 0 |
| Cells.TestInputsFold | test/evaluators/sum.js:42-48 | the inputs 50, 2, 5 end at 57 / 43 / 500 / 5 / 50 / 2 / 50 / 5 for sum, diff, multi, div, max, min, first and last |
| Cells.SumMultiOrderIndependent | dist/index.js:43-51 | `sum` and `multi` end at the same value in any arrival order |
| Cells.OrderDependentEvaluators | dist/index.js:37-54 | `diff`, `div`, `first` and `last` depend on the arrival order |
| Registry.Initial | dist/index.js:24-60 | the separator defaults to "~~"; the eight evaluators and the five retainers second/minute/hour/day/week are registered; there are no filters or properties |
| Registry.InitialValid | dist/index.js:24-60 | the initial configuration satisfies the registry invariant |
| Registry.AddEvaluator | dist/index.js:64-74 | an empty name or a missing function is refused; otherwise only that evaluator is replaced |
| Registry.AddFilter | dist/index.js:76-89 | an empty name, "default" or non-array props are refused; otherwise only that filter changes |
| Registry.AddMetric | dist/index.js:91-112 | an empty name, a non-array list or an unknown evaluator is refused; otherwise the metric list is replaced, enabled retainers are kept, and other properties are untouched |
| Registry.AddRetainer | dist/index.js:114-126 | an empty name or a NaN duration is refused; otherwise only that retainer changes |
| Registry.EnableRetainer | dist/index.js:145-156 | a list that is not an array fails with a TypeError (there is no array check), an unknown evaluator or an unregistered property is refused; otherwise only that property's retainer entry changes |
| Registry.AddEvaluatorValid | dist/index.js:64-74 | adding an evaluator keeps the registry invariant |
| Registry.AddFilterValid | dist/index.js:76-89 | adding a filter keeps the registry invariant |
| Registry.AddMetricValid | dist/index.js:91-112 | adding a metric keeps the registry invariant |
| Registry.AddRetainerValid | dist/index.js:114-126 | adding a retainer keeps the registry invariant |
| Registry.EnableRetainerValid | dist/index.js:145-156 | enabling a retainer keeps the registry invariant |
| Registry.AddMetricKeepsRetainers | dist/index.js:107-111 | re-adding a metric keeps the retainers enabled on the property |
| Registry.GetRetainer | dist/index.js:128-143 | a name with leading digits n resolves to n times the remainder's duration, any other name to its own entry; anything else is unknown |
| Registry.GetRetainerDerived | dist/index.js:131-139 | "n" followed by a registered base name resolves to n times the base duration |
| Registry.GetRetainerDirect | dist/index.js:140-142 | a name not starting with a digit resolves exactly when it is registered |
| Registry.DigitNamedRetainerShadowed | dist/index.js:131-136 | a retainer registered as "5minute" is never read: the name is always derived from "minute" |
| PathKeys.MetricKey | dist/index.js:256-259 | the key is the property, then the separator, then the evaluator name |
| PathKeys.MetricKeyDeterminesEvaluator | dist/index.js:256-259 | for one property and separator, the key determines the evaluator |
| PathKeys.SelectorKeysDistinct | dist/index.js:256-259 | two different built-in evaluators give two different keys |
| PathKeys.MetricKeyCollision | dist/index.js:256-259 | a property name containing the separator can collide with another (property, evaluator) pair |
| PathKeys.Segments | dist/index.js:273-278 | the partition key is empty exactly when the filter declares no properties |
| PathKeys.FilterKey | dist/index.js:261-279 | a missing or "default" name gives "default"; an unregistered filter throws; otherwise the key is the segments of the declared properties |
| PathKeys.DecodeSegmentsRoundTrip | dist/index.js:273-278 | with a separator that is not a numeral character, the record's field values are decoded back from the partition key |
| PathKeys.SamePartitionIffAgree | dist/index.js:273-278 | two records share a partition key exactly when they agree on every declared property |
| PathKeys.SegmentsOfAgreeing | dist/index.js:273-278 | records agreeing on the declared properties share a partition key, whatever the separator |
| PathKeys.SegmentsAreSegmentsOf | dist/index.js:273-278 | the partition key of a record is the key built from its field values rendered as JavaScript renders them |
| PathKeys.PartitionKeyCollision | dist/index.js:273-278 | with string values, records {a: "1~~b~~2", b: 3} and {a: 1, b: "2~~b~~3"} differ on both properties yet share a partition key |
| Buckets.FloorDiv | dist/index.js:301 | `Math.floor(t / d)` as the unique q with q·d ≤ t < q·d + d (mirrored for negative d) |
| Buckets.FloorDivUnique | dist/index.js:301 | any q with q·d ≤ t < q·d + d is the floor quotient |
| Buckets.FloorDivMonotone | dist/index.js:284-285 | a later time never falls into an earlier bucket |
| Buckets.RetainerBucket | dist/index.js:298-302 | an unknown retainer is an error; the bucket contains the time (now when the time is 0) |
| Buckets.RetainerBucketKey | dist/index.js:298-302 | the key is the decimal numeral of the bucket and parses back to it |
| Buckets.ZeroRange | dist/index.js:286-294 | the consecutive buckets from lo to hi, each 0, and none when hi < lo |
| Buckets.EmptyBuckets | dist/index.js:282-295 | floor(end/d) − floor(start/d) + 1 consecutive zero buckets from the start bucket; an unknown retainer is an error |
| Buckets.ZeroRangeMembers | dist/index.js:288-292 | a bucket is in the range exactly when it lies between the two end buckets |
| Buckets.FloorOf | dist/index.js:301 | `Math.floor(t / d)`: an integer exactly when d ≠ 0, the floor quotient then; for d = 0, +Infinity for t > 0, −Infinity for t < 0, NaN for t = 0 |
| Buckets.FloorNameInjective | dist/index.js:301 | different bucket values (Infinity and NaN included) render as different keys |
| Buckets.WriteBucket | dist/index.js:296-302 | the bucket saving writes to: an error only for an unknown retainer, otherwise `Math.floor(now / d)` whatever the duration |
| Buckets.WriteBucketAgrees | dist/index.js:296-302 | with a nonzero duration, the bucket saving writes is the one a time range resolves the current time to |
| Store.Transact | dist/index.js:223-234 | one transaction changes only its own cell, by one fold step with the cell's evaluator |
| Store.ApplyKeepsDistinct | dist/index.js:195-201 | applying targets never duplicates a cell |
| Store.ApplyPerCell | dist/index.js:195-201 | a cell written with one evaluator ends as the fold of the values aimed at it, in issue order |
| Store.ApplyUntouched | dist/index.js:195-201 | a cell no target aims at is unchanged |
| Store.ApplyTouchedPresent | dist/index.js:223-225 | every cell some target aims at holds a value afterwards |
| Store.ApplyPresent | dist/index.js:223-225 | a cell a target aims at holds a value afterwards |
| Store.MetricValues | src/metricquery.js:38 | the values of one metric across the partitions of a filter, each one stored |
| Store.Partitions | src/countquery.js:20-22 | the partitions of a filter that hold at least one metric cell |
| Store.FlatValues | src/query.js:109 | the values of one metric across the children of a node in the older layout |
| Store.FlatChildren | src/query.js:160-162 | the children of a node in the older layout |
| Store.BucketNodes | src/retainerquery.js:25 | the integer buckets stored for a retainer in a partition, ascending, exactly the existing integer ones |
| Ingest.FanOut | dist/index.js:171-177 | one target per filter, for the default filter and then every registered filter |
| Ingest.MetricTargetsCount | dist/index.js:170-178 | (filters + 1) targets per configured evaluator |
| Ingest.MetricTargetsFrom | dist/index.js:170-178 | every target is one of the listed evaluators applied to the property's cell in some filter |
| Ingest.MetricTargetsCover | dist/index.js:170-178 | every (evaluator, filter) pair of the rule is issued |
| Ingest.BlankPartition | dist/index.js:265-278 | a filter's partition key is empty exactly when the filter is registered, not "default", and declares no properties |
| Ingest.BlankMeans | dist/index.js:309-317 | a record is blocked exactly when some filter gives it an empty partition key, which `child("")` refuses |
| Ingest.MetricPlan | dist/index.js:170-178 | the metric writes of one field fail exactly when there is an evaluator and some filter's partition key is empty, and then with an invalid path |
| Ingest.MetricPlanIssued | dist/index.js:170-178 | without failure, all of the rule's targets; on failure, the first evaluator's targets for exactly the filters before the first empty partition key, then nothing |
| Ingest.SlotOf | dist/index.js:319-322 | a retainer gives a bucket exactly when its name is nonempty and resolves, and the bucket is `Math.floor(now / d)` |
| Ingest.RetainerHead | dist/index.js:181-191 | a retainer with evaluators throws an invalid path for an empty name and an unknown-retainer error for a name that does not resolve, both before issuing anything; otherwise it fails exactly when the record has an empty partition key |
| Ingest.RetainerPlan | dist/index.js:181-191 | the only errors are an unknown retainer or an empty path segment (an invalid path): an empty partition key, or an enabled retainer named "" |
| Ingest.RetainerPlanFrom | dist/index.js:181-191 | every retained target is an evaluator of an enabled retainer applied in that retainer's current bucket |
| Ingest.FieldPlan | dist/index.js:166-192 | an unruled property issues nothing; the only errors are an unknown retainer or an empty path segment (an invalid path): an empty partition key, or an enabled retainer named "" |
| Ingest.FieldPlanFrom | dist/index.js:166-192 | every target of a field comes from its property's rule |
| Ingest.RecordPlan | dist/index.js:165-193 | the only errors are an unknown retainer or an empty path segment (an invalid path): an empty partition key, or an enabled retainer named "" |
| Ingest.RecordPlanFrom | dist/index.js:165-193 | every target of a record comes from one of its ruled fields |
| Ingest.SaveMetrics | dist/index.js:159-202 | the only errors are an unknown retainer or an empty path segment (an invalid path): an empty partition key, or an enabled retainer named "" |
| Ingest.SaveMetricsFrom | dist/index.js:159-202 | every target of a batch comes from a ruled field of one of its records |
| Ingest.RetainerPlanShape | dist/index.js:181-191 | retained writes fail exactly when a retainer with evaluators is named "" or is unknown, or there is some retained evaluator and the record has an empty partition key; otherwise they issue evaluators × (filters + 1) targets per retainer |
| Ingest.FieldPlanShape | dist/index.js:166-192 | a field fails exactly when one of its retainers with evaluators is named "" or is unknown, or it has some evaluator and the record has an empty partition key; otherwise it issues (evaluators + retained evaluators) × (filters + 1) targets |
| Ingest.RecordPlanShape | dist/index.js:165-193 | a record fails exactly when a retainer of one of its ruled fields is named "" or is unknown, or it has some evaluator and an empty partition key; otherwise it issues the sum of its fields' targets |
| Ingest.SaveMetricsShape | dist/index.js:159-202 | a batch fails exactly when some record is not writable (an empty or unknown retainer name, or an evaluator to apply under an empty partition key); otherwise it issues (record × ruled property × evaluator × filters + 1) plus the retained targets |
| Ingest.UnruledRecordsIssueNothing | dist/index.js:166-167 | a batch without ruled properties issues nothing and resolves at once |
| Ingest.UnruledFieldsIssueNothing | dist/index.js:166-167 | a record without ruled properties issues nothing |
| Ingest.RetainerPlanCovers | dist/index.js:181-191 | every (retainer, evaluator, filter) triple is issued for the current bucket |
| Ingest.RecordPlanCovers | dist/index.js:165-193 | the targets of each field are among the record's |
| Ingest.SaveMetricsCovers | dist/index.js:159-202 | the targets of each record are among the batch's |
| Ingest.SaveMetricsWritesMetrics | dist/index.js:170-178 | a successful batch writes each ruled field into its metric cell under every filter |
| Ingest.SaveMetricsWritesBuckets | dist/index.js:181-191 | a successful batch writes each retained field into the bucket `Math.floor(now / d)` under every filter, the Infinity bucket for a zero duration included |
| Ingest.SaveMetricsPrefix | dist/index.js:165-193 | a successful batch means every record's plan succeeded |
| Ingest.RecordPlanFieldOk | dist/index.js:166-192 | a successful record means every field's plan succeeded |
| LegacyFold.CalculateStep | src/index.js:201-211 | only `undefined` counts as absent: a null cell goes through the evaluator, and a null or undefined result keeps the old value |
| LegacyFold.AgreesOnPresentCells | src/index.js:204-210 | on a cell holding a number the older fold and the newer fold agree |
| LegacyFold.FreshCellsDiffer | src/index.js:202-205 | on a fresh cell the two folds agree exactly when the evaluator, given 0 as the old value, returns the new value |
| LegacyFold.FreshCellFindings | src/index.js:202-205 | on a fresh cell the older fold stores −50 for `diff` 50, 0 for `multi`, and nothing for `min` and `first` |
| LegacyFold.LegacyFirstNeverWrites | src/index.js:22 | in the older fold, `first` never writes a fresh cell |
| LegacyFold.LegacyMinNeverWrites | src/index.js:21 | in the older fold, `min` never writes a fresh cell fed non-negative values |
| LegacyFold.LegacyFoldFromPresent | src/index.js:199-213 | once a cell holds a number, the older fold equals the newer one on any sequence |
| LegacyIngest.StatKey | src/index.js:215-226 | the stat key always ends in stat + "~~" + evaluator name |
| LegacyIngest.StatKeyEndsInMetricKey | src/index.js:225 | the stat key is a prefix followed by the metric key with separator "~~" |
| LegacyIngest.StatKeyDeterminesEvaluator | src/index.js:225 | for one prefix and stat, the key determines the evaluator |
| LegacyIngest.PerFilter | src/index.js:55-57 | one target per filter, in filter order |
| LegacyIngest.Registered | src/index.js:52-53 | exactly the metric names that have an evaluator |
| LegacyIngest.FieldTargets | src/index.js:52-59 | every target carries a registered evaluator of the key's rule and a filter of the list |
| LegacyIngest.SaveMetricsForData | src/index.js:46-63 | every target comes from a ruled key of the data, a registered evaluator and a filter |
| LegacyIngest.FieldTargetsCount | src/index.js:52-59 | one target per (registered evaluator × filter) |
| LegacyIngest.SaveMetricsForDataCount | src/index.js:46-63 | one target per (ruled key × registered evaluator × filter) |
| LegacyIngest.NoFiltersNoWrites | src/index.js:55 | with no filters nothing is written |
| LegacyIngest.FieldTargetsCover | src/index.js:52-59 | every (registered evaluator, filter) pair is issued |
| LegacyIngest.SaveMetricsForDataCovers | src/index.js:46-63 | every (ruled key, registered evaluator, filter) triple is issued |
| LegacyReads.LegacyOrder | src/index.js:121-125 | only "desc" and "asc" are orders; the order is not defaulted to "desc" |
| LegacyReads.GetMetrics | src/index.js:116-147 | at most limit (0 meaning 1) of the node's values: the largest sorted descending for "desc", otherwise the smallest ascending |
| LegacyReads.UnorderedMetricsTakeSmallest | src/index.js:120-132 | without an order the single value returned is the smallest |
| LegacyReads.TotalBounds | src/index.js:163-176 | lesser, greater and between map to their ranges; equal is the range from v to v; anything else is no range |
| LegacyReads.GetTotal | src/index.js:157-183 | with no stat or no known comparison, every child; otherwise exactly the number of children whose stat the range keeps |
| LegacyReads.EqualIsBetweenSame | src/index.js:170-175 | `equal` counts what `between` counts with both bounds v |
| LegacyReads.TotalLesserGreaterInclusive | src/index.js:164-169 | lesser and greater are both inclusive, so together they count the ties twice |
| Selection.ParseOrder | src/metricquery.js:36 | an empty order means "desc" |
| Selection.EffectiveLimit | src/metricquery.js:35 | a limit of 0 means 1 |
| Selection.Largest | src/metricquery.js:39-40 | the k largest values, descending |
| Selection.Smallest | src/metricquery.js:41-42 | the k smallest values, ascending |
| Selection.TopK | src/metricquery.js:38-63 | min(limit, n) of the values: the largest sorted descending for "desc", otherwise the smallest ascending |
| Selection.TopOneIsMax | src/metricquery.js:34-43 | a descending select with limit 0 or 1 returns one value, the maximum |
| Selection.UnsortedIsAscending | src/metricquery.js:39-43 | an order that is neither "desc" nor "asc" reads the smallest values in ascending order |
| Selection.CountWhere | src/countquery.js:23-32 | the number of positions whose value the comparison keeps, so at most all values; all of them exactly when all match, none exactly when none match |
| Selection.LesserPlusGreater | src/countquery.js:24-29 | lesser (≤) and greater (≥) together count every value once and the ties twice |
| Selection.BetweenWithinLesser | src/countquery.js:30-32 | a between-count never exceeds the lesser-count of its upper bound |
| Text.IntRoundTrip | dist/index.js:301 | a bucket key parses back to its bucket |
| Text.IntToStringInjective | dist/index.js:290 | different buckets get different keys |
| CountQueries.SetComparison | src/countquery.js:14-18 | records the comparison and both bounds verbatim, keeping the keys |
| CountQueries.Count | src/countquery.js:20-39 | with no comparison, every partition; otherwise exactly the number of partitions whose metric the inclusive range keeps; a missing filter or metric throws |
| CountQueries.LesserGreaterInclusive | src/countquery.js:24-29 | lesser and greater both count the ties |
| MetricQueries.SetMetric | src/metricquery.js:14-16 | binds prop + separator + evaluator as the metric key, keeping the filter keys |
| MetricQueries.Value | src/metricquery.js:18-32 | "Filter key not set", then "Metric key not set", before any read; otherwise the stored value or null |
| MetricQueries.Select | src/metricquery.js:34-67 | limit and order default to 1 and "desc"; the result is the top or bottom values of the metric across partitions |
| MetricQueries.SelectReadsPartitions | src/metricquery.js:38 | every selected value is stored in some partition of the filter |
| MetricQueries.SelectDefaultIsMax | src/metricquery.js:34-43 | `select()` returns one value, at least every stored one |
| MetricQueries.Counting | src/metricquery.js:105-111 | `count()` carries the keys and no comparison |
| MetricQueries.Lesser | src/metricquery.js:69-76 | a count query with the same keys, "lesser" and v |
| MetricQueries.Greater | src/metricquery.js:78-85 | a count query with the same keys, "greater" and v |
| MetricQueries.Between | src/metricquery.js:87-94 | a count query with the same keys, "between", v and w |
| MetricQueries.Equal | src/metricquery.js:96-103 | a count query with the same keys, "between", v and v |
| MetricQueries.EqualIsBetween | src/metricquery.js:87-103 | `equal(v)` is the same query as `between(v, v)` |
| MetricQueries.EqualCountsTies | src/metricquery.js:96-103 | `equal(v)` counts exactly the partitions whose value is v |
| MetricQueries.Total | dist/metricquery.js:138-144 | `total()` counts every partition of the filter |
| MetricQueries.During | src/metricquery.js:113-120 | keeps the keys and binds the retainer, but not the start and end |
| MetricQueries.DuringIgnoresTimes | src/metricquery.js:113-120 | the start and end passed to `during` make no difference |
| ReportQueries.SetFilter | src/reportquery.js:11-18 | binds the filter, and sets the partition key only for a truthy value |
| ReportQueries.SetFilterLastWins | src/reportquery.js:11-18 | nothing of an earlier `setFilter` survives a later one |
| ReportQueries.CreateMetricQuery | src/reportquery.js:52-58 | a metric query with the filter keys copied and getMetricKey(prop, type) bound |
| ReportQueries.Selector | src/reportquery.js:20-50 | each selector binds a metric key ending in its own evaluator name |
| ReportQueries.SelectorsIndependent | dist/reportquery.js:75-81 | two selectors on one report query share the keys and read different metrics |
| ReportQueries.FilterName | dist/index.js:206 | an empty filter name means "default" |
| ReportQueries.Filter | dist/index.js:205-216 | with data, the partition key of the data (an unknown filter throws); without data, "default" for the default filter and no key otherwise |
| ReportQueries.FilterIffAgree | dist/index.js:205-216 | for a registered filter, two records give the same report query exactly when they agree on the filter's properties |
| Agreement.QueryFor | dist/index.js:205-216 | the selector's query exists exactly when `filter` succeeds |
| Agreement.QueryReadsWrittenCell | src/metricquery.js:25 | the cell `value()` reads is the metric cell `updateMetricValue` writes for the same record |
| Agreement.SavedMetricsAreReadable | dist/index.js:310-311 | after a successful batch, every ruled field reads back a value through `filter(f, record)` and its selector |
| Agreement.UnwrittenCellReadsNull | src/metricquery.js:25-31 | a cell nobody wrote reads as null |
| RetainerQueries.SetRetainer | src/retainerquery.js:13-15 | binds only the retainer name |
| RetainerQueries.Range | src/retainerquery.js:17-21 | sets both bounds and leaves everything else |
| RetainerQueries.Within | src/retainerquery.js:26-33 | the ascending buckets inside the set bounds |
| RetainerQueries.BoundBucket | src/retainerquery.js:26-33 | a bound of 0 is unset; any other bound is its bucket |
| RetainerQueries.ScanOf | src/retainerquery.js:25-38 | a missing filter, partition or retainer throws, and a retainer named "" is an invalid path, before any bound is resolved; otherwise the stored integer buckets inside the truthy bounds, ascending, plus a zero seed only with fill and both bounds |
| RetainerQueries.ZeroMapIsZeroRange | dist/index.js:282-295 | the seed holds exactly the buckets of `getEmptyBuckets` |
| RetainerQueries.Overlay | src/retainerquery.js:39-44 | each scanned bucket holding the metric overwrites the seed |
| RetainerQueries.ValuesAsObject | src/retainerquery.js:23-49 | exactly the in-range integer buckets holding the metric, plus with a fill every bucket of the range, unobserved ones at 0 |
| RetainerQueries.OverlayAsWritten | src/retainerquery.js:39-44 | every scanned bucket is written, a bucket lacking the metric as null |
| RetainerQueries.ValuesAsObjectAsWritten | src/retainerquery.js:23-49 | as written: every scanned integer bucket appears, with null where the metric is missing |
| RetainerQueries.NullOverridesFill | src/retainerquery.js:39-43 | as written, a filled bucket without the metric reads null instead of 0 |
| RetainerQueries.ObjectWithinCandidates | src/retainerquery.js:35-44 | the object's keys are scanned or seeded buckets |
| RetainerQueries.Records | src/retainerquery.js:57-63 | one record per key, with the key's value and timestamp bucket × duration |
| RetainerQueries.RecordsOf | src/retainerquery.js:54-63 | every key of the object becomes one record, in ascending bucket order |
| RetainerQueries.Values | src/retainerquery.js:51-68 | one record per bucket of the object, in ascending bucket order, with timestamp bucket × duration |
| RetainerQueries.ValuesTimestampsAscending | src/retainerquery.js:51-68 | with a positive duration, the records come in ascending time |
| RetainerQueries.NameLeIsTotalPreorder | src/retainerquery.js:54 | comparing buckets by their decimal names is a total preorder |
| RetainerQueries.SortedByName | src/retainerquery.js:54 | the buckets in string order of their names, keeping all of them |
| RetainerQueries.RawRecords | src/retainerquery.js:57-63 | each record's timestamp is (+key) × duration |
| RetainerQueries.RawRecordsOf | src/retainerquery.js:54-63 | as written: the records sorted by bucket name, one per key |
| RetainerQueries.ObjectAsWrittenWithinCandidates | src/retainerquery.js:35-44 | as written, the object's keys are scanned or seeded buckets |
| RetainerQueries.ValuesAsWritten | src/retainerquery.js:51-68 | as written: the keys sorted as strings, each with timestamp (+key) × duration |
| RetainerQueries.StringSortMisorders | src/retainerquery.js:54 | with buckets 9 and 10 present, bucket 10 comes before 9 although it is later |
| RetainerQueries.TenBeforeNine | src/retainerquery.js:54-61 | in any name-sorted list, "10" precedes "9" and carries the later timestamp |
| LegacyQueries.SetFilter | src/query.js:12-19 | binds the filter, and sets the partition key only for a truthy value |
| LegacyQueries.Selector | src/query.js:25-87 | a new query with both filter keys copied and its evaluator's metric key |
| LegacyQueries.SelectorForgetsMetric | src/query.js:25-31 | a selector depends only on the filter keys |
| LegacyQueries.Value | src/query.js:89-103 | the same two checks, then the value at filter/partition/metric, with no "metrics" segment |
| LegacyQueries.Select | src/query.js:105-138 | limit and order default to 1 and "desc"; the top or bottom values of the node's children |
| LegacyQueries.GetCount | src/query.js:160-179 | no comparison counts every child; otherwise exactly the number of children the inclusive range keeps |
| LegacyQueries.Count | src/query.js:140-142 | every child of the filter node |
| LegacyQueries.Lesser | src/query.js:144-146 | exactly the number of children whose metric is at most v |
| LegacyQueries.Greater | src/query.js:148-150 | exactly the number of children whose metric is at least v |
| LegacyQueries.Between | src/query.js:152-154 | exactly the number of children whose metric lies between v and w |
| LegacyQueries.Equal | src/query.js:156-158 | exactly the number of children whose metric lies between v and v |
| LegacyQueries.EqualIsBetween | src/query.js:152-158 | `equal(v)` is `between(v, v)` |
| LegacyQueries.LesserGreaterInclusive | src/query.js:160-169 | both one-sided counts include the ties |
| OlderQueries.NewOlderQueryPrepared | dist/query.js:14-21 | a fresh query has no prepared ordered query |
| OlderQueries.SetFilter | dist/query.js:25-32 | binds the filter and rebuilds the ordered query, present only once the metric is set |
| OlderQueries.SetMetric | dist/query.js:35-42 | binds the metric and rebuilds the ordered query, present only once the filter is set |
| OlderQueries.SettersCommute | dist/query.js:25-42 | the two setters can be called in either order |
| OlderQueries.Selector | dist/query.js:44-106 | copies only the filter (no partition key) and binds the metric |
| OlderQueries.Select | dist/query.js:108-148 | with no prepared query it throws; otherwise the top or bottom values over it |
| OlderQueries.GetCount | dist/query.js:176-197 | no comparison counts every child; otherwise exactly the number of children the inclusive range keeps |
| OlderQueries.Count | dist/query.js:150-153 | every child of the filter node |
| OlderQueries.Lesser | dist/query.js:155-158 | exactly the number of children whose metric is at most v |
| OlderQueries.Greater | dist/query.js:160-163 | exactly the number of children whose metric is at least v |
| OlderQueries.Between | dist/query.js:165-168 | exactly the number of children whose metric lies between v and w |
| OlderQueries.Equal | dist/query.js:170-173 | exactly the number of children whose metric lies between v and v |
| OlderQueries.LesserGreaterInclusive | dist/query.js:181-187 | both one-sided counts include the ties |
| OlderQueries.SelectorThenCount | dist/query.js:44-50 | a selector after `setFilter` is ready to count and select over that filter |

## Left out

- The hosted database itself. References, listeners and `transaction` retries are not modelled: each transaction is one fold step applied in issue order. The `Promise.all` concurrency of `saveMetrics` is not modelled either; cells are independent, so the order of different cells does not matter.
- The streaming of `select` through `child_added`, and its 5-second timeout fallback. `select` is the top-k of the stored values.
- The wall clock. `getRetainerBucketKey` takes the current time as a parameter.
- Evaluators.ApplyBuiltin: values are exact reals, not IEEE doubles. Rounding in `div`, `multi` and `diff` is not modelled. Division by zero is a `NonFinite` outcome that the store refuses, so the cell keeps its value.
- Selection.TopK: the database's ordering of children that lack the ordering key (null sorts first) is not modelled. `select` and the range counts see only the partitions that hold the metric.
- CountQueries.Count: for the same reason, ranged counts count only partitions holding the metric.
- MetricQueries.Select, LegacyReads.GetMetrics, LegacyReads.GetTotal, LegacyQueries.Select, LegacyQueries.GetCount, LegacyQueries.Lesser, OlderQueries.Select, OlderQueries.GetCount and OlderQueries.Lesser: the same gap. Children without the metric are not read as null values sorted first, so an ascending `select` or a `lesser` count never includes them.
- Buckets.RetainerBucket: on the read side, a zero duration is an `InvalidDuration` error. In the code a time bound becomes the key "Infinity", "-Infinity" or "NaN", and `startAt`/`endAt` bound the scan by that string key. Only `valuesAsObject(true)` with both bounds set reaches `getEmptyBuckets`, which then loops without end. On the write side Buckets.WriteBucket models the Infinity and NaN buckets as the code writes them.
- Store.BucketNodes: lists integer buckets only. Saving under a zero-duration retainer writes cells under the keys "Infinity", "-Infinity" or "NaN". The database lists those after the integer keys, but no scan of the model sees them. Modelling them would need the database's key order over mixed integer and string keys, and timestamps that are NaN in `values`.
- RetainerQueries.ScanOf: for the same reason, scans only integer buckets. With a zero duration and no bounds, the code visits the non-integer buckets too. With a bound set, the code bounds the scan by a string key where the model reports `InvalidDuration`.
- RetainerQueries.ValuesAsObject: non-integer buckets are written but never read. Without bounds, the code's object for a zero-duration retainer holds the key "Infinity" (or "-Infinity", "NaN") with the stored value; the model's object has no such key.
- RetainerQueries.ValuesAsObjectAsWritten, RetainerQueries.Values and RetainerQueries.ValuesAsWritten: the same gap; a record for such a key would carry the timestamp NaN.
- Buckets.EmptyBuckets: the same `InvalidDuration` error stands in for the endless loop.
- PathKeys.DecodeSegmentsRoundTrip: holds for integer-valued fields only. String values can contain the separator, and PathKeys.PartitionKeyCollision shows two different records sharing a key.
- PathKeys.SamePartitionIffAgree: the "only if" direction holds for integer-valued fields only, for the same reason.
- ReportQueries.FilterIffAgree: likewise for integer-valued fields only.
- Ingest.SaveMetrics: one `now` for the whole batch. The code reads the clock once per retained write, so writes of one batch that straddle a bucket boundary can land in two buckets.
- Ingest.SaveMetricsWritesBuckets: for the same reason, every retained write of the batch is stated against the single `now`.
- Ingest.SaveMetrics: a `div` by zero is a `NonFinite` step that keeps the cell. In the code the transaction would try to store Infinity or NaN, which the database refuses, so the returned promise rejects. The model does not turn that into a batch error.
- Ingest.SaveMetrics: Firebase path rules other than the empty segment are not modelled. Keys with `.`, `#`, `$`, `[`, `]` or `/`, and over-long paths, are treated as plain strings.
- Ingest.FilterNames: filters are visited in registration order. JavaScript's `for…in` visits integer-like keys first, in ascending order, so a filter named "2" would come before the others. When saving succeeds, only the order of the issued targets differs, not their set. When it throws, the targets issued before the throw can differ as well.
- Ingest.MetricPlanIssued: for that reason, the prefix issued before an empty partition key follows registration order. With filters "x" (props ["a"]) and then "2" (no props), the code throws at "2" after the default write only, while the model also issues the write under "x".
- Ingest.RecordPlan: the fields of a record are taken in the record's own order. `for…in` over the record visits integer-like field names first, so the targets issued before a throw can differ.
- Ingest.RetainerPlan: the enabled retainers are taken in the order they were enabled, not in `for…in` order. A retainer with an integer-like name always throws, because `getRetainer("5")` reads the retainer named "". So a different set of targets can be issued before that throw.
- Ingest.FieldPlan: `properties[prop]` is a plain-object lookup, so a field named like an `Object.prototype` member ("constructor", "toString") passes the rule check in the code and then throws a `TypeError`. In the model such a field is unruled.
- Registry.AddMetric: an evaluator name must be registered. In the code an inherited name such as "constructor" also passes the check.
- Registry.AddRetainer: durations are integers. The code also accepts fractional or infinite durations.
- RetainerQueries.ValuesAsObject: a missing metric key is always a `NullReference` error. The code fails only when the scan visits at least one bucket, where `snap.child(null)` throws. With no stored bucket in range, the code resolves with `{}` or the zero seed.
- RetainerQueries.Values: object keys are ordered as numbers before the string sort. The ordering of non-integer or negative keys is not modelled.
- LegacyIngest.StatKey: the prefix part of `_getStatKey` is an opaque parameter. The code coerces the filter data to a string there, so the prefix is meaningless.
- `_getMetricKey`, called by both single-class builders (src/query.js:22, dist/query.js:36), is defined in neither registry. LegacyQueries.Selector and OlderQueries.Selector take the key function as a parameter.
- The older registry's cells are written under `ref.child(key)`, but its reads order the children of `ref`, so they do not meet. LegacyReads models the reads over the older layout, and LegacyIngest models the targets the writes issue.
- The user and auth code of the older registry: `_getUserUID`, `saveMetricsForUser`, `getMetricsForUser` and `_captureMetricValue`, which refers to an undefined `ref`.
- Constructor checks (dist/index.js:17-22), and record fields that are not integers.
- The test harness (test/test.js, test/helpers.js). The evaluator tests only supply expected end values; their "across time gaps" cases depend on real sleeping.

## Findings

| source | as written | input that shows it | evidently intended | confidence | as-written member | corrected member |
|---|---|---|---|---|---|---|
| src/retainerquery.js:54 | bucket keys are sorted with the default string sort | buckets 9 and 10: "10" sorts before "9", so the list runs backwards in time (RetainerQueries.StringSortMisorders) | records in ascending bucket (time) order, proved in RetainerQueries.ValuesTimestampsAscending | medium, not executed | RetainerQueries.ValuesAsWritten | RetainerQueries.Values |
| src/retainerquery.js:40-42 | a scanned bucket is kept when its value is not `undefined`, but a missing child reads as `null` | `valuesAsObject(true)` over a range where a stored bucket lacks this metric: that bucket reads null instead of 0 (RetainerQueries.NullOverridesFill) | skip buckets without the metric, so the zero fill shows | medium, not executed | RetainerQueries.ValuesAsObjectAsWritten | RetainerQueries.ValuesAsObject |
| src/index.js:202-205 | only `undefined` counts as an absent cell, but a fresh cell reads as `null` and goes through the evaluator | a fresh cell fed 50 stores −50 with `diff`, 0 with `multi`, and nothing with `min` or `first` (LegacyFold.FreshCellFindings) | a fresh cell takes the raw value, as the newer registry does (dist/index.js:224); the two folds differ only there (LegacyFold.FreshCellsDiffer) | medium, not executed | LegacyFold.CalculateStep | Cells.Step |

=== FILE: agreement.dfy ===
/**
 * Write/read agreement: the cell a metric query built by `filter(name, data)` and
 * a selector reads is the cell that saving a record with the same filter values
 * wrote, because both sides build the partition key and the metric key with the
 * same two functions.
 */
module Agreement {
  import opened Common
  import opened Assoc
  import opened Registry
  import opened PathKeys
  import opened Store
  import opened Ingest
  import opened ReportQueries
  import MQ = MetricQueries

  /** The metric query `filter(f, rec).<evaluator>(prop)`. */
  function QueryFor(c: Config, f: string, rec: Record, prop: string, e: string): (q: Option<MQ.MetricQuery>)
    ensures q.Some? <==> Filter(c, f, Some(rec)).Ok?
  {
    match Filter(c, f, Some(rec))
    case Ok(rq) => Some(CreateMetricQuery(c, rq, prop, e))
    case Err(_) => None
  }

  /** For a filter whose key is never empty, the query reads exactly the metric cell saving wrote. */
  lemma QueryReadsWrittenCell(c: Config, f: string, rec: Record, prop: string, e: string)
    requires Filterable(c, f) && f != ""
    requires f != "default" ==> |Lookup(c.filters, f).value| > 0
    requires |c.separator| > 0
    ensures QueryFor(c, f, rec, prop, e).Some?
    ensures var q := QueryFor(c, f, rec, prop, e).value;
            && Truthy(q.filterKey) && Truthy(q.metricKey) && q.filter.Some?
            && MQ.ValueCell(q) == CellFor(c, f, rec, prop, e, None)
  {
    var k := FilterKey(c, f, rec).value;
    assert k != "";
    assert Filter(c, f, Some(rec)).value.filterKey == Some(k);
  }

  /**
   * After a batch is saved without an error, every ruled field of every record can be
   * read back through `filter(f, record)` and the selector of any of its evaluators:
   * the read succeeds and finds a value.
   */
  lemma SavedMetricsAreReadable(c: Config, s: Store, records: seq<Record>, now: int, i: nat, j: nat, m: nat, f: string)
    requires SaveMetrics(c, records, now).failure.None?
    requires i < |records| && j < |records[i]|
    requires records[i][j].0 in c.properties
    requires m < |c.properties[records[i][j].0].metrics|
    requires Filterable(c, f) && f != ""
    requires f != "default" ==> |Lookup(c.filters, f).value| > 0
    requires |c.separator| > 0
    ensures var prop, e := records[i][j].0, c.properties[records[i][j].0].metrics[m];
            var after := ApplyTargets(c, s, SaveMetrics(c, records, now).issued);
            && QueryFor(c, f, records[i], prop, e).Some?
            && MQ.Value(after, QueryFor(c, f, records[i], prop, e).value).Ok?
            && MQ.Value(after, QueryFor(c, f, records[i], prop, e).value).value.Some?
  {
    var prop, e := records[i][j].0, c.properties[records[i][j].0].metrics[m];
    var ts := SaveMetrics(c, records, now).issued;
    SaveMetricsWritesMetrics(c, records, now, i, j, m, f);
    var t := Target(CellFor(c, f, records[i], prop, e, None), e, records[i][j].1 as real);
    var k :| 0 <= k < |ts| && ts[k] == t;
    ApplyTouchedPresent(c, s, ts, k);
    QueryReadsWrittenCell(c, f, records[i], prop, e);
  }

  /** A cell no saved target aims at, and the store did not hold, reads as null. */
  lemma UnwrittenCellReadsNull(c: Config, s: Store, ts: seq<Target>, q: MQ.MetricQuery)
    requires Truthy(q.filterKey) && Truthy(q.metricKey) && q.filter.Some?
    requires MQ.ValueCell(q) !in Keys(s)
    requires forall i :: 0 <= i < |ts| ==> ts[i].cell != MQ.ValueCell(q)
    ensures MQ.Value(ApplyTargets(c, s, ts), q) == Ok(None)
  {
    ApplyUntouched(c, s, ts, MQ.ValueCell(q));
  }
}

=== FILE: assoc.dfy ===
/**
 * Insertion-ordered maps, as JavaScript objects are: a sequence of (key, value)
 * pairs. Lookup finds the first pair with the key; Upsert replaces that pair in
 * place, or appends a new one, so enumeration order is the order of first insertion.
 */
module Assoc {
  import opened Common

  type Assoc<K, V> = seq<(K, V)>

  function Keys<K, V>(s: Assoc<K, V>): (ks: seq<K>)
    ensures |ks| == |s|
    ensures forall i :: 0 <= i < |s| ==> ks[i] == s[i].0
  {
    if |s| == 0 then [] else [s[0].0] + Keys(s[1..])
  }

  function Lookup<K(==), V>(s: Assoc<K, V>, k: K): (r: Option<V>)
    ensures r.Some? <==> k in Keys(s)
    ensures r.Some? ==> (k, r.value) in s
  {
    if |s| == 0 then None
    else if s[0].0 == k then Some(s[0].1)
    else Lookup(s[1..], k)
  }

  function Upsert<K(==), V>(s: Assoc<K, V>, k: K, v: V): (r: Assoc<K, V>)
    ensures k in Keys(s) ==> Keys(r) == Keys(s)
    ensures k !in Keys(s) ==> Keys(r) == Keys(s) + [k]
  {
    if |s| == 0 then [(k, v)]
    else if s[0].0 == k then [(k, v)] + s[1..]
    else [s[0]] + Upsert(s[1..], k, v)
  }

  /** No key occurs twice: what every JavaScript object satisfies. */
  predicate DistinctKeys<K(==), V>(s: Assoc<K, V>)
  {
    forall i, j :: 0 <= i < j < |s| ==> s[i].0 != s[j].0
  }

  /** Upsert makes the key map to the new value and leaves every other key alone. */
  lemma {:induction false} LookupUpsert<K, V>(s: Assoc<K, V>, k: K, v: V, k': K)
    ensures Lookup(Upsert(s, k, v), k') == if k' == k then Some(v) else Lookup(s, k')
  {
    if |s| == 0 {
    } else if s[0].0 == k {
      assert Upsert(s, k, v)[1..] == s[1..];
    } else {
      var r := Upsert(s, k, v);
      assert r[1..] == Upsert(s[1..], k, v);
      LookupUpsert(s[1..], k, v, k');
    }
  }

  lemma UpsertKeepsDistinct<K, V>(s: Assoc<K, V>, k: K, v: V)
    requires DistinctKeys(s)
    ensures DistinctKeys(Upsert(s, k, v))
  {
    var r := Upsert(s, k, v);
    assert Keys(r) == Keys(s) || Keys(r) == Keys(s) + [k];
    forall i, j | 0 <= i < j < |r|
      ensures r[i].0 != r[j].0
    {
      assert Keys(r)[i] == r[i].0 && Keys(r)[j] == r[j].0;
      if j == |s| {
        assert Keys(r) == Keys(s) + [k] && k !in Keys(s);
        assert r[i].0 == Keys(s)[i];
      } else {
        assert Keys(r)[i] == Keys(s)[i] && Keys(r)[j] == Keys(s)[j];
        assert s[i].0 != s[j].0;
      }
    }
  }

  /** In a map with distinct keys, a pair that is present is the one Lookup finds. */
  lemma {:induction false} LookupOfMember<K, V>(s: Assoc<K, V>, k: K, v: V)
    requires DistinctKeys(s)
    requires (k, v) in s
    ensures Lookup(s, k) == Some(v)
  {
    if s[0] != (k, v) {
      assert DistinctKeys(s[1..]) by {
        forall i, j | 0 <= i < j < |s[1..]| ensures s[1..][i].0 != s[1..][j].0 {
          assert s[1..][i] == s[i + 1] && s[1..][j] == s[j + 1];
        }
      }
      var i :| 0 <= i < |s| && s[i] == (k, v);
      assert i > 0;
      assert s[0].0 != k;
      LookupOfMember(s[1..], k, v);
    }
  }
}

=== FILE: buckets.dfy ===
/**
 * Time buckets of a retainer: a time falls in bucket floor(time / duration), whose
 * key is that integer rendered in decimal, and a range of times is covered by the
 * dense run of buckets from the start's bucket to the end's.
 */
module Buckets {
  import opened Common
  import opened Text
  import opened Registry

  /** `Math.floor(t / d)` computed exactly. */
  function FloorDiv(t: int, d: int): (q: int)
    requires d != 0
    ensures d > 0 ==> q * d <= t < q * d + d
    ensures d < 0 ==> q * d >= t > q * d + d
  {
    if d > 0 then t / d else (-t) / (-d)
  }

  /** The floor is the only integer with that property. */
  lemma FloorDivUnique(t: int, d: int, q: int)
    requires d > 0
    requires q * d <= t < q * d + d
    ensures q == FloorDiv(t, d)
  {
    var f := FloorDiv(t, d);
    if q < f {
      assert (q + 1) * d <= f * d by { MulMono(q + 1, f, d); }
    } else if q > f {
      assert (f + 1) * d <= q * d by { MulMono(f + 1, q, d); }
    }
  }

  lemma MulMono(a: int, b: int, d: int)
    requires a <= b && d > 0
    ensures a * d <= b * d
  {
  }

  /** Later times never fall in earlier buckets. */
  lemma FloorDivMonotone(t1: int, t2: int, d: int)
    requires d > 0 && t1 <= t2
    ensures FloorDiv(t1, d) <= FloorDiv(t2, d)
  {
    var q1, q2 := FloorDiv(t1, d), FloorDiv(t2, d);
    if q1 > q2 {
      MulMono(q2 + 1, q1, d);
    }
  }

  /**
   * The bucket of a time for a retainer; a time of 0 stands for a missing time, which
   * is replaced by the clock reading `now`. Durations of 0 are refused.
   */
  function RetainerBucket(c: Config, retainer: string, time: int, now: int): (r: Result<int>)
    ensures GetRetainer(c, retainer).Err? ==> r == Err(UnknownRetainer)
    ensures GetRetainer(c, retainer) == Ok(0) ==> r == Err(InvalidDuration)
    ensures r.Ok? ==> GetRetainer(c, retainer).Ok? && GetRetainer(c, retainer).value != 0
    ensures r.Ok? && GetRetainer(c, retainer).value > 0 ==>
              var d := GetRetainer(c, retainer).value;
              var t := if time == 0 then now else time;
              r.value * d <= t < r.value * d + d
  {
    match GetRetainer(c, retainer)
    case Err(e) => Err(e)
    case Ok(d) =>
      if d == 0 then Err(InvalidDuration)
      else Ok(FloorDiv(if time == 0 then now else time, d))
  }

  /** What `Math.floor(t / d)` yields: an integer, or an infinity or NaN when d is 0. */
  datatype Floor = Whole(n: int) | PlusInfinity | MinusInfinity | NotANumber

  /** `Math.floor(t / d)` for any duration, as JavaScript computes it. */
  function FloorOf(t: int, d: int): (q: Floor)
    ensures q.Whole? <==> d != 0
    ensures d > 0 ==> q.n * d <= t < q.n * d + d
    ensures d < 0 ==> q.n * d >= t > q.n * d + d
    ensures d == 0 ==> (q == PlusInfinity <==> t > 0) && (q == MinusInfinity <==> t < 0)
  {
    if d != 0 then Whole(FloorDiv(t, d))
    else if t > 0 then PlusInfinity
    else if t < 0 then MinusInfinity
    else NotANumber
  }

  /** `toString()` of such a number. */
  function FloorName(q: Floor): (s: string)
    ensures q.Whole? ==> ParseInt(s) == Some(q.n)
    ensures !q.Whole? ==> exists k :: 0 <= k < |s| && !IsNumeralChar(s[k])
  {
    match q
    case Whole(n) => IntRoundTrip(n); IntToString(n)
    case PlusInfinity => assert !IsNumeralChar("Infinity"[0]); "Infinity"
    case MinusInfinity => assert !IsNumeralChar("-Infinity"[1]); "-Infinity"
    case NotANumber => assert !IsNumeralChar("NaN"[0]); "NaN"
  }

  /** Different buckets are different keys, so a bucket stands for its key. */
  lemma FloorNameInjective(a: Floor, b: Floor)
    requires FloorName(a) == FloorName(b)
    ensures a == b
  {
    if a.Whole? && b.Whole? {
      IntToStringInjective(a.n, b.n);
    }
  }

  /**
   * The bucket saving writes to: `getRetainerBucketKey(retainer)` reads the clock,
   * here `now`, and divides by the duration whatever it is, so a zero duration gives
   * the "Infinity" bucket (or "-Infinity", or "NaN" at time 0).
   */
  function WriteBucket(c: Config, retainer: string, now: int): (r: Result<Floor>)
    ensures r.Err? <==> GetRetainer(c, retainer).Err?
    ensures r.Err? ==> r.error == UnknownRetainer
    ensures r.Ok? ==> r.value == FloorOf(now, GetRetainer(c, retainer).value)
  {
    match GetRetainer(c, retainer)
    case Err(e) => Err(e)
    case Ok(d) => Ok(FloorOf(now, d))
  }

  /** With a nonzero duration the written bucket is the one a time range resolves `now` to. */
  lemma WriteBucketAgrees(c: Config, retainer: string, now: int)
    requires GetRetainer(c, retainer).Ok? && GetRetainer(c, retainer).value != 0
    ensures WriteBucket(c, retainer, now) == Ok(Whole(RetainerBucket(c, retainer, 0, now).value))
  {
  }

  /** The bucket key: the bucket rendered in decimal. */
  function RetainerBucketKey(c: Config, retainer: string, time: int, now: int): (r: Result<string>)
    ensures r.Ok? <==> RetainerBucket(c, retainer, time, now).Ok?
    ensures r.Ok? ==> ParseInt(r.value) == Some(RetainerBucket(c, retainer, time, now).value)
  {
    match RetainerBucket(c, retainer, time, now)
    case Err(e) => Err(e)
    case Ok(b) =>
      IntRoundTrip(b);
      Ok(IntToString(b))
  }

  /** Every bucket from `lo` to `hi`, in order, each holding 0. */
  function ZeroRange(lo: int, hi: int): (r: seq<(int, real)>)
    decreases hi - lo
    ensures |r| == if hi < lo then 0 else hi - lo + 1
    ensures forall i :: 0 <= i < |r| ==> r[i] == (lo + i, 0.0)
  {
    if hi < lo then [] else ZeroRange(lo, hi - 1) + [(hi, 0.0)]
  }

  /** The zero-filled buckets of a time range, built by counting up from the start's bucket. */
  method EmptyBuckets(c: Config, retainer: string, start: int, end: int) returns (r: Result<seq<(int, real)>>)
    ensures r.Ok? <==> GetRetainer(c, retainer).Ok? && GetRetainer(c, retainer).value != 0
    ensures r.Err? ==> r.error == (if GetRetainer(c, retainer).Err? then UnknownRetainer else InvalidDuration)
    ensures r.Ok? ==>
              var d := GetRetainer(c, retainer).value;
              var lo, hi := FloorDiv(start, d), FloorDiv(end, d);
              && |r.value| == (if hi < lo then 0 else hi - lo + 1)
              && (forall i :: 0 <= i < |r.value| ==> r.value[i] == (lo + i, 0.0))
              && r.value == ZeroRange(lo, hi)
  {
    var g := GetRetainer(c, retainer);
    if g.Err? {
      return Err(UnknownRetainer);
    }
    var d := g.value;
    if d == 0 {
      return Err(InvalidDuration);
    }
    var lo := FloorDiv(start, d);
    var hi := FloorDiv(end, d);
    var buckets: seq<(int, real)> := [];
    var cur := lo;
    while cur <= hi
      invariant lo <= cur
      invariant cur <= hi + 1 || (hi < lo && cur == lo)
      invariant |buckets| == cur - lo
      invariant forall i :: 0 <= i < |buckets| ==> buckets[i] == (lo + i, 0.0)
      decreases hi - cur
    {
      buckets := buckets + [(cur, 0.0)];
      cur := cur + 1;
    }
    return Ok(buckets);
  }

  /** A bucket is in the zero range exactly when it lies between the ends. */
  lemma ZeroRangeMembers(lo: int, hi: int, b: int)
    ensures (b, 0.0) in ZeroRange(lo, hi) <==> lo <= b <= hi
  {
    if lo <= b <= hi {
      assert ZeroRange(lo, hi)[b - lo] == (b, 0.0);
    }
  }
}

=== FILE: cells.dfy ===
/**
 * The transaction body that folds a new value into one metric cell, and the fold
 * of a whole sequence of observations into a cell. Each built-in evaluator's fold
 * is tied to an independent reference definition (maximum, sum, product, ...).
 */
module Cells {
  import opened Common
  import opened Evaluators

  /**
   * One atomic update of a cell. An absent cell takes the raw value; otherwise the
   * evaluator decides, and `Keep` leaves the old value. A missing evaluator (the call
   * throws inside the transaction) and a non-finite result (the store refuses it)
   * both abort the transaction, so the cell keeps its value.
   */
  function Step(r: Option<Reducer>, cell: Option<real>, newVal: real): (c: Option<real>)
    ensures c.Some?
    ensures cell.None? ==> c == Some(newVal)
    ensures cell.Some? && r.Some? && Apply(r.value, newVal, cell.value).Put? ==>
              c == Some(Apply(r.value, newVal, cell.value).v)
    ensures cell.Some? && (r.None? || !Apply(r.value, newVal, cell.value).Put?) ==> c == cell
  {
    match cell
    case None => Some(newVal)
    case Some(prev) =>
      if r.None? then cell
      else
        match Apply(r.value, newVal, prev)
        case Put(v) => Some(v)
        case _ => cell
  }

  /** Folding the observations `vs` into a cell, first observation first. */
  function FoldAll(r: Option<Reducer>, cell: Option<real>, vs: seq<real>): (c: Option<real>)
    ensures |vs| > 0 ==> c.Some?
    ensures |vs| == 0 ==> c == cell
  {
    if |vs| == 0 then cell else Step(r, FoldAll(r, cell, vs[..|vs| - 1]), vs[|vs| - 1])
  }

  /** A result of 0 is stored: only null/undefined results keep the old value. */
  lemma ZeroResultIsStored()
    ensures Step(Some(Native(Diff)), Some(5.0), 5.0) == Some(0.0)
    ensures Step(Some(Native(Multi)), Some(7.0), 0.0) == Some(0.0)
  {
  }

  /** Splitting the fold after its first observation. */
  lemma {:induction false} FoldFront(r: Option<Reducer>, cell: Option<real>, v: real, vs: seq<real>)
    ensures FoldAll(r, cell, [v] + vs) == FoldAll(r, Step(r, cell, v), vs)
  {
    var ws := [v] + vs;
    if |vs| == 0 {
      assert ws[..|ws| - 1] == [];
    } else {
      assert ws[..|ws| - 1] == [v] + vs[..|vs| - 1];
      FoldFront(r, cell, v, vs[..|vs| - 1]);
    }
  }

  // ---------------------------------------------------------------- reference definitions

  function SeqMax(vs: seq<real>): (m: real)
    requires |vs| > 0
    ensures m in vs
    ensures forall i :: 0 <= i < |vs| ==> vs[i] <= m
  {
    if |vs| == 1 then vs[0]
    else
      var m := SeqMax(vs[..|vs| - 1]);
      assert forall i :: 0 <= i < |vs| - 1 ==> vs[i] == vs[..|vs| - 1][i];
      if vs[|vs| - 1] > m then vs[|vs| - 1] else m
  }

  function SeqMin(vs: seq<real>): (m: real)
    requires |vs| > 0
    ensures m in vs
    ensures forall i :: 0 <= i < |vs| ==> m <= vs[i]
  {
    if |vs| == 1 then vs[0]
    else
      var m := SeqMin(vs[..|vs| - 1]);
      assert forall i :: 0 <= i < |vs| - 1 ==> vs[i] == vs[..|vs| - 1][i];
      if vs[|vs| - 1] < m then vs[|vs| - 1] else m
  }

  function SeqSum(vs: seq<real>): real
  {
    if |vs| == 0 then 0.0 else SeqSum(vs[..|vs| - 1]) + vs[|vs| - 1]
  }

  function SeqProd(vs: seq<real>): real
  {
    if |vs| == 0 then 1.0 else SeqProd(vs[..|vs| - 1]) * vs[|vs| - 1]
  }

  predicate NoZeros(vs: seq<real>)
  {
    forall i :: 0 <= i < |vs| ==> vs[i] != 0.0
  }

  lemma MulNonZero(q: real, v: real)
    requires q != 0.0 && v != 0.0
    ensures q * v != 0.0
  {
  }

  lemma DivDiv(a: real, q: real, v: real)
    requires q != 0.0 && v != 0.0
    ensures q * v != 0.0
    ensures (a / q) / v == a / (q * v)
  {
    MulNonZero(q, v);
  }

  lemma MulSwap(a: real, x: real, b: real)
    ensures (a * x) * b == (a * b) * x
  {
  }

  // ---------------------------------------------------------------- folds of the built-ins

  /** max keeps the largest observation. */
  lemma {:induction false} FoldMax(vs: seq<real>)
    requires |vs| > 0
    ensures FoldAll(Some(Native(Max)), None, vs) == Some(SeqMax(vs))
  {
    if |vs| > 1 {
      FoldMax(vs[..|vs| - 1]);
    }
  }

  /** min keeps the smallest observation. */
  lemma {:induction false} FoldMin(vs: seq<real>)
    requires |vs| > 0
    ensures FoldAll(Some(Native(Min)), None, vs) == Some(SeqMin(vs))
  {
    if |vs| > 1 {
      FoldMin(vs[..|vs| - 1]);
    }
  }

  /** first never changes a written cell. */
  lemma {:induction false} FoldFirstKeeps(a: real, vs: seq<real>)
    ensures FoldAll(Some(Native(First)), Some(a), vs) == Some(a)
  {
    if |vs| > 0 {
      FoldFirstKeeps(a, vs[..|vs| - 1]);
    }
  }

  lemma FoldFirst(vs: seq<real>)
    requires |vs| > 0
    ensures FoldAll(Some(Native(First)), None, vs) == Some(vs[0])
  {
    assert vs == [vs[0]] + vs[1..];
    FoldFront(Some(Native(First)), None, vs[0], vs[1..]);
    FoldFirstKeeps(vs[0], vs[1..]);
  }

  /** last always takes the newest observation, whatever the cell held. */
  lemma FoldLast(cell: Option<real>, vs: seq<real>)
    requires |vs| > 0
    ensures FoldAll(Some(Native(Last)), cell, vs) == Some(vs[|vs| - 1])
  {
  }

  lemma {:induction false} FoldSum(vs: seq<real>)
    requires |vs| > 0
    ensures FoldAll(Some(Native(Sum)), None, vs) == Some(SeqSum(vs))
  {
    if |vs| == 1 {
      assert vs[..0] == [];
    } else {
      FoldSum(vs[..|vs| - 1]);
    }
  }

  lemma {:induction false} FoldMulti(vs: seq<real>)
    requires |vs| > 0
    ensures FoldAll(Some(Native(Multi)), None, vs) == Some(SeqProd(vs))
  {
    if |vs| == 1 {
      assert vs[..0] == [];
    } else {
      var p := vs[..|vs| - 1];
      FoldMulti(p);
      assert FoldAll(Some(Native(Multi)), None, vs)
          == Step(Some(Native(Multi)), Some(SeqProd(p)), vs[|vs| - 1]);
      assert SeqProd(vs) == SeqProd(p) * vs[|vs| - 1];
    }
  }

  /** diff subtracts every later observation from the first one. */
  lemma {:induction false} FoldDiff(vs: seq<real>)
    requires |vs| > 0
    ensures FoldAll(Some(Native(Diff)), None, vs) == Some(vs[0] - SeqSum(vs[1..]))
  {
    if |vs| == 1 {
      assert vs[1..] == [];
    } else {
      var p := vs[..|vs| - 1];
      FoldDiff(p);
      assert vs[1..][..|vs[1..]| - 1] == p[1..];
    }
  }

  /** div divides the first observation by every later one. */
  lemma {:induction false} FoldDiv(vs: seq<real>)
    requires |vs| > 0
    requires NoZeros(vs[1..])
    ensures SeqProd(vs[1..]) != 0.0
    ensures FoldAll(Some(Native(Div)), None, vs) == Some(vs[0] / SeqProd(vs[1..]))
  {
    if |vs| == 1 {
      assert vs[1..] == [];
    } else {
      var p := vs[..|vs| - 1];
      assert p[1..] == vs[1..][..|vs[1..]| - 1];
      assert NoZeros(p[1..]) by {
        forall i | 0 <= i < |p[1..]| ensures p[1..][i] != 0.0 {
          assert p[1..][i] == vs[1..][i];
        }
      }
      FoldDiv(p);
      var a, q, v := vs[0], SeqProd(p[1..]), vs[|vs| - 1];
      assert v == vs[1..][|vs[1..]| - 1];
      assert v != 0.0;
      assert SeqProd(vs[1..]) == q * v;
      MulNonZero(q, v);
      DivDiv(a, q, v);
    }
  }

  /** The evaluator tests' inputs 50, 2, 5 end at these values. */
  lemma TestInputsFold()
    ensures FoldAll(Some(Native(Sum)), None, [50.0, 2.0, 5.0]) == Some(57.0)
    ensures FoldAll(Some(Native(Diff)), None, [50.0, 2.0, 5.0]) == Some(43.0)
    ensures FoldAll(Some(Native(Multi)), None, [50.0, 2.0, 5.0]) == Some(500.0)
    ensures FoldAll(Some(Native(Div)), None, [50.0, 2.0, 5.0]) == Some(5.0)
    ensures FoldAll(Some(Native(Max)), None, [50.0, 2.0, 5.0]) == Some(50.0)
    ensures FoldAll(Some(Native(Min)), None, [50.0, 2.0, 5.0]) == Some(2.0)
    ensures FoldAll(Some(Native(First)), None, [50.0, 2.0, 5.0]) == Some(50.0)
    ensures FoldAll(Some(Native(Last)), None, [50.0, 2.0, 5.0]) == Some(5.0)
  {
    var vs := [50.0, 2.0, 5.0];
    FoldSum(vs);
    FoldDiff(vs);
    FoldMulti(vs);
    FoldDiv(vs);
    FoldMax(vs);
    FoldMin(vs);
    FoldFirst(vs);
    FoldLast(None, vs);
  }

  // ---------------------------------------------------------------- order (in)dependence

  lemma {:induction false} SeqSumConcat(a: seq<real>, b: seq<real>)
    ensures SeqSum(a + b) == SeqSum(a) + SeqSum(b)
  {
    if |b| > 0 {
      assert (a + b)[..|a + b| - 1] == a + b[..|b| - 1];
      SeqSumConcat(a, b[..|b| - 1]);
    } else {
      assert a + b == a;
    }
  }

  lemma {:induction false} SeqProdConcat(a: seq<real>, b: seq<real>)
    ensures SeqProd(a + b) == SeqProd(a) * SeqProd(b)
  {
    if |b| > 0 {
      assert (a + b)[..|a + b| - 1] == a + b[..|b| - 1];
      SeqProdConcat(a, b[..|b| - 1]);
    } else {
      assert a + b == a;
    }
  }

  /**
   * Matches the last element of `vs` with an occurrence in its permutation `ws`;
   * what is left of the two sequences is again a permutation pair.
   */
  lemma MatchLast(vs: seq<real>, ws: seq<real>) returns (j: nat)
    requires |vs| > 0
    requires multiset(vs) == multiset(ws)
    ensures j < |ws| && ws[j] == vs[|vs| - 1]
    ensures multiset(vs[..|vs| - 1]) == multiset(ws[..j] + ws[j + 1..])
  {
    var x := vs[|vs| - 1];
    assert vs == vs[..|vs| - 1] + [x];
    assert x in multiset(ws);
    assert x in ws;
    j :| 0 <= j < |ws| && ws[j] == x;
    assert ws == ws[..j] + [x] + ws[j + 1..];
    assert multiset(ws) == multiset(ws[..j] + ws[j + 1..]) + multiset{x};
    assert multiset(vs) == multiset(vs[..|vs| - 1]) + multiset{x};
    assert multiset(vs[..|vs| - 1]) == multiset(vs) - multiset{x};
    assert multiset(ws[..j] + ws[j + 1..]) == multiset(ws) - multiset{x};
  }

  /** Taking one term out of a sum. */
  lemma {:induction false} SeqSumRemove(ws: seq<real>, j: nat)
    requires j < |ws|
    ensures SeqSum(ws) == SeqSum(ws[..j] + ws[j + 1..]) + ws[j]
  {
    var a, x, b := ws[..j], ws[j], ws[j + 1..];
    assert ws == (a + [x]) + b;
    SeqSumConcat(a + [x], b);
    SeqSumConcat(a, [x]);
    SeqSumConcat(a, b);
    assert [x][..0] == [];
  }

  lemma {:induction false} SeqSumPermutation(vs: seq<real>, ws: seq<real>)
    requires multiset(vs) == multiset(ws)
    ensures SeqSum(vs) == SeqSum(ws)
  {
    if |vs| == 0 {
      assert |ws| == |multiset(ws)| == 0;
    } else {
      var j := MatchLast(vs, ws);
      SeqSumPermutation(vs[..|vs| - 1], ws[..j] + ws[j + 1..]);
      SeqSumRemove(ws, j);
    }
  }


  /** Taking one factor out of a product. */
  lemma {:induction false} SeqProdRemove(ws: seq<real>, j: nat)
    requires j < |ws|
    ensures SeqProd(ws) == SeqProd(ws[..j] + ws[j + 1..]) * ws[j]
  {
    assert ws == ws[..j] + [ws[j]] + ws[j + 1..];
    SeqProdMiddle(ws[..j], ws[j], ws[j + 1..]);
  }

  lemma SeqProdMiddle(a: seq<real>, x: real, b: seq<real>)
    ensures SeqProd(a + [x] + b) == SeqProd(a + b) * x
  {
    SeqProdConcat(a + [x], b);
    assert (a + [x])[..|a|] == a;
    SeqProdConcat(a, b);
    MulSwap(SeqProd(a), x, SeqProd(b));
  }

  lemma {:induction false} SeqProdPermutation(vs: seq<real>, ws: seq<real>)
    requires multiset(vs) == multiset(ws)
    ensures SeqProd(vs) == SeqProd(ws)
  {
    if |vs| == 0 {
      assert |ws| == |multiset(ws)| == 0;
    } else {
      var j := MatchLast(vs, ws);
      SeqProdPermutation(vs[..|vs| - 1], ws[..j] + ws[j + 1..]);
      SeqProdRemove(ws, j);
    }
  }


  /** sum and multi do not depend on the order in which observations arrive. */
  lemma SumMultiOrderIndependent(vs: seq<real>, ws: seq<real>)
    requires |vs| > 0
    requires multiset(vs) == multiset(ws)
    ensures FoldAll(Some(Native(Sum)), None, vs) == FoldAll(Some(Native(Sum)), None, ws)
    ensures FoldAll(Some(Native(Multi)), None, vs) == FoldAll(Some(Native(Multi)), None, ws)
  {
    assert |ws| == |multiset(ws)| == |multiset(vs)| == |vs|;
    FoldSum(vs);
    FoldSum(ws);
    FoldMulti(vs);
    FoldMulti(ws);
    SeqSumPermutation(vs, ws);
    SeqProdPermutation(vs, ws);
  }

  /** diff, div, first and last do: swapping the first two test inputs changes each result. */
  lemma OrderDependentEvaluators()
    ensures FoldAll(Some(Native(Diff)), None, [50.0, 2.0, 5.0]) != FoldAll(Some(Native(Diff)), None, [2.0, 50.0, 5.0])
    ensures FoldAll(Some(Native(Div)), None, [50.0, 2.0, 5.0]) != FoldAll(Some(Native(Div)), None, [2.0, 50.0, 5.0])
    ensures FoldAll(Some(Native(First)), None, [50.0, 2.0, 5.0]) != FoldAll(Some(Native(First)), None, [2.0, 50.0, 5.0])
    ensures FoldAll(Some(Native(Last)), None, [50.0, 2.0, 5.0]) != FoldAll(Some(Native(Last)), None, [50.0, 5.0, 2.0])
  {
    FoldDiff([50.0, 2.0, 5.0]);
    FoldDiff([2.0, 50.0, 5.0]);
    FoldDiv([50.0, 2.0, 5.0]);
    FoldDiv([2.0, 50.0, 5.0]);
    FoldFirst([50.0, 2.0, 5.0]);
    FoldFirst([2.0, 50.0, 5.0]);
  }
}

=== FILE: common.dfy ===
/** Shared result types and the errors the reporting engine throws. */
module Common {

  datatype Option<+T> = None | Some(value: T)

  /** One constructor per distinct `throw` (or JavaScript TypeError) of the engine. */
  datatype Error =
    | EvaluatorNameRequired   // 'evaluator name is required'
    | EvaluatorNotFunction    // 'method must be a function ...'
    | FilterNameRequired      // 'filter name is required'
    | CannotOverrideDefault   // 'cannot override default filter'
    | FilterPropsNotArray     // 'props should be an array ...'
    | PropertyNameRequired    // 'property name is required'
    | MetricsNotArray         // 'metrics must be an array of evaluator names'
    | InvalidEvaluators       // 'metrics contains one or more invalid evaluators'
    | RetainerNameRequired    // 'retainer name is required'
    | InvalidDuration         // 'duration is invalid'
    | UnknownProperty         // enableRetainer on a property without a rule (TypeError)
    | UnknownFilter           // 'Filter name does not exist'
    | UnknownRetainer         // a retainer name that neither exists nor derives (TypeError)
    | FilterKeyNotSet         // 'Filter key not set'
    | MetricKeyNotSet         // 'Metric key not set'
    | NullReference           // a query dereferences a field that was never set (TypeError)
    | InvalidPath             // the database client refuses `child("")`
    | NotAnArray              // `forEach` called on a value that is not an array (TypeError)

  datatype Result<+T> = Ok(value: T) | Err(error: Error)

  /** JavaScript truthiness of an optional string: null, undefined and "" are falsy. */
  predicate Truthy(s: Option<string>)
  {
    s.Some? && s.value != ""
  }
}

=== FILE: countquery.dfy ===
/**
 * CountQuery: the filter, partition and metric keys of a metric query plus a
 * comparison and its bounds. Counting orders the partitions of the filter by the
 * metric and counts those the comparison keeps; with no comparison it counts every
 * partition of the filter.
 */
module CountQueries {
  import opened Common
  import opened Selection
  import opened Store

  datatype CountQuery = CountQuery(
    filter: Option<string>,
    filterKey: Option<string>,
    metricKey: Option<string>,
    comparison: Option<Comparison>,
    v1: Option<real>,
    v2: Option<real>)

  const NewCountQuery: CountQuery := CountQuery(None, None, None, None, None, None)

  /** Records the comparison and both bounds as given. */
  function SetComparison(q: CountQuery, cmp: Comparison, v1: Option<real>, v2: Option<real>): (r: CountQuery)
    ensures r.comparison == Some(cmp) && r.v1 == v1 && r.v2 == v2
    ensures r.filter == q.filter && r.filterKey == q.filterKey && r.metricKey == q.metricKey
  {
    q.(comparison := Some(cmp), v1 := v1, v2 := v2)
  }

  /**
   * The number of partitions the query keeps. Ordering by a missing metric key or
   * reading a missing filter node throws.
   */
  function Count(s: Store, q: CountQuery): (r: Result<nat>)
    ensures r.Err? <==> q.filter.None? || q.metricKey.None?
    ensures r.Err? ==> r.error == NullReference
    ensures r.Ok? && q.comparison.None? ==> r.value == |Partitions(s, q.filter.value)|
    ensures r.Ok? && q.comparison.Some? ==>
              var vs := MetricValues(s, q.filter.value, q.metricKey.value);
              && r.value == |MatchSet(vs, q.comparison, q.v1, q.v2)|
              && r.value <= |vs|
              && (r.value == |vs| <==> forall i :: 0 <= i < |vs| ==> Matches(q.comparison, q.v1, q.v2, vs[i]))
              && (r.value == 0 <==> forall i :: 0 <= i < |vs| ==> !Matches(q.comparison, q.v1, q.v2, vs[i]))
  {
    if q.filter.None? || q.metricKey.None? then Err(NullReference)
    else if q.comparison.None? then Ok(|Partitions(s, q.filter.value)|)
    else Ok(CountWhere(MetricValues(s, q.filter.value, q.metricKey.value), q.comparison, q.v1, q.v2))
  }

  /** `lesser` and `greater` are inclusive: together they count each value once and the ties twice. */
  lemma LesserGreaterInclusive(s: Store, q: CountQuery, v: real)
    requires q.filter.Some? && q.metricKey.Some?
    ensures var vs := MetricValues(s, q.filter.value, q.metricKey.value);
            Count(s, SetComparison(q, Lesser, Some(v), None)).value
              + Count(s, SetComparison(q, Greater, Some(v), None)).value
            == |vs| + Count(s, SetComparison(q, Between, Some(v), Some(v))).value
  {
    LesserPlusGreater(MetricValues(s, q.filter.value, q.metricKey.value), v);
  }
}

=== FILE: evaluators.dfy ===
/**
 * The evaluator table: named reducers that fold a new observation into the value
 * already held by a metric cell. An evaluator answers `Keep` where the JavaScript
 * function returns null or undefined ("leave the old value"), and `NonFinite` where
 * JavaScript arithmetic leaves the finite numbers (a division by zero).
 */
module Evaluators {
  import opened Common

  datatype Builtin = Max | Min | First | Last | Sum | Diff | Multi | Div

  datatype Outcome = Keep | Put(v: real) | NonFinite

  /** A registered evaluator: one of the eight built-ins, or a caller-supplied function. */
  datatype Reducer = Native(kind: Builtin) | Custom(f: (real, real) -> Outcome)

  function Name(b: Builtin): string
  {
    match b
    case Max => "max"
    case Min => "min"
    case First => "first"
    case Last => "last"
    case Sum => "sum"
    case Diff => "diff"
    case Multi => "multi"
    case Div => "div"
  }

  /** The built-in evaluator registered under a name, if any. */
  function ParseName(s: string): (r: Option<Builtin>)
    ensures r.Some? ==> Name(r.value) == s
  {
    if s == "max" then Some(Max)
    else if s == "min" then Some(Min)
    else if s == "first" then Some(First)
    else if s == "last" then Some(Last)
    else if s == "sum" then Some(Sum)
    else if s == "diff" then Some(Diff)
    else if s == "multi" then Some(Multi)
    else if s == "div" then Some(Div)
    else None
  }

  /** Every built-in is found again under its own name, so the eight names are distinct. */
  lemma ParseNameOfName(b: Builtin)
    ensures ParseName(Name(b)) == Some(b)
  {
  }

  lemma NamesDistinct(a: Builtin, b: Builtin)
    requires Name(a) == Name(b)
    ensures a == b
  {
    ParseNameOfName(a);
    ParseNameOfName(b);
  }

  /** The evaluator of `b` applied to (newVal, oldVal). */
  function ApplyBuiltin(b: Builtin, newVal: real, oldVal: real): (r: Outcome)
    ensures r.NonFinite? <==> b == Div && newVal == 0.0
    ensures r == Keep ==> b in {Max, Min, First}
  {
    match b
    case Max => if newVal > oldVal then Put(newVal) else Keep
    case Min => if newVal < oldVal then Put(newVal) else Keep
    case First => Keep
    case Last => Put(newVal)
    case Sum => Put(oldVal + newVal)
    case Diff => Put(oldVal - newVal)
    case Multi => Put(oldVal * newVal)
    case Div => if newVal == 0.0 then NonFinite else Put(oldVal / newVal)
  }

  function Apply(r: Reducer, newVal: real, oldVal: real): Outcome
  {
    match r
    case Native(b) => ApplyBuiltin(b, newVal, oldVal)
    case Custom(f) => f(newVal, oldVal)
  }

  /** The table the engine starts with: each built-in under its name, nothing else. */
  function BuiltinTable(): (t: map<string, Reducer>)
    ensures forall b :: Name(b) in t && t[Name(b)] == Native(b)
    ensures forall s :: s in t ==> ParseName(s).Some?
  {
    map[
      "max" := Native(Max), "min" := Native(Min), "first" := Native(First), "last" := Native(Last),
      "sum" := Native(Sum), "diff" := Native(Diff), "multi" := Native(Multi), "div" := Native(Div)]
  }
}

=== FILE: ingest.dfy ===
/**
 * Which cells saving a batch of records touches. For every field of a record whose
 * property has a rule, each of the rule's evaluators is applied to the property's
 * cell in the default partition and in the record's partition of every filter; then
 * each enabled retainer does the same in the bucket of the current time. Saving is
 * modelled as the list of transactions it starts, in order; an enabled retainer
 * whose name does not resolve throws part-way, and the transactions started before
 * the throw stay started. Writing under a filter whose partition key is empty (a
 * filter declared with no properties) throws as well, at that filter.
 */
module Ingest {
  import opened Common
  import opened Assoc
  import opened Registry
  import opened PathKeys
  import opened Buckets
  import opened Store

  /** The transactions a call starts and, if it throws, the error. */
  datatype Plan = Plan(issued: seq<Target>, failure: Option<Error>)

  const Done: Plan := Plan([], None)

  /** `p`, then `q` unless `p` threw. */
  function Then(p: Plan, q: Plan): Plan
  {
    if p.failure.Some? then p else Plan(p.issued + q.issued, q.failure)
  }

  /** A combination that does not throw keeps both parts' transactions. */
  lemma ThenKeeps(p: Plan, q: Plan, t: Target)
    requires Then(p, q).failure.None?
    ensures p.failure.None? && q.failure.None?
    ensures t in p.issued || t in q.issued ==> t in Then(p, q).issued
  {
  }

  /** A transaction of a combination belongs to one of its parts. */
  lemma ThenSplit(p: Plan, q: Plan, t: Target)
    requires t in Then(p, q).issued
    ensures t in p.issued || t in q.issued
  {
  }

  /** A combination throws exactly when a part throws; otherwise it holds both parts' transactions. */
  lemma ThenShape(p: Plan, q: Plan)
    ensures Then(p, q).failure.None? <==> p.failure.None? && q.failure.None?
    ensures Then(p, q).failure.None? ==> |Then(p, q).issued| == |p.issued| + |q.issued|
  {
  }

  /** Two parts of `a` and `b` rounds of `n` transactions make `a + b` rounds. */
  lemma ThenCount(p: Plan, q: Plan, a: nat, b: nat, total: nat, n: nat)
    requires Then(p, q).failure.None?
    requires p.failure.None? ==> |p.issued| == a * n
    requires q.failure.None? ==> |q.issued| == b * n
    requires total == a + b
    ensures |Then(p, q).issued| == total * n
  {
    MulAdd(a, b, n);
  }

  /** The default filter followed by the registered filters, in registration order. */
  lemma FilterNamesCover(c: Config, f: string)
    requires Filterable(c, f)
    ensures f in FilterNames(c)
  {
    if f != "default" {
      var i :| 0 <= i < |c.filters| && Keys(c.filters)[i] == f;
      assert FilterNames(c)[i + 1] == f;
    }
  }

  predicate Filterable(c: Config, f: string)
  {
    f == "default" || f in Keys(c.filters)
  }

  function FilterNames(c: Config): (fs: seq<string>)
    ensures |fs| == |c.filters| + 1
    ensures forall i :: 0 <= i < |fs| ==> Filterable(c, fs[i])
  {
    ["default"] + Keys(c.filters)
  }

  /** The partition of a record in filter `f`. */
  function PartitionOf(c: Config, f: string, rec: Record): string
    requires Filterable(c, f)
  {
    FilterKey(c, f, rec).value
  }

  /** The cell of property `prop` and evaluator `m` in filter `f`: a metric cell, or the cell of a retainer's bucket. */
  function CellFor(c: Config, f: string, rec: Record, prop: string, m: string, slot: Option<(string, Floor)>): Cell
    requires Filterable(c, f)
  {
    match slot
    case None => MetricCell(f, PartitionOf(c, f, rec), MetricKey(c.separator, prop, m))
    case Some(rb) => BucketCell(f, PartitionOf(c, f, rec), rb.0, rb.1, MetricKey(c.separator, prop, m))
  }

  /** A target of evaluator-list `ms` for field (`prop`, `v`). */
  ghost predicate FromMetrics(c: Config, rec: Record, prop: string, v: real, ms: seq<string>, slot: Option<(string, Floor)>, t: Target)
  {
    && t.value == v
    && t.evaluator in ms
    && exists f :: Filterable(c, f) && t.cell == CellFor(c, f, rec, prop, t.evaluator, slot)
  }

  /** One target per filter, default first. */
  function FanOut(c: Config, rec: Record, fs: seq<string>, prop: string, m: string, v: real, slot: Option<(string, Floor)>): (ts: seq<Target>)
    requires forall i :: 0 <= i < |fs| ==> Filterable(c, fs[i])
    ensures |ts| == |fs|
    ensures forall i :: 0 <= i < |fs| ==> ts[i] == Target(CellFor(c, fs[i], rec, prop, m, slot), m, v)
  {
    if |fs| == 0 then []
    else [Target(CellFor(c, fs[0], rec, prop, m, slot), m, v)] + FanOut(c, rec, fs[1..], prop, m, v, slot)
  }

  /** For each evaluator in turn, one target per filter. */
  function MetricTargets(c: Config, rec: Record, prop: string, v: real, ms: seq<string>, slot: Option<(string, Floor)>): (ts: seq<Target>)
  {
    if |ms| == 0 then []
    else FanOut(c, rec, FilterNames(c), prop, ms[0], v, slot) + MetricTargets(c, rec, prop, v, ms[1..], slot)
  }

  /** One target per (evaluator, filter or default) pair. */
  lemma {:induction false} MetricTargetsCount(c: Config, rec: Record, prop: string, v: real, ms: seq<string>,
                                             slot: Option<(string, Floor)>)
    ensures |MetricTargets(c, rec, prop, v, ms, slot)| == |ms| * (|c.filters| + 1)
  {
    if |ms| > 0 {
      MetricTargetsUnfold(c, rec, prop, v, ms, slot);
      MetricTargetsCount(c, rec, prop, v, ms[1..], slot);
      MulSucc(|ms|, |ms[1..]|, |c.filters| + 1);
    }
  }

  /** Every target of an evaluator list is one of its evaluators applied to a cell of some filter. */
  lemma {:induction false} MetricTargetsFrom(c: Config, rec: Record, prop: string, v: real, ms: seq<string>,
                                            slot: Option<(string, Floor)>, t: Target)
    requires t in MetricTargets(c, rec, prop, v, ms, slot)
    ensures FromMetrics(c, rec, prop, v, ms, slot, t)
  {
    var fs := FilterNames(c);
    MetricTargetsUnfold(c, rec, prop, v, ms, slot);
    if t in FanOut(c, rec, fs, prop, ms[0], v, slot) {
      FanOutFromMetrics(c, rec, fs, prop, ms, v, slot, t);
    } else {
      MetricTargetsFrom(c, rec, prop, v, ms[1..], slot, t);
      FromMetricsWiden(c, rec, prop, v, ms, slot, t);
    }
  }

  lemma FanOutFromMetrics(c: Config, rec: Record, fs: seq<string>, prop: string, ms: seq<string>, v: real,
                          slot: Option<(string, Floor)>, t: Target)
    requires forall i :: 0 <= i < |fs| ==> Filterable(c, fs[i])
    requires |ms| > 0 && t in FanOut(c, rec, fs, prop, ms[0], v, slot)
    ensures FromMetrics(c, rec, prop, v, ms, slot, t)
  {
    var i :| 0 <= i < |fs| && FanOut(c, rec, fs, prop, ms[0], v, slot)[i] == t;
    assert Filterable(c, fs[i]);
  }

  lemma FromMetricsWiden(c: Config, rec: Record, prop: string, v: real, ms: seq<string>, slot: Option<(string, Floor)>, t: Target)
    requires |ms| > 0 && FromMetrics(c, rec, prop, v, ms[1..], slot, t)
    ensures FromMetrics(c, rec, prop, v, ms, slot, t)
  {
    assert t.evaluator in ms;
  }

  lemma MulSucc(a: nat, b: nat, f: nat)
    requires a == b + 1
    ensures a * f == f + b * f
  {
  }

  /** Every (evaluator, filter) pair gets its target. */
  lemma MetricTargetsCover(c: Config, rec: Record, prop: string, v: real, ms: seq<string>,
                                             slot: Option<(string, Floor)>, j: nat, f: string)
    requires j < |ms| && Filterable(c, f)
    ensures Target(CellFor(c, f, rec, prop, ms[j], slot), ms[j], v) in MetricTargets(c, rec, prop, v, ms, slot)
  {
    FilterNamesCover(c, f);
    FanOutCovers(c, rec, FilterNames(c), prop, ms[j], v, slot, f);
    MetricTargetsHas(c, rec, prop, v, ms, slot, j, Target(CellFor(c, f, rec, prop, ms[j], slot), ms[j], v));
  }

  /** The targets of each evaluator are among the targets of the list. */
  lemma {:induction false} MetricTargetsHas(c: Config, rec: Record, prop: string, v: real, ms: seq<string>,
                                           slot: Option<(string, Floor)>, j: nat, t: Target)
    requires j < |ms| && t in FanOut(c, rec, FilterNames(c), prop, ms[j], v, slot)
    ensures t in MetricTargets(c, rec, prop, v, ms, slot)
  {
    MetricTargetsUnfold(c, rec, prop, v, ms, slot);
    if j > 0 {
      var rest := ms[1..];
      assert rest[j - 1] == ms[j];
      MetricTargetsHas(c, rec, prop, v, rest, slot, j - 1, t);
    }
  }

  lemma FanOutCovers(c: Config, rec: Record, fs: seq<string>, prop: string, m: string, v: real, slot: Option<(string, Floor)>, f: string)
    requires forall i :: 0 <= i < |fs| ==> Filterable(c, fs[i])
    requires f in fs && Filterable(c, f)
    ensures Target(CellFor(c, f, rec, prop, m, slot), m, v) in FanOut(c, rec, fs, prop, m, v, slot)
  {
    var i :| 0 <= i < |fs| && fs[i] == f;
    assert FanOut(c, rec, fs, prop, m, v, slot)[i] == Target(CellFor(c, f, rec, prop, m, slot), m, v);
  }

  lemma MetricTargetsUnfold(c: Config, rec: Record, prop: string, v: real, ms: seq<string>, slot: Option<(string, Floor)>)
    requires |ms| > 0
    ensures MetricTargets(c, rec, prop, v, ms, slot)
            == FanOut(c, rec, FilterNames(c), prop, ms[0], v, slot) + MetricTargets(c, rec, prop, v, ms[1..], slot)
  {
  }

  // ---------------------------------------------------------------- empty partition keys

  /** The position of the first filter whose partition key for `rec` is empty, or |fs| if none is. */
  function FirstBlank(c: Config, rec: Record, fs: seq<string>): (k: nat)
    requires forall i :: 0 <= i < |fs| ==> Filterable(c, fs[i])
    ensures k <= |fs|
    ensures forall i :: 0 <= i < k ==> PartitionOf(c, fs[i], rec) != ""
    ensures k < |fs| ==> PartitionOf(c, fs[k], rec) == ""
  {
    FirstEmpty(PartitionsOf(c, rec, fs))
  }

  /** The position of the first empty key, or |ks| if none is. */
  function FirstEmpty(ks: seq<string>): (k: nat)
    ensures k <= |ks|
    ensures forall i :: 0 <= i < k ==> ks[i] != ""
    ensures k < |ks| ==> ks[k] == ""
  {
    if |ks| == 0 || ks[0] == "" then 0
    else
      var k := FirstEmpty(ks[1..]);
      assert forall i :: 1 <= i < k + 1 ==> ks[i] == ks[1..][i - 1];
      k + 1
  }

  /** The partition keys of a record in the listed filters. */
  function PartitionsOf(c: Config, rec: Record, fs: seq<string>): (ks: seq<string>)
    requires forall i :: 0 <= i < |fs| ==> Filterable(c, fs[i])
    ensures |ks| == |fs|
    ensures forall i :: 0 <= i < |fs| ==> ks[i] == PartitionOf(c, fs[i], rec)
  {
    seq(|fs|, i requires 0 <= i < |fs| => PartitionOf(c, fs[i], rec))
  }

  /** Some filter gives the record an empty partition key. */
  predicate Blank(c: Config, rec: Record)
  {
    FirstBlank(c, rec, FilterNames(c)) < |c.filters| + 1
  }

  lemma BlankMeans(c: Config, rec: Record)
    ensures Blank(c, rec) <==> exists f :: Filterable(c, f) && PartitionOf(c, f, rec) == ""
  {
    var fs := FilterNames(c);
    if f :| Filterable(c, f) && PartitionOf(c, f, rec) == "" {
      FilterNamesCover(c, f);
      var i :| 0 <= i < |fs| && fs[i] == f;
      assert FirstBlank(c, rec, fs) <= i;
    }
    if Blank(c, rec) {
      assert Filterable(c, fs[FirstBlank(c, rec, fs)]);
    }
  }

  /** Only a registered filter declared with no properties has an empty partition key, whatever the record. */
  lemma BlankPartition(c: Config, f: string, rec: Record)
    requires Filterable(c, f)
    ensures PartitionOf(c, f, rec) == "" <==> f != "" && f != "default" && |Lookup(c.filters, f).value| == 0
  {
  }

  /**
   * For each evaluator in turn, one transaction per filter. When some filter's
   * partition key is empty, the first evaluator throws on reaching it.
   */
  function MetricPlan(c: Config, rec: Record, prop: string, v: real, ms: seq<string>, slot: Option<(string, Floor)>): (p: Plan)
    ensures p.failure.None? <==> |ms| == 0 || !Blank(c, rec)
    ensures p.failure.Some? ==> p.failure.value == InvalidPath
  {
    var fs := FilterNames(c);
    var k := FirstBlank(c, rec, fs);
    if |ms| == 0 || k == |fs| then Plan(MetricTargets(c, rec, prop, v, ms, slot), None)
    else
      assert forall i :: 0 <= i < k ==> fs[..k][i] == fs[i];
      Plan(FanOut(c, rec, fs[..k], prop, ms[0], v, slot), Some(InvalidPath))
  }

  /** A plan that writes under every filter is the whole fan-out; one that throws wrote under the filters before the empty one. */
  lemma MetricPlanIssued(c: Config, rec: Record, prop: string, v: real, ms: seq<string>, slot: Option<(string, Floor)>)
    ensures MetricPlan(c, rec, prop, v, ms, slot).failure.None? ==>
              MetricPlan(c, rec, prop, v, ms, slot).issued == MetricTargets(c, rec, prop, v, ms, slot)
    ensures MetricPlan(c, rec, prop, v, ms, slot).failure.Some? ==>
              var k := FirstBlank(c, rec, FilterNames(c));
              && 0 < k <= |c.filters|
              && |MetricPlan(c, rec, prop, v, ms, slot).issued| == k
              && forall i :: 0 <= i < k ==>
                   MetricPlan(c, rec, prop, v, ms, slot).issued[i] == Target(CellFor(c, FilterNames(c)[i], rec, prop, ms[0], slot), ms[0], v)
  {
    var fs := FilterNames(c);
    assert PartitionOf(c, fs[0], rec) == "default";
  }

  /** Every target of an evaluator list's plan is one of its evaluators applied to a cell of some filter. */
  lemma MetricPlanFrom(c: Config, rec: Record, prop: string, v: real, ms: seq<string>, slot: Option<(string, Floor)>, t: Target)
    requires t in MetricPlan(c, rec, prop, v, ms, slot).issued
    ensures FromMetrics(c, rec, prop, v, ms, slot, t)
  {
    var p := MetricPlan(c, rec, prop, v, ms, slot);
    MetricPlanIssued(c, rec, prop, v, ms, slot);
    if p.failure.None? {
      MetricTargetsFrom(c, rec, prop, v, ms, slot, t);
    } else {
      var i :| 0 <= i < |p.issued| && p.issued[i] == t;
      assert Filterable(c, FilterNames(c)[i]) && ms[0] in ms;
    }
  }

  /** A plan that does not throw issues one target per (evaluator, filter or default) pair. */
  lemma MetricPlanCount(c: Config, rec: Record, prop: string, v: real, ms: seq<string>, slot: Option<(string, Floor)>)
    requires MetricPlan(c, rec, prop, v, ms, slot).failure.None?
    ensures |MetricPlan(c, rec, prop, v, ms, slot).issued| == |ms| * (|c.filters| + 1)
  {
    MetricTargetsCount(c, rec, prop, v, ms, slot);
  }

  // ---------------------------------------------------------------- retainers

  /**
   * Retainer `r` names a path segment and a bucket: the database refuses the empty
   * segment, and the name must resolve to a duration.
   */
  predicate BucketResolves(c: Config, r: string, now: int)
  {
    r != "" && WriteBucket(c, r, now).Ok?
  }

  /** The bucket saving writes to at clock reading `now`, for retainer `r`. */
  function SlotOf(c: Config, r: string, now: int): (slot: Option<(string, Floor)>)
    ensures slot.Some? <==> BucketResolves(c, r, now)
    ensures slot.Some? ==> slot.value == (r, WriteBucket(c, r, now).value)
  {
    if r == "" then None
    else
      match WriteBucket(c, r, now)
      case Ok(b) => Some((r, b))
      case Err(_) => None
  }

  /** A target of one of the enabled retainers `rs`. */
  ghost predicate FromRetainers(c: Config, rec: Record, prop: string, v: real, rs: Assoc<string, seq<string>>, now: int, t: Target)
  {
    exists k :: 0 <= k < |rs| && SlotOf(c, rs[k].0, now).Some? && FromMetrics(c, rec, prop, v, rs[k].1, SlotOf(c, rs[k].0, now), t)
  }

  /**
   * One enabled retainer: nothing without evaluators. Otherwise the first write, under
   * the default filter, descends into the segment `r` before it resolves the bucket, so
   * an empty name throws first, then a name that does not resolve; else the bucket's
   * targets, which throw at a filter with an empty partition key.
   */
  function RetainerHead(c: Config, rec: Record, prop: string, v: real, r: string, ms: seq<string>, now: int): (p: Plan)
    ensures p.failure.None? <==> |ms| == 0 || (BucketResolves(c, r, now) && !Blank(c, rec))
    ensures p.failure == Some(UnknownRetainer) <==> |ms| > 0 && r != "" && WriteBucket(c, r, now).Err?
    ensures p.failure.Some? ==> p.failure.value in {UnknownRetainer, InvalidPath}
    ensures |ms| > 0 && !BucketResolves(c, r, now) ==> p.issued == []
  {
    if |ms| == 0 then Done
    else if r == "" then Plan([], Some(InvalidPath))
    else match WriteBucket(c, r, now)
      case Err(e) => Plan([], Some(e))
      case Ok(b) => MetricPlan(c, rec, prop, v, ms, Some((r, b)))
  }

  /** The enabled retainers in order; a retainer with evaluators whose name does not resolve throws. */
  function RetainerPlan(c: Config, rec: Record, prop: string, v: real, rs: Assoc<string, seq<string>>, now: int): (p: Plan)
    ensures p.failure.Some? ==> p.failure.value in {UnknownRetainer, InvalidPath}
  {
    if |rs| == 0 then Done
    else Then(RetainerHead(c, rec, prop, v, rs[0].0, rs[0].1, now), RetainerPlan(c, rec, prop, v, rs[1..], now))
  }

  /** Every retained target is an evaluator of an enabled retainer applied in the retainer's current bucket. */
  lemma {:induction false} RetainerPlanFrom(c: Config, rec: Record, prop: string, v: real, rs: Assoc<string, seq<string>>,
                                           now: int, t: Target)
    requires t in RetainerPlan(c, rec, prop, v, rs, now).issued
    ensures FromRetainers(c, rec, prop, v, rs, now, t)
  {
    var head := RetainerHead(c, rec, prop, v, rs[0].0, rs[0].1, now);
    var tail := RetainerPlan(c, rec, prop, v, rs[1..], now);
    RetainerPlanUnfold(c, rec, prop, v, rs, now);
    ThenSplit(head, tail, t);
    if t in head.issued {
      MetricPlanFrom(c, rec, prop, v, rs[0].1, SlotOf(c, rs[0].0, now), t);
      assert SlotOf(c, rs[0].0, now).Some?;
    } else {
      RetainerPlanFrom(c, rec, prop, v, rs[1..], now, t);
      var k :| 0 <= k < |rs[1..]| && SlotOf(c, rs[1..][k].0, now).Some?
               && FromMetrics(c, rec, prop, v, rs[1..][k].1, SlotOf(c, rs[1..][k].0, now), t);
      assert rs[1..][k] == rs[k + 1];
    }
  }

  /** A target the rule of field (`prop`, `v`) asks for. */
  ghost predicate FromRule(c: Config, rec: Record, prop: string, v: real, now: int, t: Target)
  {
    && prop in c.properties
    && (|| FromMetrics(c, rec, prop, v, c.properties[prop].metrics, None, t)
        || FromRetainers(c, rec, prop, v, c.properties[prop].retainers, now, t))
  }

  /** The targets of one field: nothing unless its property has a rule. */
  function FieldPlan(c: Config, rec: Record, prop: string, v: real, now: int): (p: Plan)
    ensures prop !in c.properties ==> p == Done
    ensures p.failure.Some? ==> p.failure.value in {UnknownRetainer, InvalidPath}
  {
    if prop !in c.properties then Done
    else
      var rule := c.properties[prop];
      Then(MetricPlan(c, rec, prop, v, rule.metrics, None), RetainerPlan(c, rec, prop, v, rule.retainers, now))
  }

  /** Every target of a field comes from its property's rule. */
  lemma FieldPlanFrom(c: Config, rec: Record, prop: string, v: real, now: int, t: Target)
    requires t in FieldPlan(c, rec, prop, v, now).issued
    ensures FromRule(c, rec, prop, v, now, t)
  {
    var rule := c.properties[prop];
    var head := MetricPlan(c, rec, prop, v, rule.metrics, None);
    var tail := RetainerPlan(c, rec, prop, v, rule.retainers, now);
    ThenSplit(head, tail, t);
    if t in head.issued {
      MetricPlanFrom(c, rec, prop, v, rule.metrics, None, t);
    } else {
      RetainerPlanFrom(c, rec, prop, v, rule.retainers, now, t);
    }
  }

  /** A target one of the listed fields of `rec` asks for. */
  ghost predicate FromRecord(c: Config, rec: Record, fields: Assoc<string, int>, now: int, t: Target)
  {
    exists j :: 0 <= j < |fields| && FromRule(c, rec, fields[j].0, fields[j].1 as real, now, t)
  }

  /** A target some field of some record of the batch asks for. */
  ghost predicate FromBatch(c: Config, records: seq<Record>, now: int, t: Target)
  {
    exists i :: 0 <= i < |records| && FromRecord(c, records[i], records[i], now, t)
  }

  lemma FromRecordShift(c: Config, rec: Record, fields: Assoc<string, int>, now: int, t: Target)
    requires |fields| > 0
    requires FromRule(c, rec, fields[0].0, fields[0].1 as real, now, t) || FromRecord(c, rec, fields[1..], now, t)
    ensures FromRecord(c, rec, fields, now, t)
  {
    if !FromRule(c, rec, fields[0].0, fields[0].1 as real, now, t) {
      var j :| 0 <= j < |fields[1..]| && FromRule(c, rec, fields[1..][j].0, fields[1..][j].1 as real, now, t);
      assert fields[1..][j] == fields[j + 1];
    }
  }

  lemma FromBatchShift(c: Config, records: seq<Record>, now: int, t: Target)
    requires |records| > 0
    requires FromRecord(c, records[0], records[0], now, t) || FromBatch(c, records[1..], now, t)
    ensures FromBatch(c, records, now, t)
  {
    if !FromRecord(c, records[0], records[0], now, t) {
      var i :| 0 <= i < |records[1..]| && FromRecord(c, records[1..][i], records[1..][i], now, t);
      assert records[1..][i] == records[i + 1];
    }
  }

  /** The fields of `rec` listed in `fields`, in order. */
  function RecordPlan(c: Config, rec: Record, fields: Assoc<string, int>, now: int): (p: Plan)
    ensures p.failure.Some? ==> p.failure.value in {UnknownRetainer, InvalidPath}
  {
    if |fields| == 0 then Done
    else Then(FieldPlan(c, rec, fields[0].0, fields[0].1 as real, now), RecordPlan(c, rec, fields[1..], now))
  }

  /** Every target of a record comes from one of its ruled fields. */
  lemma {:induction false} RecordPlanFrom(c: Config, rec: Record, fields: Assoc<string, int>, now: int, t: Target)
    requires t in RecordPlan(c, rec, fields, now).issued
    ensures FromRecord(c, rec, fields, now, t)
  {
    var head := FieldPlan(c, rec, fields[0].0, fields[0].1 as real, now);
    var tail := RecordPlan(c, rec, fields[1..], now);
    RecordPlanUnfold(c, rec, fields, now);
    ThenSplit(head, tail, t);
    if t in head.issued {
      FieldPlanFrom(c, rec, fields[0].0, fields[0].1 as real, now, t);
    } else {
      RecordPlanFrom(c, rec, fields[1..], now, t);
    }
    FromRecordShift(c, rec, fields, now, t);
  }

  /** Saving records: each record's fields in order, stopping at the first throw. */
  function SaveMetrics(c: Config, records: seq<Record>, now: int): (p: Plan)
    ensures p.failure.Some? ==> p.failure.value in {UnknownRetainer, InvalidPath}
  {
    if |records| == 0 then Done
    else Then(RecordPlan(c, records[0], records[0], now), SaveMetrics(c, records[1..], now))
  }

  /** Every target of a batch comes from a ruled field of one of its records. */
  lemma {:induction false} SaveMetricsFrom(c: Config, records: seq<Record>, now: int, t: Target)
    requires t in SaveMetrics(c, records, now).issued
    ensures FromBatch(c, records, now, t)
  {
    var head := RecordPlan(c, records[0], records[0], now);
    var tail := SaveMetrics(c, records[1..], now);
    SaveMetricsUnfold(c, records, now);
    ThenSplit(head, tail, t);
    if t in head.issued {
      RecordPlanFrom(c, records[0], records[0], now, t);
    } else {
      SaveMetricsFrom(c, records[1..], now, t);
    }
    FromBatchShift(c, records, now, t);
  }

  // ---------------------------------------------------------------- when saving throws, and how much it issues

  /** Every enabled retainer that has evaluators is a nonempty name that resolves to a duration. */
  predicate Resolves(c: Config, rs: Assoc<string, seq<string>>, now: int)
  {
    forall k :: 0 <= k < |rs| && |rs[k].1| > 0 ==> BucketResolves(c, rs[k].0, now)
  }

  predicate FieldResolves(c: Config, prop: string, now: int)
  {
    prop !in c.properties || Resolves(c, c.properties[prop].retainers, now)
  }

  predicate RecordResolves(c: Config, rec: Record, now: int)
  {
    forall j :: 0 <= j < |rec| ==> FieldResolves(c, rec[j].0, now)
  }

  /** Number of evaluators listed over all enabled retainers. */
  function RetainedCount(rs: Assoc<string, seq<string>>): nat
  {
    if |rs| == 0 then 0 else |rs[0].1| + RetainedCount(rs[1..])
  }

  /** Number of evaluator applications one field asks for, per filter. */
  function FieldCount(c: Config, prop: string): nat
  {
    if prop in c.properties then |c.properties[prop].metrics| + RetainedCount(c.properties[prop].retainers) else 0
  }

  function RecordCount(c: Config, fields: Assoc<string, int>): nat
  {
    if |fields| == 0 then 0 else FieldCount(c, fields[0].0) + RecordCount(c, fields[1..])
  }

  function BatchCount(c: Config, records: seq<Record>): nat
  {
    if |records| == 0 then 0 else RecordCount(c, records[0]) + BatchCount(c, records[1..])
  }

  lemma MulAdd(a: nat, b: nat, f: nat)
    ensures (a + b) * f == a * f + b * f
  {
  }

  lemma {:induction false} RetainerPlanShape(c: Config, rec: Record, prop: string, v: real, rs: Assoc<string, seq<string>>, now: int)
    ensures RetainerPlan(c, rec, prop, v, rs, now).failure.None? <==>
              Resolves(c, rs, now) && (RetainedCount(rs) == 0 || !Blank(c, rec))
    ensures RetainerPlan(c, rec, prop, v, rs, now).failure.None? ==>
              |RetainerPlan(c, rec, prop, v, rs, now).issued| == RetainedCount(rs) * (|c.filters| + 1)
  {
    if |rs| > 0 {
      var head := RetainerHead(c, rec, prop, v, rs[0].0, rs[0].1, now);
      var tail := RetainerPlan(c, rec, prop, v, rs[1..], now);
      RetainerPlanShape(c, rec, prop, v, rs[1..], now);
      RetainerPlanUnfold(c, rec, prop, v, rs, now);
      ResolvesUnfold(c, rs, now);
      ThenShape(head, tail);
      assert RetainedCount(rs) == |rs[0].1| + RetainedCount(rs[1..]);
      if RetainerPlan(c, rec, prop, v, rs, now).failure.None? {
        if |rs[0].1| > 0 {
          MetricPlanCount(c, rec, prop, v, rs[0].1, SlotOf(c, rs[0].0, now));
        }
        ThenCount(head, tail, |rs[0].1|, RetainedCount(rs[1..]), RetainedCount(rs), |c.filters| + 1);
      }
    } else {
      assert RetainerPlan(c, rec, prop, v, rs, now) == Done && RetainedCount(rs) == 0;
    }
  }

  lemma RetainerPlanUnfold(c: Config, rec: Record, prop: string, v: real, rs: Assoc<string, seq<string>>, now: int)
    requires |rs| > 0
    ensures RetainerPlan(c, rec, prop, v, rs, now)
            == Then(RetainerHead(c, rec, prop, v, rs[0].0, rs[0].1, now), RetainerPlan(c, rec, prop, v, rs[1..], now))
  {
  }

  lemma ResolvesUnfold(c: Config, rs: Assoc<string, seq<string>>, now: int)
    requires |rs| > 0
    ensures Resolves(c, rs, now) <==>
            (|rs[0].1| > 0 ==> BucketResolves(c, rs[0].0, now)) && Resolves(c, rs[1..], now)
  {
    if (|rs[0].1| > 0 ==> BucketResolves(c, rs[0].0, now)) && Resolves(c, rs[1..], now) {
      forall k | 0 <= k < |rs| && |rs[k].1| > 0 ensures BucketResolves(c, rs[k].0, now) {
        if k > 0 {
          assert rs[1..][k - 1] == rs[k];
        }
      }
    }
    if Resolves(c, rs, now) {
      forall k | 0 <= k < |rs[1..]| && |rs[1..][k].1| > 0 ensures BucketResolves(c, rs[1..][k].0, now) {
        assert rs[1..][k] == rs[k + 1];
      }
    }
  }

  lemma FieldPlanShape(c: Config, rec: Record, prop: string, v: real, now: int)
    ensures FieldPlan(c, rec, prop, v, now).failure.None? <==>
              FieldResolves(c, prop, now) && (FieldCount(c, prop) == 0 || !Blank(c, rec))
    ensures FieldPlan(c, rec, prop, v, now).failure.None? ==>
              |FieldPlan(c, rec, prop, v, now).issued| == FieldCount(c, prop) * (|c.filters| + 1)
  {
    if prop in c.properties {
      var rule := c.properties[prop];
      var head := MetricPlan(c, rec, prop, v, rule.metrics, None);
      var tail := RetainerPlan(c, rec, prop, v, rule.retainers, now);
      RetainerPlanShape(c, rec, prop, v, rule.retainers, now);
      ThenShape(head, tail);
      if head.failure.None? && tail.failure.None? {
        MetricPlanCount(c, rec, prop, v, rule.metrics, None);
        ThenCount(head, tail, |rule.metrics|, RetainedCount(rule.retainers), FieldCount(c, prop), |c.filters| + 1);
      }
    }
  }

  lemma {:induction false} RecordPlanShape(c: Config, rec: Record, fields: Assoc<string, int>, now: int)
    ensures RecordPlan(c, rec, fields, now).failure.None? <==>
              RecordResolves(c, fields, now) && (RecordCount(c, fields) == 0 || !Blank(c, rec))
    ensures RecordPlan(c, rec, fields, now).failure.None? ==>
              |RecordPlan(c, rec, fields, now).issued| == RecordCount(c, fields) * (|c.filters| + 1)
  {
    if |fields| > 0 {
      var head := FieldPlan(c, rec, fields[0].0, fields[0].1 as real, now);
      var tail := RecordPlan(c, rec, fields[1..], now);
      FieldPlanShape(c, rec, fields[0].0, fields[0].1 as real, now);
      RecordPlanShape(c, rec, fields[1..], now);
      RecordPlanUnfold(c, rec, fields, now);
      ThenShape(head, tail);
      RecordResolvesUnfold(c, fields, now);
      if RecordPlan(c, rec, fields, now).failure.None? {
        ThenCount(head, tail, FieldCount(c, fields[0].0), RecordCount(c, fields[1..]), RecordCount(c, fields), |c.filters| + 1);
      }
    } else {
      assert RecordPlan(c, rec, fields, now) == Done && RecordCount(c, fields) == 0 && RecordResolves(c, fields, now);
    }
  }

  lemma RecordResolvesUnfold(c: Config, fields: Assoc<string, int>, now: int)
    requires |fields| > 0
    ensures RecordResolves(c, fields, now) <==> FieldResolves(c, fields[0].0, now) && RecordResolves(c, fields[1..], now)
  {
    if FieldResolves(c, fields[0].0, now) && RecordResolves(c, fields[1..], now) {
      forall j | 0 <= j < |fields| ensures FieldResolves(c, fields[j].0, now) {
        if j > 0 {
          assert fields[1..][j - 1] == fields[j];
        }
      }
    }
    if RecordResolves(c, fields, now) {
      forall j | 0 <= j < |fields[1..]| ensures FieldResolves(c, fields[1..][j].0, now) {
        assert fields[1..][j] == fields[j + 1];
      }
    }
  }

  /** A record saving writes without a throw: its retainers resolve, and it writes nothing or every partition key is nonempty. */
  predicate Writable(c: Config, rec: Record, now: int)
  {
    RecordResolves(c, rec, now) && (RecordCount(c, rec) == 0 || !Blank(c, rec))
  }

  /**
   * Saving throws exactly when some record has a ruled field with an enabled retainer
   * (with evaluators) that is empty or does not resolve, or has something to write while some
   * filter gives it an empty partition key; otherwise it starts one transaction per
   * (field with a rule, evaluator of the rule or of an enabled retainer, filter or default).
   */
  lemma {:induction false} SaveMetricsShape(c: Config, records: seq<Record>, now: int)
    ensures SaveMetrics(c, records, now).failure.None? <==>
              forall i :: 0 <= i < |records| ==> Writable(c, records[i], now)
    ensures SaveMetrics(c, records, now).failure.None? ==>
              |SaveMetrics(c, records, now).issued| == BatchCount(c, records) * (|c.filters| + 1)
  {
    if |records| > 0 {
      var head := RecordPlan(c, records[0], records[0], now);
      var tail := SaveMetrics(c, records[1..], now);
      RecordPlanShape(c, records[0], records[0], now);
      SaveMetricsShape(c, records[1..], now);
      SaveMetricsUnfold(c, records, now);
      ThenShape(head, tail);
      if head.failure.None? && tail.failure.None? {
        ThenCount(head, tail, RecordCount(c, records[0]), BatchCount(c, records[1..]), BatchCount(c, records), |c.filters| + 1);
      }
      if forall i :: 0 <= i < |records[1..]| ==> Writable(c, records[1..][i], now) {
        assert forall i :: 1 <= i < |records| ==> Writable(c, records[i], now) by {
          forall i | 1 <= i < |records| ensures Writable(c, records[i], now) {
            assert records[1..][i - 1] == records[i];
          }
        }
      }
      if forall i :: 0 <= i < |records| ==> Writable(c, records[i], now) {
        forall i | 0 <= i < |records[1..]| ensures Writable(c, records[1..][i], now) {
          assert records[1..][i] == records[i + 1];
        }
      }
    }
  }

  /** Records whose properties have no rules start nothing, so saving them resolves at once. */
  lemma {:induction false} UnruledRecordsIssueNothing(c: Config, records: seq<Record>, now: int)
    requires forall i, j :: 0 <= i < |records| && 0 <= j < |records[i]| ==> records[i][j].0 !in c.properties
    ensures SaveMetrics(c, records, now) == Done
  {
    if |records| > 0 {
      UnruledFieldsIssueNothing(c, records[0], records[0], now);
      UnruledRecordsIssueNothing(c, records[1..], now);
    }
  }

  lemma {:induction false} UnruledFieldsIssueNothing(c: Config, rec: Record, fields: Assoc<string, int>, now: int)
    requires forall j :: 0 <= j < |fields| ==> fields[j].0 !in c.properties
    ensures RecordPlan(c, rec, fields, now) == Done
  {
    if |fields| > 0 {
      UnruledFieldsIssueNothing(c, rec, fields[1..], now);
    }
  }

  // ---------------------------------------------------------------- every wanted target is issued

  lemma {:induction false} RetainerPlanCovers(c: Config, rec: Record, prop: string, v: real, rs: Assoc<string, seq<string>>,
                                             now: int, k: nat, j: nat, f: string)
    requires RetainerPlan(c, rec, prop, v, rs, now).failure.None?
    requires k < |rs| && j < |rs[k].1| && Filterable(c, f)
    ensures SlotOf(c, rs[k].0, now).Some?
    ensures Target(CellFor(c, f, rec, prop, rs[k].1[j], SlotOf(c, rs[k].0, now)), rs[k].1[j], v)
            in RetainerPlan(c, rec, prop, v, rs, now).issued
  {
    if k == 0 {
      MetricTargetsCover(c, rec, prop, v, rs[0].1, SlotOf(c, rs[0].0, now), j, f);
      MetricPlanIssued(c, rec, prop, v, rs[0].1, SlotOf(c, rs[0].0, now));
    } else {
      RetainerPlanCovers(c, rec, prop, v, rs[1..], now, k - 1, j, f);
      assert rs[1..][k - 1] == rs[k];
    }
  }

  lemma RecordPlanCovers(c: Config, rec: Record, fields: Assoc<string, int>, now: int, j: nat, t: Target)
    requires RecordPlan(c, rec, fields, now).failure.None?
    requires j < |fields| && t in FieldPlan(c, rec, fields[j].0, fields[j].1 as real, now).issued
    ensures t in RecordPlan(c, rec, fields, now).issued
  {
    var ps := FieldPlans(c, rec, fields, now);
    RecordPlanIsChain(c, rec, fields, now);
    assert ps[j] == FieldPlan(c, rec, fields[j].0, fields[j].1 as real, now);
    ChainCovers(ps, j, t);
  }

  /** The plans of the listed fields, one per field. */
  function FieldPlans(c: Config, rec: Record, fields: Assoc<string, int>, now: int): (ps: seq<Plan>)
    ensures |ps| == |fields|
    ensures forall j :: 0 <= j < |fields| ==> ps[j] == FieldPlan(c, rec, fields[j].0, fields[j].1 as real, now)
  {
    seq(|fields|, j requires 0 <= j < |fields| => FieldPlan(c, rec, fields[j].0, fields[j].1 as real, now))
  }

  /** Plans run one after the other, stopping at the first that throws. */
  function Chain(ps: seq<Plan>): Plan
  {
    if |ps| == 0 then Done else Then(ps[0], Chain(ps[1..]))
  }

  lemma {:induction false} RecordPlanIsChain(c: Config, rec: Record, fields: Assoc<string, int>, now: int)
    ensures RecordPlan(c, rec, fields, now) == Chain(FieldPlans(c, rec, fields, now))
  {
    if |fields| > 0 {
      RecordPlanIsChain(c, rec, fields[1..], now);
      assert FieldPlans(c, rec, fields, now)[1..] == FieldPlans(c, rec, fields[1..], now);
    }
  }

  /** A chain that does not throw keeps the transactions of each of its plans. */
  lemma {:induction false} ChainCovers(ps: seq<Plan>, j: nat, t: Target)
    requires Chain(ps).failure.None?
    requires j < |ps| && t in ps[j].issued
    ensures t in Chain(ps).issued
  {
    ThenKeeps(ps[0], Chain(ps[1..]), t);
    if j > 0 {
      assert ps[1..][j - 1] == ps[j];
      ChainCovers(ps[1..], j - 1, t);
    }
  }

  lemma {:induction false} SaveMetricsCovers(c: Config, records: seq<Record>, now: int, i: nat, t: Target)
    requires SaveMetrics(c, records, now).failure.None?
    requires i < |records| && t in RecordPlan(c, records[i], records[i], now).issued
    ensures t in SaveMetrics(c, records, now).issued
  {
    var head := RecordPlan(c, records[0], records[0], now);
    var tail := SaveMetrics(c, records[1..], now);
    SaveMetricsUnfold(c, records, now);
    ThenKeeps(head, tail, t);
    if i > 0 {
      var rest := records[1..];
      assert rest[i - 1] == records[i];
      SaveMetricsCovers(c, rest, now, i - 1, t);
      assert t in tail.issued;
    }
  }

  lemma RecordPlanUnfold(c: Config, rec: Record, fields: Assoc<string, int>, now: int)
    requires |fields| > 0
    ensures RecordPlan(c, rec, fields, now)
            == Then(FieldPlan(c, rec, fields[0].0, fields[0].1 as real, now), RecordPlan(c, rec, fields[1..], now))
  {
  }

  lemma SaveMetricsUnfold(c: Config, records: seq<Record>, now: int)
    requires |records| > 0
    ensures SaveMetrics(c, records, now) == Then(RecordPlan(c, records[0], records[0], now), SaveMetrics(c, records[1..], now))
  {
  }

  /** Each ruled field's value is folded into its metric cell of every filter, for every evaluator of the rule. */
  lemma SaveMetricsWritesMetrics(c: Config, records: seq<Record>, now: int, i: nat, j: nat, m: nat, f: string)
    requires SaveMetrics(c, records, now).failure.None?
    requires i < |records| && j < |records[i]|
    requires records[i][j].0 in c.properties
    requires m < |c.properties[records[i][j].0].metrics|
    requires Filterable(c, f)
    ensures var prop, e := records[i][j].0, c.properties[records[i][j].0].metrics[m];
            Target(CellFor(c, f, records[i], prop, e, None), e, records[i][j].1 as real)
            in SaveMetrics(c, records, now).issued
  {
    var rec := records[i];
    var prop, v := rec[j].0, rec[j].1 as real;
    var e := c.properties[prop].metrics[m];
    var t := Target(CellFor(c, f, rec, prop, e, None), e, v);
    MetricTargetsCover(c, rec, prop, v, c.properties[prop].metrics, None, m, f);
    SaveMetricsPrefix(c, records, now, i);
    RecordPlanFieldOk(c, rec, rec, now, j);
    MetricPlanIssued(c, rec, prop, v, c.properties[prop].metrics, None);
    ThenKeeps(MetricPlan(c, rec, prop, v, c.properties[prop].metrics, None), RetainerPlan(c, rec, prop, v, c.properties[prop].retainers, now), t);
    assert t in FieldPlan(c, rec, prop, v, now).issued;
    RecordPlanCovers(c, rec, rec, now, j, t);
    SaveMetricsCovers(c, records, now, i, t);
  }

  /** ... and into the current bucket of every enabled retainer, for every evaluator enabled for it. */
  lemma SaveMetricsWritesBuckets(c: Config, records: seq<Record>, now: int, i: nat, j: nat, k: nat, m: nat, f: string)
    requires SaveMetrics(c, records, now).failure.None?
    requires i < |records| && j < |records[i]|
    requires records[i][j].0 in c.properties
    requires k < |c.properties[records[i][j].0].retainers|
    requires m < |c.properties[records[i][j].0].retainers[k].1|
    requires Filterable(c, f)
    ensures var prop, rk := records[i][j].0, c.properties[records[i][j].0].retainers[k];
            && rk.0 != "" && WriteBucket(c, rk.0, now).Ok?
            && Target(CellFor(c, f, records[i], prop, rk.1[m], Some((rk.0, WriteBucket(c, rk.0, now).value))),
                      rk.1[m], records[i][j].1 as real)
               in SaveMetrics(c, records, now).issued
  {
    var rec := records[i];
    var prop, v := rec[j].0, rec[j].1 as real;
    var rs := c.properties[prop].retainers;
    SaveMetricsPrefix(c, records, now, i);
    RecordPlanFieldOk(c, rec, rec, now, j);
    assert RetainerPlan(c, rec, prop, v, rs, now).failure.None?;
    RetainerPlanCovers(c, rec, prop, v, rs, now, k, m, f);
    var t := Target(CellFor(c, f, rec, prop, rs[k].1[m], SlotOf(c, rs[k].0, now)), rs[k].1[m], v);
    ThenKeeps(MetricPlan(c, rec, prop, v, c.properties[prop].metrics, None), RetainerPlan(c, rec, prop, v, rs, now), t);
    assert t in FieldPlan(c, rec, prop, v, now).issued;
    RecordPlanCovers(c, rec, rec, now, j, t);
    SaveMetricsCovers(c, records, now, i, t);
  }

  /** A batch that does not throw has no record that throws. */
  lemma {:induction false} SaveMetricsPrefix(c: Config, records: seq<Record>, now: int, i: nat)
    requires SaveMetrics(c, records, now).failure.None?
    requires i < |records|
    ensures RecordPlan(c, records[i], records[i], now).failure.None?
  {
    if i > 0 {
      assert records[1..][i - 1] == records[i];
      SaveMetricsPrefix(c, records[1..], now, i - 1);
    }
  }

  /** A record that does not throw has no field that throws. */
  lemma {:induction false} RecordPlanFieldOk(c: Config, rec: Record, fields: Assoc<string, int>, now: int, j: nat)
    requires RecordPlan(c, rec, fields, now).failure.None?
    requires j < |fields|
    ensures FieldPlan(c, rec, fields[j].0, fields[j].1 as real, now).failure.None?
  {
    var head := FieldPlan(c, rec, fields[0].0, fields[0].1 as real, now);
    var tail := RecordPlan(c, rec, fields[1..], now);
    RecordPlanUnfold(c, rec, fields, now);
    ThenShape(head, tail);
    if j > 0 {
      var rest := fields[1..];
      assert rest[j - 1] == fields[j];
      RecordPlanFieldOk(c, rec, rest, now, j - 1);
    }
  }
}

=== FILE: keys.dfy ===
/**
 * Path keys. A metric key joins a property and an evaluator name with the separator;
 * a partition (filter) key lists, for each property the filter declares, the property
 * name and the record's value, each followed by the separator. Records are JavaScript
 * objects with integer fields; a missing field renders as "undefined".
 */
module PathKeys {
  import opened Common
  import opened Assoc
  import opened Text
  import opened Evaluators
  import opened Registry

  type Record = Assoc<string, int>

  const Undefined: string := "undefined"

  /** `String(data[prop])`. */
  function Render(rec: Record, prop: string): string
  {
    match Lookup(rec, prop)
    case Some(v) => IntToString(v)
    case None => Undefined
  }

  /** The key of a property's cell for one evaluator. */
  function MetricKey(sep: string, prop: string, evaluator: string): (k: string)
    ensures |k| == |prop| + |sep| + |evaluator|
    ensures k[..|prop|] == prop
    ensures k[|prop|..|prop| + |sep|] == sep
    ensures k[|prop| + |sep|..] == evaluator
  {
    prop + sep + evaluator
  }

  /** With the property fixed, the metric key determines the evaluator. */
  lemma MetricKeyDeterminesEvaluator(sep: string, prop: string, e1: string, e2: string)
    requires MetricKey(sep, prop, e1) == MetricKey(sep, prop, e2)
    ensures e1 == e2
  {
    assert e1 == MetricKey(sep, prop, e1)[|prop| + |sep|..];
  }

  /** The eight per-evaluator selectors bind eight distinct keys for one property. */
  lemma SelectorKeysDistinct(sep: string, prop: string, a: Builtin, b: Builtin)
    requires a != b
    ensures MetricKey(sep, prop, Name(a)) != MetricKey(sep, prop, Name(b))
  {
    if MetricKey(sep, prop, Name(a)) == MetricKey(sep, prop, Name(b)) {
      MetricKeyDeterminesEvaluator(sep, prop, Name(a), Name(b));
      NamesDistinct(a, b);
    }
  }

  /**
   * Across properties the key is ambiguous: a property ending in the separator's
   * first character and an evaluator starting with it can share a cell.
   */
  lemma MetricKeyCollision()
    ensures MetricKey(DefaultSeparator, "a~", "x") == MetricKey(DefaultSeparator, "a", "~x")
  {
  }

  /** The partition key of a record for the declared filter properties. */
  function Segments(sep: string, props: seq<string>, rec: Record): (k: string)
    ensures |k| == 0 <==> |props| == 0
  {
    if |props| == 0 then ""
    else props[0] + sep + Render(rec, props[0]) + sep + Segments(sep, props[1..], rec)
  }

  /** The key of filter `name` for a record: "default" for the default filter. */
  function FilterKey(c: Config, name: string, rec: Record): (r: Result<string>)
    ensures name == "" || name == "default" ==> r == Ok("default")
    ensures name != "" && name != "default" ==>
              (r.Ok? <==> name in Keys(c.filters))
    ensures name != "" && name != "default" && Lookup(c.filters, name).Some? ==>
              r == Ok(Segments(c.separator, Lookup(c.filters, name).value, rec))
    ensures r.Err? ==> r.error == UnknownFilter
  {
    if name == "" || name == "default" then Ok("default")
    else
      match Lookup(c.filters, name)
      case None => Err(UnknownFilter)
      case Some(props) => Ok(Segments(c.separator, props, rec))
  }

  // ---------------------------------------------------------------- decoding partition keys

  /** The record's values of the declared properties. */
  function FieldValues(props: seq<string>, rec: Record): (vs: seq<Option<int>>)
    ensures |vs| == |props|
    ensures forall i :: 0 <= i < |props| ==> vs[i] == Lookup(rec, props[i])
  {
    if |props| == 0 then [] else [Lookup(rec, props[0])] + FieldValues(props[1..], rec)
  }

  /** Reads one rendered value at the front of `s`: the value and the length it took. */
  function ReadValue(s: string): (r: Option<(Option<int>, nat)>)
    ensures r.Some? ==> r.value.1 <= |s|
  {
    if |s| >= |Undefined| && s[..|Undefined|] == Undefined then Some((None, |Undefined|))
    else
      var n := NumeralLength(s);
      match ParseInt(s[..n])
      case Some(v) => Some((Some(v), n))
      case None => None
  }

  /** Recovers the field values from a partition key, given the declared properties. */
  function DecodeSegments(sep: string, props: seq<string>, key: string): Option<seq<Option<int>>>
    decreases |props|
  {
    if |props| == 0 then (if key == "" then Some([]) else None)
    else
      var head := props[0] + sep;
      if |key| < |head| || key[..|head|] != head then None
      else
        var rest := key[|head|..];
        match ReadValue(rest)
        case None => None
        case Some(read) =>
          var after := rest[read.1..];
          if |after| < |sep| || after[..|sep|] != sep then None
          else
            match DecodeSegments(sep, props[1..], after[|sep|..])
            case None => None
            case Some(vs) => Some([read.0] + vs)
  }

  /** A separator that cannot be mistaken for part of a rendered number. */
  predicate Delimits(sep: string)
  {
    |sep| > 0 && !IsNumeralChar(sep[0])
  }

  lemma ReadRendered(rec: Record, prop: string, tail: string)
    requires |tail| > 0 && !IsNumeralChar(tail[0])
    ensures ReadValue(Render(rec, prop) + tail) == Some((Lookup(rec, prop), |Render(rec, prop)|))
  {
    var r := Render(rec, prop);
    var s := r + tail;
    match Lookup(rec, prop)
    case None =>
      assert s[..|Undefined|] == Undefined;
    case Some(v) =>
      assert IsNumeralChar(s[0]);
      assert !(|s| >= |Undefined| && s[..|Undefined|] == Undefined) by {
        assert s[0] != Undefined[0];
      }
      NumeralLengthOfPrefix(r, tail);
      assert s[..|r|] == r;
      IntRoundTrip(v);
  }

  /** Decoding a partition key gives back the record's values of the filter's properties. */
  lemma {:induction false} DecodeSegmentsRoundTrip(sep: string, props: seq<string>, rec: Record)
    requires Delimits(sep)
    ensures DecodeSegments(sep, props, Segments(sep, props, rec)) == Some(FieldValues(props, rec))
  {
    if |props| > 0 {
      var tail := Segments(sep, props[1..], rec);
      var r := Render(rec, props[0]);
      ReadRendered(rec, props[0], sep + tail);
      DecodeSegmentsStep(sep, props, r, Lookup(rec, props[0]), tail);
      DecodeSegmentsRoundTrip(sep, props[1..], rec);
      assert FieldValues(props, rec) == [Lookup(rec, props[0])] + FieldValues(props[1..], rec);
    }
  }

  /** One step of decoding: the property's prefix, a value read, the separator, and the rest. */
  lemma DecodeSegmentsStep(sep: string, props: seq<string>, r: string, x: Option<int>, tail: string)
    requires |props| > 0
    requires ReadValue(r + (sep + tail)) == Some((x, |r|))
    ensures DecodeSegments(sep, props, props[0] + sep + r + sep + tail)
            == match DecodeSegments(sep, props[1..], tail)
               case None => None
               case Some(vs) => Some([x] + vs)
  {
    var key := props[0] + sep + r + sep + tail;
    var head := props[0] + sep;
    assert key == head + (r + (sep + tail));
    assert key[..|head|] == head;
    var rest := key[|head|..];
    assert rest == r + (sep + tail);
    var after := rest[|r|..];
    assert after == sep + tail;
    assert after[..|sep|] == sep;
    assert after[|sep|..] == tail;
  }

  // ---------------------------------------------------------------- string-valued fields

  /**
   * A field value as a JavaScript record may hold it. The engine's records carry
   * integers, but `getFilterKey` renders whatever it finds with `String(...)`.
   */
  datatype JsValue = Num(n: int) | Str(s: string)

  function RenderValue(x: Option<JsValue>): string
  {
    match x
    case None => Undefined
    case Some(Num(n)) => IntToString(n)
    case Some(Str(t)) => t
  }

  /** The partition key built from the rendered values of the declared properties. */
  function SegmentsOf(sep: string, props: seq<string>, vals: seq<Option<JsValue>>): (k: string)
    requires |vals| == |props|
  {
    if |props| == 0 then ""
    else props[0] + sep + RenderValue(vals[0]) + sep + SegmentsOf(sep, props[1..], vals[1..])
  }

  /** Integer fields, as JavaScript values. */
  function AsJs(xs: seq<Option<int>>): (ys: seq<Option<JsValue>>)
    ensures |ys| == |xs|
  {
    if |xs| == 0 then []
    else [if xs[0].Some? then Some(Num(xs[0].value)) else None] + AsJs(xs[1..])
  }

  /** The engine's partition key is the general one applied to integer fields. */
  lemma {:induction false} SegmentsAreSegmentsOf(sep: string, props: seq<string>, rec: Record)
    ensures Segments(sep, props, rec) == SegmentsOf(sep, props, AsJs(FieldValues(props, rec)))
  {
    if |props| > 0 {
      var vals := AsJs(FieldValues(props, rec));
      SegmentsAreSegmentsOf(sep, props[1..], rec);
      assert FieldValues(props, rec) == [Lookup(rec, props[0])] + FieldValues(props[1..], rec);
      assert vals[1..] == AsJs(FieldValues(props[1..], rec));
      assert RenderValue(vals[0]) == Render(rec, props[0]);
    }
  }

  /**
   * With string values the key is ambiguous: a value holding the separator and the
   * next property's name shifts the boundary, so two records that disagree on both
   * properties share a partition.
   */
  lemma PartitionKeyCollision()
    ensures var props := ["a", "b"];
            var v1 := [Some(Str("1~~b~~2")), Some(Num(3))];
            var v2 := [Some(Num(1)), Some(Str("2~~b~~3"))];
            && v1[0] != v2[0] && v1[1] != v2[1]
            && SegmentsOf(DefaultSeparator, props, v1) == SegmentsOf(DefaultSeparator, props, v2)
  {
    var props := ["a", "b"];
    var v1 := [Some(Str("1~~b~~2")), Some(Num(3))];
    var v2 := [Some(Num(1)), Some(Str("2~~b~~3"))];
    assert RenderValue(Some(Num(1))) == "1" && RenderValue(Some(Num(3))) == "3";
    assert SegmentsOf(DefaultSeparator, ["b"], [Some(Num(3))]) == "b~~3~~";
    assert SegmentsOf(DefaultSeparator, ["b"], [Some(Str("2~~b~~3"))]) == "b~~2~~b~~3~~";
    assert props[1..] == ["b"] && v1[1..] == [Some(Num(3))] && v2[1..] == [Some(Str("2~~b~~3"))];
  }

  /** Two records share a partition of a filter exactly when they agree on the filter's properties. */
  lemma SamePartitionIffAgree(sep: string, props: seq<string>, r1: Record, r2: Record)
    requires Delimits(sep)
    ensures Segments(sep, props, r1) == Segments(sep, props, r2) <==>
            forall i :: 0 <= i < |props| ==> Lookup(r1, props[i]) == Lookup(r2, props[i])
  {
    if Segments(sep, props, r1) == Segments(sep, props, r2) {
      DecodeSegmentsRoundTrip(sep, props, r1);
      DecodeSegmentsRoundTrip(sep, props, r2);
      assert FieldValues(props, r1) == FieldValues(props, r2);
    }
    if forall i :: 0 <= i < |props| ==> Lookup(r1, props[i]) == Lookup(r2, props[i]) {
      SegmentsOfAgreeing(sep, props, r1, r2);
    }
  }

  lemma {:induction false} SegmentsOfAgreeing(sep: string, props: seq<string>, r1: Record, r2: Record)
    requires forall i :: 0 <= i < |props| ==> Lookup(r1, props[i]) == Lookup(r2, props[i])
    ensures Segments(sep, props, r1) == Segments(sep, props, r2)
  {
    if |props| > 0 {
      assert Lookup(r1, props[0]) == Lookup(r2, props[0]);
      forall i | 0 <= i < |props[1..]| ensures Lookup(r1, props[1..][i]) == Lookup(r2, props[1..][i]) {
        assert props[1..][i] == props[i + 1];
      }
      SegmentsOfAgreeing(sep, props[1..], r1, r2);
    }
  }
}

=== FILE: legacy_fold.dfy ===
/**
 * The transaction body of the older registry. It tests the old value only for
 * `undefined`, but the store hands a transaction `null` for a cell that holds
 * nothing, so a fresh cell goes through the evaluator with `null` standing for 0
 * (JavaScript's numeric reading of null) instead of taking the raw value.
 */
module LegacyFold {
  import opened Common
  import opened Evaluators
  import opened Cells

  /** The old value as the transaction function sees it. */
  datatype Js = Undefined | Null | Num(n: real)

  /** `+x` for the values a transaction can see: null reads as 0. */
  function Numeric(x: Js): real
    requires !x.Undefined?
  {
    if x.Null? then 0.0 else x.n
  }

  /**
   * The older transaction body. Only `undefined` counts as absent; a null or
   * undefined evaluator result keeps the old value; a non-finite result is refused
   * by the store, so the cell keeps its value.
   */
  function CalculateStep(r: Reducer, prev: Js, newVal: real): (c: Js)
    ensures prev.Undefined? ==> c == Num(newVal)
    ensures prev.Num? ==> c.Num?
    ensures prev.Null? ==> (c == Null <==> !Apply(r, newVal, 0.0).Put?)
    ensures !prev.Undefined? && c != prev ==> c.Num? && Apply(r, newVal, Numeric(prev)) == Put(c.n)
  {
    match prev
    case Undefined => Num(newVal)
    case _ =>
      match Apply(r, newVal, Numeric(prev))
      case Put(v) => Num(v)
      case _ => prev
  }

  /** What the store passes for a cell and what it keeps of the answer: null is "no value". */
  function Seen(cell: Option<real>): (x: Js)
    ensures x.Undefined? == false
    ensures x.Null? <==> cell.None?
  {
    if cell.None? then Null else Num(cell.value)
  }

  function Kept(x: Js): (cell: Option<real>)
    ensures x.Num? ==> cell == Some(x.n)
    ensures !x.Num? ==> cell.None?
  {
    if x.Num? then Some(x.n) else None
  }

  /** One transaction of the older registry against a cell of the store. */
  function LegacyStep(r: Reducer, cell: Option<real>, newVal: real): Option<real>
  {
    Kept(CalculateStep(r, Seen(cell), newVal))
  }

  /** On a cell that holds a value, the older body and the newer one agree. */
  lemma AgreesOnPresentCells(r: Reducer, prev: real, newVal: real)
    ensures LegacyStep(r, Some(prev), newVal) == Step(Some(r), Some(prev), newVal)
  {
  }

  /** On a fresh cell they agree exactly when the evaluator applied to 0 stores the raw value. */
  lemma FreshCellsDiffer(r: Reducer, newVal: real)
    ensures Step(Some(r), None, newVal) == Some(newVal)
    ensures LegacyStep(r, None, newVal) == Step(Some(r), None, newVal) <==> Apply(r, newVal, 0.0) == Put(newVal)
  {
  }

  /** The first observation of diff stores its negation; min of a positive value and first never write. */
  lemma FreshCellFindings()
    ensures LegacyStep(Native(Diff), None, 50.0) == Some(-50.0)
    ensures Step(Some(Native(Diff)), None, 50.0) == Some(50.0)
    ensures LegacyStep(Native(Min), None, 50.0) == None
    ensures LegacyStep(Native(First), None, 50.0) == None
    ensures LegacyStep(Native(Multi), None, 50.0) == Some(0.0)
  {
  }

  /** Folding a sequence of observations with the older body. */
  function LegacyFoldAll(r: Reducer, cell: Option<real>, vs: seq<real>): Option<real>
  {
    if |vs| == 0 then cell else LegacyStep(r, LegacyFoldAll(r, cell, vs[..|vs| - 1]), vs[|vs| - 1])
  }

  /** With the older body, a first-evaluator cell that starts empty stays empty forever. */
  lemma {:induction false} LegacyFirstNeverWrites(vs: seq<real>)
    ensures LegacyFoldAll(Native(First), None, vs) == None
  {
    if |vs| > 0 {
      LegacyFirstNeverWrites(vs[..|vs| - 1]);
    }
  }

  /** With the older body, a min cell that starts empty stays empty while every value is non-negative. */
  lemma {:induction false} LegacyMinNeverWrites(vs: seq<real>)
    requires forall i :: 0 <= i < |vs| ==> vs[i] >= 0.0
    ensures LegacyFoldAll(Native(Min), None, vs) == None
  {
    if |vs| > 0 {
      LegacyMinNeverWrites(vs[..|vs| - 1]);
    }
  }

  /** Once the cell holds a value, the older fold continues exactly as the newer one. */
  lemma {:induction false} LegacyFoldFromPresent(r: Reducer, prev: real, vs: seq<real>)
    ensures LegacyFoldAll(r, Some(prev), vs) == FoldAll(Some(r), Some(prev), vs)
  {
    if |vs| > 0 {
      LegacyFoldFromPresent(r, prev, vs[..|vs| - 1]);
      var mid := FoldAll(Some(r), Some(prev), vs[..|vs| - 1]);
      AgreesOnPresentCells(r, mid.value, vs[|vs| - 1]);
    }
  }
}

=== FILE: legacy_ingest.dfy ===
/**
 * Ingestion in the older registry. Its configuration is a rule table from property
 * to evaluator names, an evaluator table, and a list of filters (each a list of
 * property names). Saving a record folds every ruled field into one cell per
 * (evaluator of the rule that is registered, filter); rule entries naming an
 * unregistered evaluator are skipped without a word.
 */
module LegacyIngest {
  import opened Common
  import opened Assoc
  import opened Evaluators
  import opened PathKeys

  datatype LegacyConfig = LegacyConfig(
    rules: map<string, seq<string>>,
    evaluators: map<string, Reducer>,
    filters: seq<seq<string>>)

  /** One transaction: fold `value` into the cell of (`filter`, `stat`, `evaluator`). */
  datatype LegacyTarget = LegacyTarget(filter: seq<string>, stat: string, evaluator: string, value: real)

  /**
   * The cell key: a filter prefix, then the property and the evaluator name joined
   * by "~~". How the prefix is derived from the filter is not part of this model.
   */
  function StatKey(prefix: string, stat: string, evalName: string): (k: string)
    ensures |k| >= |stat| + 2 + |evalName|
    ensures k[|k| - |evalName|..] == evalName
    ensures k[|k| - |evalName| - 2 - |stat|..] == stat + "~~" + evalName
  {
    prefix + stat + "~~" + evalName
  }

  /** The suffix is the newer registry's metric key under its default separator. */
  lemma StatKeyEndsInMetricKey(prefix: string, stat: string, evalName: string)
    ensures StatKey(prefix, stat, evalName) == prefix + MetricKey("~~", stat, evalName)
  {
  }

  /** With prefix and property fixed, the key determines the evaluator. */
  lemma StatKeyDeterminesEvaluator(prefix: string, stat: string, e1: string, e2: string)
    requires StatKey(prefix, stat, e1) == StatKey(prefix, stat, e2)
    ensures e1 == e2
  {
    var k := StatKey(prefix, stat, e1);
    assert e1 == k[|prefix| + |stat| + 2..];
  }

  /** One target per filter, in filter order. */
  function PerFilter(filters: seq<seq<string>>, stat: string, m: string, v: real): (ts: seq<LegacyTarget>)
    ensures |ts| == |filters|
    ensures forall i :: 0 <= i < |ts| ==> ts[i] == LegacyTarget(filters[i], stat, m, v)
  {
    if |filters| == 0 then [] else [LegacyTarget(filters[0], stat, m, v)] + PerFilter(filters[1..], stat, m, v)
  }

  /** The rule entries that name a registered evaluator. */
  function Registered(c: LegacyConfig, ms: seq<string>): (rs: seq<string>)
    ensures forall m :: m in rs <==> m in ms && m in c.evaluators
    ensures |rs| <= |ms|
  {
    if |ms| == 0 then []
    else if ms[0] in c.evaluators then [ms[0]] + Registered(c, ms[1..])
    else Registered(c, ms[1..])
  }

  /** The targets of one field with evaluator list `ms`. */
  function FieldTargets(c: LegacyConfig, stat: string, v: real, ms: seq<string>): (ts: seq<LegacyTarget>)
    ensures forall t :: t in ts ==>
              t.stat == stat && t.value == v && t.evaluator in ms && t.evaluator in c.evaluators && t.filter in c.filters
  {
    if |ms| == 0 then []
    else
      var rest := FieldTargets(c, stat, v, ms[1..]);
      if ms[0] in c.evaluators then PerFilter(c.filters, stat, ms[0], v) + rest else rest
  }

  /** `saveMetricsForData`: the fields of the record in order, ruled ones only. */
  function SaveMetricsForData(c: LegacyConfig, data: Record): (ts: seq<LegacyTarget>)
    ensures forall t :: t in ts ==>
              && t.evaluator in c.evaluators
              && t.filter in c.filters
              && t.stat in c.rules
              && t.evaluator in c.rules[t.stat]
              && (t.stat, t.value.Floor) in data
  {
    if |data| == 0 then []
    else
      var key := data[0].0;
      var rest := SaveMetricsForData(c, data[1..]);
      if key in c.rules then
        var here := FieldTargets(c, key, data[0].1 as real, c.rules[key]);
        assert forall t :: t in here ==> (t.stat, t.value.Floor) == data[0];
        here + rest
      else rest
  }

  // ---------------------------------------------------------------- how many, and which

  /** Number of transactions per filter that saving `data` starts. */
  function LegacyCount(c: LegacyConfig, data: Record): nat
  {
    if |data| == 0 then 0
    else (if data[0].0 in c.rules then |Registered(c, c.rules[data[0].0])| else 0) + LegacyCount(c, data[1..])
  }

  lemma Distribute(a: nat, b: nat, f: nat)
    ensures (a + b) * f == a * f + b * f
  {
  }

  lemma {:induction false} FieldTargetsCount(c: LegacyConfig, stat: string, v: real, ms: seq<string>)
    ensures |FieldTargets(c, stat, v, ms)| == |Registered(c, ms)| * |c.filters|
  {
    if |ms| > 0 {
      var rest := FieldTargets(c, stat, v, ms[1..]);
      var b := |Registered(c, ms[1..])|;
      FieldTargetsCount(c, stat, v, ms[1..]);
      assert |rest| == b * |c.filters|;
      if ms[0] in c.evaluators {
        assert FieldTargets(c, stat, v, ms) == PerFilter(c.filters, stat, ms[0], v) + rest;
        assert |Registered(c, ms)| == 1 + b;
        Distribute(1, b, |c.filters|);
      } else {
        assert FieldTargets(c, stat, v, ms) == rest;
        assert Registered(c, ms) == Registered(c, ms[1..]);
      }
    }
  }

  /** One transaction per (ruled field, registered evaluator of its rule, filter). */
  lemma {:induction false} SaveMetricsForDataCount(c: LegacyConfig, data: Record)
    ensures |SaveMetricsForData(c, data)| == LegacyCount(c, data) * |c.filters|
  {
    if |data| > 0 {
      SaveMetricsForDataCount(c, data[1..]);
      var key := data[0].0;
      if key in c.rules {
        FieldTargetsCount(c, key, data[0].1 as real, c.rules[key]);
        Distribute(|Registered(c, c.rules[key])|, LegacyCount(c, data[1..]), |c.filters|);
      }
    }
  }

  /** Without filters the older registry writes nothing at all. */
  lemma NoFiltersNoWrites(c: LegacyConfig, data: Record)
    requires |c.filters| == 0
    ensures SaveMetricsForData(c, data) == []
  {
    SaveMetricsForDataCount(c, data);
  }

  lemma {:induction false} FieldTargetsCover(c: LegacyConfig, stat: string, v: real, ms: seq<string>, m: string, f: seq<string>)
    requires m in ms && m in c.evaluators && f in c.filters
    ensures LegacyTarget(f, stat, m, v) in FieldTargets(c, stat, v, ms)
  {
    if ms[0] == m {
      var i :| 0 <= i < |c.filters| && c.filters[i] == f;
      assert PerFilter(c.filters, stat, m, v)[i] == LegacyTarget(f, stat, m, v);
    } else {
      FieldTargetsCover(c, stat, v, ms[1..], m, f);
    }
  }

  /** Every ruled field meets every registered evaluator of its rule in every filter. */
  lemma {:induction false} SaveMetricsForDataCovers(c: LegacyConfig, data: Record, j: nat, m: string, f: seq<string>)
    requires j < |data| && data[j].0 in c.rules
    requires m in c.rules[data[j].0] && m in c.evaluators && f in c.filters
    ensures LegacyTarget(f, data[j].0, m, data[j].1 as real) in SaveMetricsForData(c, data)
  {
    if j == 0 {
      FieldTargetsCover(c, data[0].0, data[0].1 as real, c.rules[data[0].0], m, f);
    } else {
      assert data[1..][j - 1] == data[j];
      SaveMetricsForDataCovers(c, data[1..], j - 1, m, f);
    }
  }
}

=== FILE: legacy_query.dfy ===
/**
 * The older combined query builder: one class carrying the filter, the partition
 * key and the metric key, reading the older layout (no "metrics" segment) and
 * counting through one private helper. The registry function it calls to build a
 * metric key is passed in as `keyOf`.
 */
module LegacyQueries {
  import opened Common
  import opened Assoc
  import opened Evaluators
  import opened Store
  import opened Selection

  datatype LegacyQuery = LegacyQuery(filter: Option<string>, filterKey: Option<string>, metricKey: Option<string>)

  const NewLegacyQuery: LegacyQuery := LegacyQuery(None, None, None)

  /** Binds the filter and clears the partition key, then sets it only to a truthy value. */
  function SetFilter(q: LegacyQuery, filter: string, value: Option<string>): (r: LegacyQuery)
    ensures r.filter == Some(filter) && r.metricKey == q.metricKey
    ensures r.filterKey.Some? <==> Truthy(value)
    ensures r.filterKey.Some? ==> r.filterKey == value
  {
    q.(filter := Some(filter), filterKey := if Truthy(value) then value else None)
  }

  /** `min(prop)` ... `last(prop)`: a new query with both filter keys copied and the evaluator's metric key. */
  function Selector(q: LegacyQuery, keyOf: (string, string) -> string, b: Builtin, prop: string): (r: LegacyQuery)
    ensures r.filter == q.filter && r.filterKey == q.filterKey
    ensures r.metricKey == Some(keyOf(prop, Name(b)))
  {
    NewLegacyQuery.(filter := q.filter, filterKey := q.filterKey, metricKey := Some(keyOf(prop, Name(b))))
  }

  /** A selector depends only on the filter keys of the query it is called on, not on its metric. */
  lemma SelectorForgetsMetric(q1: LegacyQuery, q2: LegacyQuery, keyOf: (string, string) -> string, b: Builtin, prop: string)
    requires q1.filter == q2.filter && q1.filterKey == q2.filterKey
    ensures Selector(q1, keyOf, b, prop) == Selector(q2, keyOf, b, prop)
  {
  }

  /** `value()`: the same two checks as the newer query, then `<filter>/<partition>/<metric>`. */
  function Value(s: Store, q: LegacyQuery): (r: Result<Option<real>>)
    ensures !Truthy(q.filterKey) ==> r == Err(FilterKeyNotSet)
    ensures Truthy(q.filterKey) && !Truthy(q.metricKey) ==> r == Err(MetricKeyNotSet)
    ensures r.Ok? <==> Truthy(q.filterKey) && Truthy(q.metricKey) && q.filter.Some?
    ensures r.Ok? ==> (r.value.Some? <==> FlatCell(q.filter.value, q.filterKey.value, q.metricKey.value) in Keys(s))
    ensures r.Ok? && r.value.Some? ==> (FlatCell(q.filter.value, q.filterKey.value, q.metricKey.value), r.value.value) in s
    ensures r.Err? ==> Truthy(q.filterKey) && Truthy(q.metricKey) ==> r.error == NullReference
  {
    if !Truthy(q.filterKey) then Err(FilterKeyNotSet)
    else if !Truthy(q.metricKey) then Err(MetricKeyNotSet)
    else if q.filter.None? then Err(NullReference)
    else Ok(Lookup(s, FlatCell(q.filter.value, q.filterKey.value, q.metricKey.value)))
  }

  /** `select(limit, order)` over the children of the filter node, ordered by the metric. */
  function Select(s: Store, q: LegacyQuery, limit: nat, order: string): (r: Result<seq<real>>)
    ensures r.Err? <==> q.filter.None? || q.metricKey.None?
    ensures r.Err? ==> r.error == NullReference
    ensures r.Ok? ==> Selected(FlatValues(s, q.filter.value, q.metricKey.value), r.value, limit, ParseOrder(order))
  {
    if q.filter.None? || q.metricKey.None? then Err(NullReference)
    else Ok(TopK(FlatValues(s, q.filter.value, q.metricKey.value), limit, ParseOrder(order)))
  }

  /** `_getCount(comparision, value, otherValue)`: with no comparison every child of the filter node. */
  function GetCount(s: Store, q: LegacyQuery, cmp: Option<Comparison>, v1: Option<real>, v2: Option<real>): (r: Result<nat>)
    ensures r.Err? <==> q.filter.None? || q.metricKey.None?
    ensures r.Err? ==> r.error == NullReference
    ensures r.Ok? && cmp.None? ==> r.value == |FlatChildren(s, q.filter.value)|
    ensures r.Ok? && cmp.Some? ==> Counted(FlatValues(s, q.filter.value, q.metricKey.value), r.value, cmp, v1, v2)
  {
    if q.filter.None? || q.metricKey.None? then Err(NullReference)
    else if cmp.None? then Ok(|FlatChildren(s, q.filter.value)|)
    else Ok(CountWhere(FlatValues(s, q.filter.value, q.metricKey.value), cmp, v1, v2))
  }

  function Count(s: Store, q: LegacyQuery): (r: Result<nat>)
    ensures r.Err? <==> q.filter.None? || q.metricKey.None?
    ensures r.Ok? ==> r.value == |FlatChildren(s, q.filter.value)|
  {
    GetCount(s, q, None, None, None)
  }

  /** `lesser(v)` leaves the second bound undefined. */
  function Lesser(s: Store, q: LegacyQuery, v: real): (r: Result<nat>)
    ensures r.Err? <==> q.filter.None? || q.metricKey.None?
    ensures r.Ok? ==> Counted(FlatValues(s, q.filter.value, q.metricKey.value), r.value, Some(Selection.Lesser), Some(v), None)
  {
    GetCount(s, q, Some(Selection.Lesser), Some(v), None)
  }

  function Greater(s: Store, q: LegacyQuery, v: real): (r: Result<nat>)
    ensures r.Err? <==> q.filter.None? || q.metricKey.None?
    ensures r.Ok? ==> Counted(FlatValues(s, q.filter.value, q.metricKey.value), r.value, Some(Selection.Greater), Some(v), None)
  {
    GetCount(s, q, Some(Selection.Greater), Some(v), None)
  }

  function Between(s: Store, q: LegacyQuery, v: real, w: real): (r: Result<nat>)
    ensures r.Err? <==> q.filter.None? || q.metricKey.None?
    ensures r.Ok? ==> Counted(FlatValues(s, q.filter.value, q.metricKey.value), r.value, Some(Selection.Between), Some(v), Some(w))
  {
    GetCount(s, q, Some(Selection.Between), Some(v), Some(w))
  }

  /** `equal(v)` is `_getCount('between', v, v)`. */
  function Equal(s: Store, q: LegacyQuery, v: real): (r: Result<nat>)
    ensures r.Err? <==> q.filter.None? || q.metricKey.None?
    ensures r.Ok? ==> Counted(FlatValues(s, q.filter.value, q.metricKey.value), r.value, Some(Selection.Between), Some(v), Some(v))
  {
    GetCount(s, q, Some(Selection.Between), Some(v), Some(v))
  }

  lemma EqualIsBetween(s: Store, q: LegacyQuery, v: real)
    ensures Equal(s, q, v) == Between(s, q, v, v)
  {
  }

  /** Both one-sided counts are inclusive: together they count every value once and the ties twice. */
  lemma LesserGreaterInclusive(s: Store, q: LegacyQuery, v: real)
    requires q.filter.Some? && q.metricKey.Some?
    ensures Lesser(s, q, v).value + Greater(s, q, v).value
            == |FlatValues(s, q.filter.value, q.metricKey.value)| + Equal(s, q, v).value
  {
    LesserPlusGreater(FlatValues(s, q.filter.value, q.metricKey.value), v);
  }
}

=== FILE: legacy_reads.dfy ===
/**
 * The reads of the older registry. Its cells live in the older layout: under a
 * node, one child per entity, each holding the stat keys. A read orders the
 * children of the node by one stat key and then either keeps the top values
 * (`_getMetrics`) or counts the children a range keeps (`_getTotalInternal`).
 */
module LegacyReads {
  import opened Common
  import opened Store
  import opened Selection
  import opened LegacyIngest

  /** `_getMetrics` does not default the order: anything but "desc"/"asc" neither limits the side nor sorts. */
  function LegacyOrder(order: string): (o: Order)
    ensures o == Desc <==> order == "desc"
    ensures o == Asc <==> order == "asc"
  {
    if order == "desc" then Desc else if order == "asc" then Asc else Unsorted
  }

  /**
   * `_getMetrics(ref, stat, evalName, limit, order)`: `limit` (0 meaning 1) values of
   * the stat over the children of `node`, the largest sorted descending for "desc",
   * otherwise the smallest in ascending order.
   */
  function GetMetrics(s: Store, node: string, prefix: string, stat: string, evalName: string, limit: nat, order: string): (r: seq<real>)
    ensures var vs := FlatValues(s, node, StatKey(prefix, stat, evalName));
            && |r| == Min(if limit == 0 then 1 else limit, |vs|)
            && multiset(r) <= multiset(vs)
            && (order == "desc" ==> forall i, j :: 0 <= i < j < |r| ==> r[i] >= r[j])
            && (order != "desc" ==> forall i, j :: 0 <= i < j < |r| ==> r[i] <= r[j])
            && (order == "desc" ==> forall x, y :: x in multiset(vs) - multiset(r) && y in multiset(r) ==> x <= y)
            && (order != "desc" ==> forall x, y :: x in multiset(vs) - multiset(r) && y in multiset(r) ==> y <= x)
  {
    TopK(FlatValues(s, node, StatKey(prefix, stat, evalName)), limit, LegacyOrder(order))
  }

  /** Without an order, `_getMetrics` returns the smallest value, not the largest. */
  lemma UnorderedMetricsTakeSmallest(s: Store, node: string, prefix: string, stat: string, evalName: string, p: string, v: real)
    requires (FlatCell(node, p, StatKey(prefix, stat, evalName)), v) in s
    ensures |GetMetrics(s, node, prefix, stat, evalName, 0, "")| == 1
    ensures GetMetrics(s, node, prefix, stat, evalName, 0, "")[0] <= v
  {
    var vs := FlatValues(s, node, StatKey(prefix, stat, evalName));
    var r := GetMetrics(s, node, prefix, stat, evalName, 0, "");
    assert v in vs;
    assert v in multiset(vs);
    assert r[0] in multiset(r);
    if v !in multiset(r) {
      assert v in multiset(vs) - multiset(r);
    }
  }

  /** The comparison and bounds `_getTotalInternal` applies; `equal` is a range from v to v. */
  function TotalBounds(cmp: string, v: Option<real>, w: Option<real>): (b: (Option<Comparison>, Option<real>, Option<real>))
    ensures cmp == "lesser" ==> b == (Some(Lesser), v, None)
    ensures cmp == "greater" ==> b == (Some(Greater), v, None)
    ensures cmp == "between" ==> b == (Some(Between), v, w)
    ensures cmp == "equal" ==> b == (Some(Between), v, v)
    ensures cmp !in {"lesser", "greater", "between", "equal"} ==> b.0.None?
  {
    if cmp == "lesser" then (Some(Lesser), v, None)
    else if cmp == "greater" then (Some(Greater), v, None)
    else if cmp == "between" then (Some(Between), v, w)
    else if cmp == "equal" then (Some(Between), v, v)
    else (None, None, None)
  }

  /**
   * `_getTotalInternal(ref, stat, evalName, comparision, value, otherValue)`: with no
   * stat, or no known comparison, every child of the node; otherwise the children
   * whose stat the range keeps.
   */
  function GetTotal(s: Store, node: string, prefix: string, stat: string, evalName: string,
                    cmp: string, v: Option<real>, w: Option<real>): (r: nat)
    ensures stat == "" || TotalBounds(cmp, v, w).0.None? ==> r == |FlatChildren(s, node)|
    ensures stat != "" && TotalBounds(cmp, v, w).0.Some? ==>
              var vs, b := FlatValues(s, node, StatKey(prefix, stat, evalName)), TotalBounds(cmp, v, w);
              && r == |MatchSet(vs, b.0, b.1, b.2)|
              && r <= |vs|
              && (r == |vs| <==> forall i :: 0 <= i < |vs| ==> Matches(b.0, b.1, b.2, vs[i]))
              && (r == 0 <==> forall i :: 0 <= i < |vs| ==> !Matches(b.0, b.1, b.2, vs[i]))
  {
    var b := TotalBounds(cmp, v, w);
    if stat == "" || b.0.None? then |FlatChildren(s, node)|
    else CountWhere(FlatValues(s, node, StatKey(prefix, stat, evalName)), b.0, b.1, b.2)
  }

  /** `equal` counts what `between` counts with both bounds the same; its second bound is ignored. */
  lemma EqualIsBetweenSame(s: Store, node: string, prefix: string, stat: string, evalName: string, v: Option<real>, w: Option<real>)
    ensures GetTotal(s, node, prefix, stat, evalName, "equal", v, w) == GetTotal(s, node, prefix, stat, evalName, "between", v, v)
  {
  }

  /** Both one-sided bounds are inclusive. */
  lemma TotalLesserGreaterInclusive(s: Store, node: string, prefix: string, stat: string, evalName: string, t: real)
    requires stat != ""
    ensures GetTotal(s, node, prefix, stat, evalName, "lesser", Some(t), None)
            + GetTotal(s, node, prefix, stat, evalName, "greater", Some(t), None)
            == |FlatValues(s, node, StatKey(prefix, stat, evalName))|
               + GetTotal(s, node, prefix, stat, evalName, "equal", Some(t), None)
  {
    LesserPlusGreater(FlatValues(s, node, StatKey(prefix, stat, evalName)), t);
  }
}

=== FILE: metricquery.dfy ===
/**
 * MetricQuery: a filter, a partition key and a metric key. Its terminal
 * operations read one cell (`value`), pick the top values over the partitions
 * (`select`) and count partitions (`count` / `total`); `lesser`, `greater`,
 * `between`, `equal` and `during` hand the keys on to a count or retainer query.
 */
module MetricQueries {
  import opened Common
  import opened Assoc
  import opened Registry
  import opened PathKeys
  import opened Store
  import opened Selection
  import opened CountQueries
  import opened RetainerQueries

  datatype MetricQuery = MetricQuery(filter: Option<string>, filterKey: Option<string>, metricKey: Option<string>)

  const NewMetricQuery: MetricQuery := MetricQuery(None, None, None)

  /** Binds the metric key of (`prop`, `evaluator`). */
  function SetMetric(c: Config, q: MetricQuery, prop: string, evaluator: string): (r: MetricQuery)
    ensures r.metricKey.Some? && |r.metricKey.value| == |prop| + |c.separator| + |evaluator|
    ensures r.metricKey.value[..|prop|] == prop
    ensures r.metricKey.value[|prop|..|prop| + |c.separator|] == c.separator
    ensures r.metricKey.value[|prop| + |c.separator|..] == evaluator
    ensures r.filter == q.filter && r.filterKey == q.filterKey
  {
    q.(metricKey := Some(MetricKey(c.separator, prop, evaluator)))
  }

  /** The cell `value()` reads. */
  function ValueCell(q: MetricQuery): Cell
    requires q.filter.Some? && q.filterKey.Some? && q.metricKey.Some?
  {
    MetricCell(q.filter.value, q.filterKey.value, q.metricKey.value)
  }

  /**
   * `value()`: a falsy partition key, then a falsy metric key, throw before any
   * read; otherwise the cell's value, or null for a cell never written.
   */
  function Value(s: Store, q: MetricQuery): (r: Result<Option<real>>)
    ensures !Truthy(q.filterKey) ==> r == Err(FilterKeyNotSet)
    ensures Truthy(q.filterKey) && !Truthy(q.metricKey) ==> r == Err(MetricKeyNotSet)
    ensures Truthy(q.filterKey) && Truthy(q.metricKey) && q.filter.None? ==> r == Err(NullReference)
    ensures r.Ok? <==> Truthy(q.filterKey) && Truthy(q.metricKey) && q.filter.Some?
    ensures r.Ok? ==> (r.value.Some? <==> ValueCell(q) in Keys(s))
    ensures r.Ok? && r.value.Some? ==> (ValueCell(q), r.value.value) in s
  {
    if !Truthy(q.filterKey) then Err(FilterKeyNotSet)
    else if !Truthy(q.metricKey) then Err(MetricKeyNotSet)
    else if q.filter.None? then Err(NullReference)
    else Ok(Lookup(s, ValueCell(q)))
  }

  /**
   * `select(limit, order)`: orders the partitions by the metric and keeps `limit`
   * (0 meaning 1) of them from the top for "desc" (the default) and from the bottom
   * otherwise, sorted descending for "desc" and ascending otherwise.
   */
  function Select(s: Store, q: MetricQuery, limit: nat, order: string): (r: Result<seq<real>>)
    ensures r.Err? <==> q.filter.None? || q.metricKey.None?
    ensures r.Err? ==> r.error == NullReference
    ensures r.Ok? ==>
              var vs := MetricValues(s, q.filter.value, q.metricKey.value);
              && |r.value| == Min(if limit == 0 then 1 else limit, |vs|)
              && multiset(r.value) <= multiset(vs)
              && (order == "" || order == "desc" ==> forall i, j :: 0 <= i < j < |r.value| ==> r.value[i] >= r.value[j])
              && (order != "" && order != "desc" ==> forall i, j :: 0 <= i < j < |r.value| ==> r.value[i] <= r.value[j])
              && (order == "" || order == "desc" ==>
                    forall x, y :: x in multiset(vs) - multiset(r.value) && y in multiset(r.value) ==> x <= y)
              && (order != "" && order != "desc" ==>
                    forall x, y :: x in multiset(vs) - multiset(r.value) && y in multiset(r.value) ==> y <= x)
  {
    if q.filter.None? || q.metricKey.None? then Err(NullReference)
    else Ok(TopK(MetricValues(s, q.filter.value, q.metricKey.value), limit, ParseOrder(order)))
  }

  /** Every value a selection returns is the metric of some partition of the filter. */
  lemma SelectReadsPartitions(s: Store, q: MetricQuery, limit: nat, order: string, v: real)
    requires Select(s, q, limit, order).Ok? && v in Select(s, q, limit, order).value
    ensures exists p :: (MetricCell(q.filter.value, p, q.metricKey.value), v) in s
  {
    var r := Select(s, q, limit, order).value;
    assert v in multiset(r);
    assert v in MetricValues(s, q.filter.value, q.metricKey.value);
  }

  lemma SelectIsTopK(s: Store, q: MetricQuery, limit: nat, order: string)
    requires q.filter.Some? && q.metricKey.Some?
    ensures Select(s, q, limit, order) == Ok(TopK(MetricValues(s, q.filter.value, q.metricKey.value), limit, ParseOrder(order)))
  {
  }

  /** With the default arguments a selection returns the largest value over the partitions. */
  lemma SelectDefaultIsMax(s: Store, q: MetricQuery, p: string, v: real)
    requires q.filter.Some? && q.metricKey.Some?
    requires (MetricCell(q.filter.value, p, q.metricKey.value), v) in s
    ensures |Select(s, q, 0, "").value| == 1
    ensures Select(s, q, 0, "").value[0] >= v
  {
    var vs := MetricValues(s, q.filter.value, q.metricKey.value);
    SelectIsTopK(s, q, 0, "");
    assert v in vs;
    TopOneIsMax(vs, 0, v);
  }

  /** The count query that carries this query's keys. */
  function Counting(q: MetricQuery): (r: CountQuery)
    ensures r.filter == q.filter && r.filterKey == q.filterKey && r.metricKey == q.metricKey
    ensures r.comparison.None? && r.v1.None? && r.v2.None?
  {
    NewCountQuery.(filter := q.filter, filterKey := q.filterKey, metricKey := q.metricKey)
  }

  /** `lesser(v)`: the keys, the comparison and v; the second bound is null. */
  function Lesser(q: MetricQuery, v: real): (r: CountQuery)
    ensures r.filter == q.filter && r.filterKey == q.filterKey && r.metricKey == q.metricKey
    ensures r.comparison == Some(Selection.Lesser) && r.v1 == Some(v) && r.v2.None?
  {
    SetComparison(Counting(q), Selection.Lesser, Some(v), None)
  }

  function Greater(q: MetricQuery, v: real): (r: CountQuery)
    ensures r.filter == q.filter && r.filterKey == q.filterKey && r.metricKey == q.metricKey
    ensures r.comparison == Some(Selection.Greater) && r.v1 == Some(v) && r.v2.None?
  {
    SetComparison(Counting(q), Selection.Greater, Some(v), None)
  }

  function Between(q: MetricQuery, v: real, w: real): (r: CountQuery)
    ensures r.filter == q.filter && r.filterKey == q.filterKey && r.metricKey == q.metricKey
    ensures r.comparison == Some(Selection.Between) && r.v1 == Some(v) && r.v2 == Some(w)
  {
    SetComparison(Counting(q), Selection.Between, Some(v), Some(w))
  }

  /** `equal(v)` is the between comparison with both bounds v. */
  function Equal(q: MetricQuery, v: real): (r: CountQuery)
    ensures r.filter == q.filter && r.filterKey == q.filterKey && r.metricKey == q.metricKey
    ensures r.comparison == Some(Selection.Between) && r.v1 == Some(v) && r.v2 == Some(v)
  {
    SetComparison(Counting(q), Selection.Between, Some(v), Some(v))
  }

  lemma EqualIsBetween(q: MetricQuery, v: real)
    ensures Equal(q, v) == Between(q, v, v)
  {
  }

  /** `equal(v)` counts exactly the partitions whose metric is v. */
  lemma EqualCountsTies(s: Store, q: MetricQuery, v: real)
    requires q.filter.Some? && q.metricKey.Some?
    ensures var vs := MetricValues(s, q.filter.value, q.metricKey.value);
            && Count(s, Equal(q, v)).Ok?
            && Count(s, Equal(q, v)).value == |set i | 0 <= i < |vs| && vs[i] == v|
            && (Count(s, Equal(q, v)).value == |vs| <==> forall i :: 0 <= i < |vs| ==> vs[i] == v)
            && (Count(s, Equal(q, v)).value == 0 <==> forall i :: 0 <= i < |vs| ==> vs[i] != v)
  {
    var vs := MetricValues(s, q.filter.value, q.metricKey.value);
    assert forall x :: Matches(Some(Selection.Between), Some(v), Some(v), x) <==> x == v;
    assert MatchSet(vs, Some(Selection.Between), Some(v), Some(v)) == set i | 0 <= i < |vs| && vs[i] == v;
  }

  /** `count()` (called `total()` in the compiled copy): every partition of the filter, no comparison. */
  function Total(s: Store, q: MetricQuery): (r: Result<nat>)
    ensures r.Err? <==> q.filter.None? || q.metricKey.None?
    ensures r.Ok? ==> r.value == |Partitions(s, q.filter.value)|
  {
    CountQueries.Count(s, Counting(q))
  }

  /**
   * `during(start, end, retainer)`: a retainer query with this query's keys and the
   * retainer bound; `setRetainer` ignores the other two arguments, so no range is set.
   */
  function During(q: MetricQuery, start: int, end: int, retainer: string): (r: RetainerQuery)
    ensures r.filter == q.filter && r.filterKey == q.filterKey && r.metricKey == q.metricKey
    ensures r.retainer == Some(retainer)
    ensures r.start == 0 && r.end == 0
  {
    SetRetainer(NewRetainerQuery.(filter := q.filter, filterKey := q.filterKey, metricKey := q.metricKey), retainer)
  }

  /** The times passed to `during` make no difference; only a later `range` bounds the scan. */
  lemma DuringIgnoresTimes(q: MetricQuery, s1: int, e1: int, s2: int, e2: int, retainer: string)
    ensures During(q, s1, e1, retainer) == During(q, s2, e2, retainer)
  {
  }
}

=== FILE: older_query.dfy ===
/**
 * The oldest combined query builder. It has no partition key: it keeps a filter,
 * a metric key and a prepared ordered query over the filter node, rebuilt each
 * time the filter or the metric is set and present only once both are. The
 * registry function it calls to build a metric key is passed in as `keyOf`.
 */
module OlderQueries {
  import opened Common
  import opened Evaluators
  import opened Store
  import opened Selection

  /** `queryRef` is the filter node ordered by the metric key, as a (filter, metric) pair. */
  datatype OlderQuery = OlderQuery(filter: Option<string>, metricKey: Option<string>, queryRef: Option<(string, string)>)

  const NewOlderQuery: OlderQuery := OlderQuery(None, None, None)

  /** The prepared query exists exactly when filter and metric are both set, and is built from them. */
  predicate Prepared(q: OlderQuery)
  {
    && (q.queryRef.Some? <==> q.filter.Some? && q.metricKey.Some?)
    && (q.queryRef.Some? ==> q.queryRef.value == (q.filter.value, q.metricKey.value))
  }

  lemma NewOlderQueryPrepared()
    ensures Prepared(NewOlderQuery)
  {
  }

  /** Binds the filter and rebuilds the prepared query. */
  function SetFilter(q: OlderQuery, filter: string): (r: OlderQuery)
    ensures r.filter == Some(filter) && r.metricKey == q.metricKey
    ensures Prepared(r)
  {
    q.(filter := Some(filter), queryRef := if q.metricKey.Some? then Some((filter, q.metricKey.value)) else None)
  }

  /** Binds the metric key and rebuilds the prepared query. */
  function SetMetric(q: OlderQuery, key: string): (r: OlderQuery)
    ensures r.metricKey == Some(key) && r.filter == q.filter
    ensures Prepared(r)
  {
    q.(metricKey := Some(key), queryRef := if q.filter.Some? then Some((q.filter.value, key)) else None)
  }

  /** The order of the two setters does not matter. */
  lemma SettersCommute(q: OlderQuery, filter: string, key: string)
    ensures SetMetric(SetFilter(q, filter), key) == SetFilter(SetMetric(q, key), filter)
    ensures SetMetric(SetFilter(q, filter), key).queryRef == Some((filter, key))
  {
  }

  /** `min(prop)` ... `last(prop)`: a new query with only the filter copied, then the metric set. */
  function Selector(q: OlderQuery, keyOf: (string, string) -> string, b: Builtin, prop: string): (r: OlderQuery)
    ensures r.filter == q.filter && r.metricKey == Some(keyOf(prop, Name(b)))
    ensures r.queryRef.Some? <==> q.filter.Some?
    ensures Prepared(r)
  {
    SetMetric(NewOlderQuery.(filter := q.filter), keyOf(prop, Name(b)))
  }

  /** `select(limit, order)` over the prepared query; without one the call throws. */
  function Select(s: Store, q: OlderQuery, limit: nat, order: string): (r: Result<seq<real>>)
    ensures r.Err? <==> q.queryRef.None?
    ensures r.Err? ==> r.error == NullReference
    ensures r.Ok? ==> Selected(FlatValues(s, q.queryRef.value.0, q.queryRef.value.1), r.value, limit, ParseOrder(order))
  {
    match q.queryRef
    case None => Err(NullReference)
    case Some(qr) => Ok(TopK(FlatValues(s, qr.0, qr.1), limit, ParseOrder(order)))
  }

  /** `_getCount(comparision, value, otherValue)` over the prepared query. */
  function GetCount(s: Store, q: OlderQuery, cmp: Option<Comparison>, v1: Option<real>, v2: Option<real>): (r: Result<nat>)
    ensures r.Err? <==> q.queryRef.None?
    ensures r.Err? ==> r.error == NullReference
    ensures r.Ok? && cmp.None? ==> r.value == |FlatChildren(s, q.queryRef.value.0)|
    ensures r.Ok? && cmp.Some? ==> Counted(FlatValues(s, q.queryRef.value.0, q.queryRef.value.1), r.value, cmp, v1, v2)
  {
    match q.queryRef
    case None => Err(NullReference)
    case Some(qr) =>
      if cmp.None? then Ok(|FlatChildren(s, qr.0)|)
      else Ok(CountWhere(FlatValues(s, qr.0, qr.1), cmp, v1, v2))
  }

  /** `count()`: every child of the filter node. */
  function Count(s: Store, q: OlderQuery): (r: Result<nat>)
    ensures r.Err? <==> q.queryRef.None?
    ensures r.Ok? ==> r.value == |FlatChildren(s, q.queryRef.value.0)|
  {
    GetCount(s, q, None, None, None)
  }

  /** `lesser(v)`: the children whose metric is at most v. */
  function Lesser(s: Store, q: OlderQuery, v: real): (r: Result<nat>)
    ensures r.Err? <==> q.queryRef.None?
    ensures r.Ok? ==> Counted(FlatValues(s, q.queryRef.value.0, q.queryRef.value.1), r.value, Some(Selection.Lesser), Some(v), None)
  {
    GetCount(s, q, Some(Selection.Lesser), Some(v), None)
  }

  /** `greater(v)`: the children whose metric is at least v. */
  function Greater(s: Store, q: OlderQuery, v: real): (r: Result<nat>)
    ensures r.Err? <==> q.queryRef.None?
    ensures r.Ok? ==> Counted(FlatValues(s, q.queryRef.value.0, q.queryRef.value.1), r.value, Some(Selection.Greater), Some(v), None)
  {
    GetCount(s, q, Some(Selection.Greater), Some(v), None)
  }

  /** `between(v, w)`: the children whose metric lies in [v, w]. */
  function Between(s: Store, q: OlderQuery, v: real, w: real): (r: Result<nat>)
    ensures r.Err? <==> q.queryRef.None?
    ensures r.Ok? ==> Counted(FlatValues(s, q.queryRef.value.0, q.queryRef.value.1), r.value, Some(Selection.Between), Some(v), Some(w))
  {
    GetCount(s, q, Some(Selection.Between), Some(v), Some(w))
  }

  /** `equal(v)` is `_getCount('between', v, v)`. */
  function Equal(s: Store, q: OlderQuery, v: real): (r: Result<nat>)
    ensures r.Err? <==> q.queryRef.None?
    ensures r.Ok? ==> Counted(FlatValues(s, q.queryRef.value.0, q.queryRef.value.1), r.value, Some(Selection.Between), Some(v), Some(v))
  {
    GetCount(s, q, Some(Selection.Between), Some(v), Some(v))
  }

  /** Both one-sided counts are inclusive: together they count every value once and the ties twice. */
  lemma LesserGreaterInclusive(s: Store, q: OlderQuery, v: real)
    requires q.queryRef.Some?
    ensures Lesser(s, q, v).value + Greater(s, q, v).value
            == |FlatValues(s, q.queryRef.value.0, q.queryRef.value.1)| + Equal(s, q, v).value
  {
    LesserPlusGreater(FlatValues(s, q.queryRef.value.0, q.queryRef.value.1), v);
  }

  /** A query built by a selector after `setFilter` counts what the same filter and metric count directly. */
  lemma SelectorThenCount(s: Store, q: OlderQuery, keyOf: (string, string) -> string, b: Builtin, prop: string, filter: string)
    ensures var r := Selector(SetFilter(q, filter), keyOf, b, prop);
            && GetCount(s, r, None, None, None) == Ok(|FlatChildren(s, filter)|)
            && Select(s, r, 1, "").Ok?
  {
  }
}

=== FILE: registry.dfy ===
/**
 * The engine's configuration: separator, evaluator table, filters, retainers and
 * per-property rules, with the registration calls that validate and extend it and
 * the resolution of (possibly derived) retainer names to durations.
 */
module Registry {
  import opened Common
  import opened Assoc
  import opened Text
  import opened Evaluators

  /** What is recorded for one property: its evaluators, and the evaluators of each enabled retainer. */
  datatype Rule = Rule(metrics: seq<string>, retainers: Assoc<string, seq<string>>)

  datatype Config = Config(
    separator: string,
    reducers: map<string, Reducer>,
    filters: Assoc<string, seq<string>>,
    retainers: map<string, int>,
    properties: map<string, Rule>)

  const DefaultSeparator: string := "~~"

  /** The registry a new engine starts with; `separator` is the configured one, if any. */
  function Initial(separator: Option<string>): (c: Config)
    ensures Truthy(separator) ==> c.separator == separator.value
    ensures !Truthy(separator) ==> c.separator == DefaultSeparator
    ensures forall b :: Name(b) in c.reducers && c.reducers[Name(b)] == Native(b)
    ensures c.retainers == map["second" := 1000, "minute" := 60000, "hour" := 3600000,
                               "day" := 86400000, "week" := 604800000]
    ensures c.filters == [] && c.properties == map[]
  {
    Config(if Truthy(separator) then separator.value else DefaultSeparator,
           BuiltinTable(),
           [],
           map["second" := 1000, "minute" := 60000, "hour" := 3600000,
               "day" := 86400000, "week" := 604800000],
           map[])
  }

  /** All named evaluators are registered. */
  predicate KnownEvaluators(c: Config, names: seq<string>)
  {
    forall i :: 0 <= i < |names| ==> names[i] in c.reducers
  }

  /** What every registry reachable through the registration calls satisfies. */
  predicate Valid(c: Config)
  {
    && |c.separator| > 0
    && DistinctKeys(c.filters)
    && "default" !in Keys(c.filters)
    && "" !in Keys(c.filters)
    && (forall p :: p in c.properties ==> KnownEvaluators(c, c.properties[p].metrics))
    && (forall p :: p in c.properties ==> DistinctKeys(c.properties[p].retainers))
    && (forall p, i :: p in c.properties && 0 <= i < |c.properties[p].retainers| ==>
          KnownEvaluators(c, c.properties[p].retainers[i].1))
  }

  lemma InitialValid(separator: Option<string>)
    ensures Valid(Initial(separator))
  {
  }

  // ---------------------------------------------------------------- registration calls

  /** Registers (or replaces) an evaluator; `fn` is None when what was passed is not a function. */
  function AddEvaluator(c: Config, name: string, fn: Option<Reducer>): (r: Result<Config>)
    ensures name == "" ==> r == Err(EvaluatorNameRequired)
    ensures name != "" && fn.None? ==> r == Err(EvaluatorNotFunction)
    ensures r.Ok? ==> r.value.reducers == c.reducers[name := fn.value]
    ensures r.Ok? ==> r.value == c.(reducers := r.value.reducers)
  {
    if name == "" then Err(EvaluatorNameRequired)
    else if fn.None? then Err(EvaluatorNotFunction)
    else Ok(c.(reducers := c.reducers[name := fn.value]))
  }

  /** Registers (or replaces) a filter; `props` is None when what was passed is not an array. */
  function AddFilter(c: Config, name: string, props: Option<seq<string>>): (r: Result<Config>)
    ensures name == "" ==> r == Err(FilterNameRequired)
    ensures name == "default" ==> r == Err(CannotOverrideDefault)
    ensures name != "" && name != "default" && props.None? ==> r == Err(FilterPropsNotArray)
    ensures r.Ok? <==> name != "" && name != "default" && props.Some?
    ensures r.Ok? ==> Lookup(r.value.filters, name) == Some(props.value)
    ensures r.Ok? ==> forall f :: f != name ==> Lookup(r.value.filters, f) == Lookup(c.filters, f)
    ensures r.Ok? ==> r.value == c.(filters := r.value.filters)
  {
    if name == "" then Err(FilterNameRequired)
    else if name == "default" then Err(CannotOverrideDefault)
    else if props.None? then Err(FilterPropsNotArray)
    else
      var fs := Upsert(c.filters, name, props.value);
      LookupUpsertAll(c.filters, name, props.value);
      Ok(c.(filters := fs))
  }

  lemma LookupUpsertAll<K, V>(s: Assoc<K, V>, k: K, v: V)
    ensures Lookup(Upsert(s, k, v), k) == Some(v)
    ensures forall k' :: k' != k ==> Lookup(Upsert(s, k, v), k') == Lookup(s, k')
  {
    LookupUpsert(s, k, v, k);
    forall k' | k' != k ensures Lookup(Upsert(s, k, v), k') == Lookup(s, k') {
      LookupUpsert(s, k, v, k');
    }
  }

  /**
   * Sets the evaluators recorded for a property. Every name must be registered; the
   * retainers already enabled for the property are kept.
   */
  function AddMetric(c: Config, prop: string, metrics: Option<seq<string>>): (r: Result<Config>)
    ensures prop == "" ==> r == Err(PropertyNameRequired)
    ensures prop != "" && metrics.None? ==> r == Err(MetricsNotArray)
    ensures prop != "" && metrics.Some? && !KnownEvaluators(c, metrics.value) ==> r == Err(InvalidEvaluators)
    ensures r.Ok? <==> prop != "" && metrics.Some? && KnownEvaluators(c, metrics.value)
    ensures r.Ok? ==> prop in r.value.properties && r.value.properties[prop].metrics == metrics.value
    ensures r.Ok? && prop in c.properties ==>
              r.value.properties[prop].retainers == c.properties[prop].retainers
    ensures r.Ok? && prop !in c.properties ==> r.value.properties[prop].retainers == []
    ensures r.Ok? ==> forall p :: p != prop && p in c.properties ==>
              p in r.value.properties && r.value.properties[p] == c.properties[p]
    ensures r.Ok? ==> r.value.properties.Keys == c.properties.Keys + {prop}
    ensures r.Ok? ==> r.value == c.(properties := r.value.properties)
  {
    if prop == "" then Err(PropertyNameRequired)
    else if metrics.None? then Err(MetricsNotArray)
    else if !KnownEvaluators(c, metrics.value) then Err(InvalidEvaluators)
    else
      var prior := if prop in c.properties then c.properties[prop] else Rule([], []);
      Ok(c.(properties := c.properties[prop := prior.(metrics := metrics.value)]))
  }

  /** Registers (or replaces) a retainer; `duration` is None when it is NaN. */
  function AddRetainer(c: Config, name: string, duration: Option<int>): (r: Result<Config>)
    ensures name == "" ==> r == Err(RetainerNameRequired)
    ensures name != "" && duration.None? ==> r == Err(InvalidDuration)
    ensures r.Ok? <==> name != "" && duration.Some?
    ensures r.Ok? ==> r.value.retainers == c.retainers[name := duration.value]
    ensures r.Ok? ==> r.value == c.(retainers := r.value.retainers)
  {
    if name == "" then Err(RetainerNameRequired)
    else if duration.None? then Err(InvalidDuration)
    else Ok(c.(retainers := c.retainers[name := duration.value]))
  }

  /**
   * Records the evaluators of a retainer for a property. There is no array check: a
   * list that is not an array fails with the TypeError of calling `forEach` on it.
   * The evaluator names are checked next; the property must have been added with
   * AddMetric. The retainer name itself is not checked here (an unknown one fails
   * when metrics are saved).
   */
  function EnableRetainer(c: Config, retainer: string, prop: string, metrics: Option<seq<string>>): (r: Result<Config>)
    ensures metrics.None? ==> r == Err(NotAnArray)
    ensures metrics.Some? && !KnownEvaluators(c, metrics.value) ==> r == Err(InvalidEvaluators)
    ensures metrics.Some? && KnownEvaluators(c, metrics.value) && prop !in c.properties ==> r == Err(UnknownProperty)
    ensures r.Ok? <==> metrics.Some? && KnownEvaluators(c, metrics.value) && prop in c.properties
    ensures r.Ok? ==> r.value.properties.Keys == c.properties.Keys
    ensures r.Ok? ==> r.value.properties[prop].metrics == c.properties[prop].metrics
    ensures r.Ok? ==> Lookup(r.value.properties[prop].retainers, retainer) == Some(metrics.value)
    ensures r.Ok? ==> forall p :: p != prop && p in c.properties ==> r.value.properties[p] == c.properties[p]
    ensures r.Ok? ==> r.value == c.(properties := r.value.properties)
  {
    if metrics.None? then Err(NotAnArray)
    else if !KnownEvaluators(c, metrics.value) then Err(InvalidEvaluators)
    else if prop !in c.properties then Err(UnknownProperty)
    else
      var rule := c.properties[prop];
      LookupUpsert(rule.retainers, retainer, metrics.value, retainer);
      Ok(c.(properties := c.properties[prop := rule.(retainers := Upsert(rule.retainers, retainer, metrics.value))]))
  }

  // ---------------------------------------------------------------- the invariant is kept

  lemma AddEvaluatorValid(c: Config, name: string, fn: Option<Reducer>)
    requires Valid(c)
    requires AddEvaluator(c, name, fn).Ok?
    ensures Valid(AddEvaluator(c, name, fn).value)
  {
    var c' := AddEvaluator(c, name, fn).value;
    forall p, i | p in c'.properties && 0 <= i < |c'.properties[p].retainers|
      ensures KnownEvaluators(c', c'.properties[p].retainers[i].1)
    {
      assert KnownEvaluators(c, c.properties[p].retainers[i].1);
    }
  }

  lemma AddFilterValid(c: Config, name: string, props: Option<seq<string>>)
    requires Valid(c)
    requires AddFilter(c, name, props).Ok?
    ensures Valid(AddFilter(c, name, props).value)
  {
    UpsertKeepsDistinct(c.filters, name, props.value);
  }

  lemma AddMetricValid(c: Config, prop: string, metrics: Option<seq<string>>)
    requires Valid(c)
    requires AddMetric(c, prop, metrics).Ok?
    ensures Valid(AddMetric(c, prop, metrics).value)
  {
    var c' := AddMetric(c, prop, metrics).value;
    forall p, i | p in c'.properties && 0 <= i < |c'.properties[p].retainers|
      ensures KnownEvaluators(c', c'.properties[p].retainers[i].1)
    {
      assert p in c.properties;
      assert c'.properties[p].retainers == c.properties[p].retainers;
      assert KnownEvaluators(c, c.properties[p].retainers[i].1);
    }
  }

  lemma AddRetainerValid(c: Config, name: string, duration: Option<int>)
    requires Valid(c)
    requires AddRetainer(c, name, duration).Ok?
    ensures Valid(AddRetainer(c, name, duration).value)
  {
    var c' := AddRetainer(c, name, duration).value;
    forall p, i | p in c'.properties && 0 <= i < |c'.properties[p].retainers|
      ensures KnownEvaluators(c', c'.properties[p].retainers[i].1)
    {
      assert KnownEvaluators(c, c.properties[p].retainers[i].1);
    }
  }

  lemma EnableRetainerValid(c: Config, retainer: string, prop: string, metrics: Option<seq<string>>)
    requires Valid(c)
    requires EnableRetainer(c, retainer, prop, metrics).Ok?
    ensures Valid(EnableRetainer(c, retainer, prop, metrics).value)
  {
    var c' := EnableRetainer(c, retainer, prop, metrics).value;
    var rs := c.properties[prop].retainers;
    assert c'.properties[prop].retainers == Upsert(rs, retainer, metrics.value);
    UpsertKeepsDistinct(rs, retainer, metrics.value);
    UpsertKnown(c, rs, retainer, metrics.value);
    forall p, i | p in c'.properties && 0 <= i < |c'.properties[p].retainers|
      ensures KnownEvaluators(c', c'.properties[p].retainers[i].1)
    {
      if p != prop {
        assert KnownEvaluators(c, c.properties[p].retainers[i].1);
      }
    }
  }

  /** Upserting known evaluators into retainers whose evaluators are known keeps them known. */
  lemma UpsertKnown(c: Config, rs: Assoc<string, seq<string>>, k: string, v: seq<string>)
    requires forall i :: 0 <= i < |rs| ==> KnownEvaluators(c, rs[i].1)
    requires KnownEvaluators(c, v)
    ensures forall i :: 0 <= i < |Upsert(rs, k, v)| ==> KnownEvaluators(c, Upsert(rs, k, v)[i].1)
  {
    var rs' := Upsert(rs, k, v);
    forall i | 0 <= i < |rs'| ensures KnownEvaluators(c, rs'[i].1) {
      var e := rs'[i];
      assert (e.0, e.1) in rs';
      UpsertMembers(rs, k, v, e.0, e.1);
      if e != (k, v) {
        var j :| 0 <= j < |rs| && rs[j] == e;
      }
    }
  }

  /** A pair of an upserted map is the new pair or a pair of the old map. */
  lemma {:induction false} UpsertMembers<K, V>(s: Assoc<K, V>, k: K, v: V, k': K, v': V)
    requires (k', v') in Upsert(s, k, v)
    ensures (k', v') == (k, v) || (k', v') in s
  {
    if |s| > 0 && s[0].0 != k {
      var r := Upsert(s, k, v);
      assert r == [s[0]] + Upsert(s[1..], k, v);
      if (k', v') != s[0] {
        assert (k', v') in Upsert(s[1..], k, v);
        UpsertMembers(s[1..], k, v, k', v');
      }
    }
  }

  /** Re-adding a metric keeps the retainers enabled for the property. */
  lemma AddMetricKeepsRetainers(c: Config, prop: string, metrics: seq<string>, retainer: string)
    requires prop in c.properties
    requires AddMetric(c, prop, Some(metrics)).Ok?
    ensures Lookup(AddMetric(c, prop, Some(metrics)).value.properties[prop].retainers, retainer)
         == Lookup(c.properties[prop].retainers, retainer)
  {
  }

  // ---------------------------------------------------------------- retainer names

  /**
   * The duration of a retainer. A name starting with decimal digits denotes that
   * multiple of the retainer named by the rest; any other name must be registered.
   * An unknown retainer is an error (its `duration` is read from `undefined`).
   */
  function GetRetainer(c: Config, name: string): (r: Result<int>)
    ensures LeadingDigits(name) > 0 && name[LeadingDigits(name)..] in c.retainers ==>
              r == Ok(DecimalValue(name[..LeadingDigits(name)]) * c.retainers[name[LeadingDigits(name)..]])
    ensures LeadingDigits(name) == 0 && name in c.retainers ==> r == Ok(c.retainers[name])
    ensures r.Err? ==> r.error == UnknownRetainer
  {
    var n := LeadingDigits(name);
    if n > 0 then
      var base := name[n..];
      if base in c.retainers then Ok(DecimalValue(name[..n]) * c.retainers[base]) else Err(UnknownRetainer)
    else if name in c.retainers then Ok(c.retainers[name])
    else Err(UnknownRetainer)
  }

  /** "5minute" is five minutes: a rendered count in front of a registered base name multiplies it. */
  lemma GetRetainerDerived(c: Config, n: nat, base: string)
    requires base in c.retainers
    requires |base| == 0 || !IsDigit(base[0])
    ensures GetRetainer(c, NatToString(n) + base) == Ok(n * c.retainers[base])
  {
    var name := NatToString(n) + base;
    LeadingDigitsOfPrefix(NatToString(n), base);
    assert name[..|NatToString(n)|] == NatToString(n);
    assert name[|NatToString(n)|..] == base;
    DecimalOfNatToString(n);
  }

  /** A name without leading digits resolves only to its own registration. */
  lemma GetRetainerDirect(c: Config, name: string)
    requires |name| == 0 || !IsDigit(name[0])
    ensures GetRetainer(c, name).Ok? <==> name in c.retainers
    ensures name in c.retainers ==> GetRetainer(c, name) == Ok(c.retainers[name])
  {
  }

  /** A retainer registered under a digit-led name is shadowed by the derived reading of that name. */
  lemma DigitNamedRetainerShadowed()
    ensures AddRetainer(Initial(None), "5minute", Some(7)).Ok?
    ensures GetRetainer(AddRetainer(Initial(None), "5minute", Some(7)).value, "5minute") == Ok(300000)
  {
    var c0 := Initial(None);
    var c := AddRetainer(c0, "5minute", Some(7)).value;
    assert c.retainers == c0.retainers["5minute" := 7];
    assert "5minute" != "minute";
    assert c.retainers["minute"] == 60000;
    assert !IsDigit("minute"[0]);
    GetRetainerDerived(c, 5, "minute");
    FiveMinuteName();
  }

  lemma FiveMinuteName()
    ensures NatToString(5) + "minute" == "5minute"
  {
    assert NatToString(5) == ['5'];
  }
}

=== FILE: reportquery.dfy ===
/**
 * ReportQuery: a filter and a partition key. `filter(name, data)` on the engine
 * builds one; each evaluator selector turns it into a metric query for one
 * property. Building a metric query copies the two keys and leaves the report
 * query as it was.
 */
module ReportQueries {
  import opened Common
  import opened Evaluators
  import opened Registry
  import opened PathKeys
  import MQ = MetricQueries

  datatype ReportQuery = ReportQuery(filter: Option<string>, filterKey: Option<string>)

  const NewReportQuery: ReportQuery := ReportQuery(None, None)

  /** Binds the filter and clears the partition key, then sets it only to a truthy value. */
  function SetFilter(q: ReportQuery, filter: string, value: Option<string>): (r: ReportQuery)
    ensures r.filter == Some(filter)
    ensures r.filterKey.Some? <==> Truthy(value)
    ensures r.filterKey.Some? ==> r.filterKey == value
  {
    ReportQuery(Some(filter), if Truthy(value) then value else None)
  }

  /** Nothing of an earlier `setFilter` survives a later one. */
  lemma SetFilterLastWins(q: ReportQuery, f1: string, v1: Option<string>, f2: string, v2: Option<string>)
    ensures SetFilter(SetFilter(q, f1, v1), f2, v2) == SetFilter(NewReportQuery, f2, v2)
  {
  }

  /** A metric query over this query's keys for (`prop`, `evaluator`). */
  function CreateMetricQuery(c: Config, q: ReportQuery, prop: string, evaluator: string): (r: MQ.MetricQuery)
    ensures r.filter == q.filter && r.filterKey == q.filterKey
    ensures r.metricKey == Some(MetricKey(c.separator, prop, evaluator))
  {
    MQ.SetMetric(c, MQ.NewMetricQuery.(filter := q.filter, filterKey := q.filterKey), prop, evaluator)
  }

  /** `min(prop)`, `max(prop)`, ..., `last(prop)`: each binds its own evaluator's name. */
  function Selector(c: Config, q: ReportQuery, b: Builtin, prop: string): (r: MQ.MetricQuery)
    ensures r.filter == q.filter && r.filterKey == q.filterKey
    ensures r.metricKey.Some? && |r.metricKey.value| >= |prop| + |c.separator|
    ensures r.metricKey.value[|prop| + |c.separator|..] == Name(b)
  {
    CreateMetricQuery(c, q, prop, Name(b))
  }

  /**
   * Two selectors on one report query give metric queries that share the filter and
   * partition key and read different cells.
   */
  lemma SelectorsIndependent(c: Config, q: ReportQuery, a: Builtin, b: Builtin, prop: string)
    requires a != b
    ensures Selector(c, q, a, prop).filter == Selector(c, q, b, prop).filter
    ensures Selector(c, q, a, prop).filterKey == Selector(c, q, b, prop).filterKey
    ensures Selector(c, q, a, prop).metricKey != Selector(c, q, b, prop).metricKey
  {
    SelectorKeysDistinct(c.separator, prop, a, b);
  }

  /** `filterName || 'default'`. */
  function FilterName(name: string): (n: string)
    ensures n != ""
    ensures name != "" ==> n == name
  {
    if name == "" then "default" else name
  }

  /**
   * The engine's `filter(name, data)`. With data, the partition key of that data
   * (an unknown filter throws); without data, "default" for the default filter and
   * no key at all for any other.
   */
  function Filter(c: Config, name: string, data: Option<Record>): (r: Result<ReportQuery>)
    ensures r.Err? <==> data.Some? && FilterName(name) != "default" && FilterName(name) !in Assoc.Keys(c.filters)
    ensures r.Err? ==> r.error == UnknownFilter
    ensures r.Ok? ==> r.value.filter == Some(FilterName(name))
    ensures r.Ok? && data.None? ==>
              (r.value.filterKey.Some? <==> FilterName(name) == "default")
    ensures r.Ok? && data.None? && FilterName(name) == "default" ==> r.value.filterKey == Some("default")
    ensures r.Ok? && data.Some? ==>
              var k := FilterKey(c, FilterName(name), data.value).value;
              r.value.filterKey == if k == "" then None else Some(k)
  {
    var n := FilterName(name);
    if data.Some? then
      match FilterKey(c, n, data.value)
      case Err(e) => Err(e)
      case Ok(k) => Ok(SetFilter(NewReportQuery, n, Some(k)))
    else if n == "default" then Ok(SetFilter(NewReportQuery, n, Some("default")))
    else Ok(SetFilter(NewReportQuery, n, None))
  }

  /**
   * For a registered filter, two records give the same report query exactly when
   * they agree on every property the filter declares.
   */
  lemma FilterIffAgree(c: Config, name: string, r1: Record, r2: Record)
    requires Delimits(c.separator)
    requires name != "" && name != "default" && Assoc.Lookup(c.filters, name).Some?
    ensures var props := Assoc.Lookup(c.filters, name).value;
            Filter(c, name, Some(r1)) == Filter(c, name, Some(r2)) <==>
            forall i :: 0 <= i < |props| ==> Assoc.Lookup(r1, props[i]) == Assoc.Lookup(r2, props[i])
  {
    var props := Assoc.Lookup(c.filters, name).value;
    SamePartitionIffAgree(c.separator, props, r1, r2);
  }
}

=== FILE: retainerquery.dfy ===
/**
 * RetainerQuery: reads the time buckets of one metric under one retainer. The scan
 * walks the bucket nodes of the partition in key order, bounded by the buckets of
 * the start and end times when those are set (a time of 0 counts as unset). With
 * `fill` and both bounds set, the result starts from the zero-filled bucket range.
 */
module RetainerQueries {
  import opened Common
  import opened Assoc
  import opened Text
  import opened Sorting
  import opened Registry
  import opened Buckets
  import opened Store

  datatype RetainerQuery = RetainerQuery(
    filter: Option<string>,
    filterKey: Option<string>,
    metricKey: Option<string>,
    retainer: Option<string>,
    start: int,
    end: int)

  const NewRetainerQuery: RetainerQuery := RetainerQuery(None, None, None, None, 0, 0)

  /** Binds the retainer and nothing else. */
  function SetRetainer(q: RetainerQuery, name: string): (r: RetainerQuery)
    ensures r.retainer == Some(name)
    ensures r.start == q.start && r.end == q.end
    ensures r.filter == q.filter && r.filterKey == q.filterKey && r.metricKey == q.metricKey
  {
    q.(retainer := Some(name))
  }

  /** Sets both time bounds; the query is otherwise unchanged. */
  function Range(q: RetainerQuery, start: int, end: int): (r: RetainerQuery)
    ensures r.start == start && r.end == end
    ensures r.retainer == q.retainer
    ensures r.filter == q.filter && r.filterKey == q.filterKey && r.metricKey == q.metricKey
  {
    q.(start := start, end := end)
  }

  // ---------------------------------------------------------------- the scan

  /** What a scan reads: its bucket bounds, the bucket nodes it visits, and the range it seeds with zeros. */
  datatype Scan = Scan(lo: Option<int>, hi: Option<int>, nodes: seq<int>, seed: Option<(int, int)>)

  predicate InBounds(b: int, lo: Option<int>, hi: Option<int>)
  {
    (lo.None? || lo.value <= b) && (hi.None? || b <= hi.value)
  }

  /** The elements of `xs` inside the bounds, in order. */
  function Within(xs: seq<int>, lo: Option<int>, hi: Option<int>): (r: seq<int>)
    requires Ascending(xs)
    ensures Ascending(r)
    ensures forall b :: b in r <==> b in xs && InBounds(b, lo, hi)
  {
    if |xs| == 0 then []
    else
      var rest := Within(xs[1..], lo, hi);
      assert forall b :: b in xs <==> b == xs[0] || b in xs[1..];
      if InBounds(xs[0], lo, hi) then
        assert forall k :: 0 <= k < |rest| ==> rest[k] in xs[1..];
        assert forall k :: 0 <= k < |xs[1..]| ==> xs[0] < xs[1..][k];
        [xs[0]] + rest
      else rest
  }

  /** The bucket of a bound, or None for an unset (zero) time. */
  function BoundBucket(c: Config, retainer: string, t: int): (r: Result<Option<int>>)
    ensures t == 0 ==> r == Ok(None)
    ensures t != 0 ==> (r.Ok? <==> RetainerBucket(c, retainer, t, 0).Ok?)
    ensures t != 0 && r.Ok? ==> r.value == Some(RetainerBucket(c, retainer, t, 0).value)
  {
    if t == 0 then Ok(None)
    else
      match RetainerBucket(c, retainer, t, 0)
      case Err(e) => Err(e)
      case Ok(b) => Ok(Some(b))
  }

  /**
   * The scan of a query. Following a missing filter, partition or retainer throws, and
   * so does the empty segment of a retainer named ""; both happen before a bound is
   * resolved. Resolving a set bound's bucket throws for an unknown retainer.
   */
  function ScanOf(c: Config, s: Store, q: RetainerQuery, fill: bool): (r: Result<Scan>)
    ensures q.filter.None? || q.filterKey.None? || q.retainer.None? ==> r == Err(NullReference)
    ensures q.filter.Some? && q.filterKey.Some? && q.retainer == Some("") ==> r == Err(InvalidPath)
    ensures r.Ok? ==> q.filter.Some? && q.filterKey.Some? && q.retainer.Some? && q.retainer.value != ""
    ensures r.Ok? ==> Ascending(r.value.nodes)
    ensures r.Ok? ==> r.value.lo.Some? == (q.start != 0) && r.value.hi.Some? == (q.end != 0)
    ensures r.Ok? ==> forall b :: b in r.value.nodes <==>
              HasBucket(s, q.filter.value, q.filterKey.value, q.retainer.value, b) && InBounds(b, r.value.lo, r.value.hi)
    ensures r.Ok? ==> (r.value.seed.Some? <==> fill && q.start != 0 && q.end != 0)
    ensures r.Ok? && r.value.seed.Some? ==> r.value.seed.value == (r.value.lo.value, r.value.hi.value)
  {
    if q.filter.None? || q.filterKey.None? || q.retainer.None? then Err(NullReference)
    else if q.retainer.value == "" then Err(InvalidPath)
    else
      match BoundBucket(c, q.retainer.value, q.start)
      case Err(e) => Err(e)
      case Ok(lo) =>
        match BoundBucket(c, q.retainer.value, q.end)
        case Err(e) => Err(e)
        case Ok(hi) =>
          var nodes := Within(BucketNodes(s, q.filter.value, q.filterKey.value, q.retainer.value), lo, hi);
          var seed := if fill && lo.Some? && hi.Some? then Some((lo.value, hi.value)) else None;
          Ok(Scan(lo, hi, nodes, seed))
  }

  /** The zero-filled buckets from `lo` to `hi`. */
  function ZeroMap(lo: int, hi: int): (m: map<int, real>)
    ensures forall b :: b in m <==> lo <= b <= hi
    ensures forall b :: b in m ==> m[b] == 0.0
  {
    var ks := Keys(ZeroRange(lo, hi));
    assert forall b :: b in ks <==> lo <= b <= hi by {
      forall b ensures b in ks <==> lo <= b <= hi {
        if lo <= b <= hi {
          assert ks[b - lo] == b;
        }
      }
    }
    map b | b in ks :: 0.0
  }

  /** The seed holds exactly the buckets the empty-bucket range lists. */
  lemma ZeroMapIsZeroRange(lo: int, hi: int)
    ensures forall b :: b in ZeroMap(lo, hi) <==> (b, 0.0) in ZeroRange(lo, hi)
  {
    forall b ensures b in ZeroMap(lo, hi) <==> (b, 0.0) in ZeroRange(lo, hi) {
      ZeroRangeMembers(lo, hi, b);
    }
  }

  function Seed(sc: Scan): map<int, real>
  {
    if sc.seed.Some? then ZeroMap(sc.seed.value.0, sc.seed.value.1) else map[]
  }

  function CellAt(q: RetainerQuery, b: int): Cell
    requires q.filter.Some? && q.filterKey.Some? && q.retainer.Some? && q.metricKey.Some?
  {
    BucketCell(q.filter.value, q.filterKey.value, q.retainer.value, Whole(b), q.metricKey.value)
  }

  /** Writes each visited bucket that holds the metric over the seed. */
  function Overlay(s: Store, q: RetainerQuery, m: map<int, real>, nodes: seq<int>): (r: map<int, real>)
    requires q.filter.Some? && q.filterKey.Some? && q.retainer.Some? && q.metricKey.Some?
    ensures forall b :: b in r <==> b in m || (b in nodes && Lookup(s, CellAt(q, b)).Some?)
    ensures forall b :: b in r ==>
              r[b] == if b in nodes && Lookup(s, CellAt(q, b)).Some? then Lookup(s, CellAt(q, b)).value else m[b]
    decreases |nodes|
  {
    if |nodes| == 0 then m
    else
      var b := nodes[0];
      var v := Lookup(s, CellAt(q, b));
      assert forall x :: x in nodes <==> x == b || x in nodes[1..];
      Overlay(s, q, if v.Some? then m[b := v.value] else m, nodes[1..])
  }

  /**
   * The buckets of the metric as an object from bucket to value: every visited bucket
   * holding the metric with its value, and, when seeded, every other bucket of the
   * range with 0.
   */
  function ValuesAsObject(c: Config, s: Store, q: RetainerQuery, fill: bool): (r: Result<map<int, real>>)
    ensures ScanOf(c, s, q, fill).Err? ==> r == Err(ScanOf(c, s, q, fill).error)
    ensures ScanOf(c, s, q, fill).Ok? ==> (r.Ok? <==> q.metricKey.Some?)
    ensures r.Err? ==> r.error in {NullReference, InvalidPath, UnknownRetainer, InvalidDuration}
    ensures r.Ok? ==>
              var sc := ScanOf(c, s, q, fill).value;
              && (forall b :: b in r.value <==>
                    (InBounds(b, sc.lo, sc.hi) && Lookup(s, CellAt(q, b)).Some?)
                    || (sc.seed.Some? && sc.seed.value.0 <= b <= sc.seed.value.1))
              && (forall b :: b in r.value ==>
                    r.value[b] == if InBounds(b, sc.lo, sc.hi) && Lookup(s, CellAt(q, b)).Some?
                                  then Lookup(s, CellAt(q, b)).value else 0.0)
  {
    match ScanOf(c, s, q, fill)
    case Err(e) => Err(e)
    case Ok(sc) =>
      if q.metricKey.None? then Err(NullReference)
      else
        var r := Overlay(s, q, Seed(sc), sc.nodes);
        assert forall b :: Lookup(s, CellAt(q, b)).Some? ==> HasBucket(s, q.filter.value, q.filterKey.value, q.retainer.value, b) by {
          forall b | Lookup(s, CellAt(q, b)).Some?
            ensures HasBucket(s, q.filter.value, q.filterKey.value, q.retainer.value, b)
          {
            LookupHasBucket(s, q.filter.value, q.filterKey.value, q.retainer.value, b, q.metricKey.value);
          }
        }
        Ok(r)
  }

  /** The same object as the code builds it: a visited bucket without the metric reads as null. */
  function OverlayAsWritten(s: Store, q: RetainerQuery, m: map<int, Option<real>>, nodes: seq<int>): (r: map<int, Option<real>>)
    requires q.filter.Some? && q.filterKey.Some? && q.retainer.Some? && q.metricKey.Some?
    ensures forall b :: b in r <==> b in m || b in nodes
    ensures forall b :: b in r ==> r[b] == if b in nodes then Lookup(s, CellAt(q, b)) else m[b]
    decreases |nodes|
  {
    if |nodes| == 0 then m
    else
      assert forall x :: x in nodes <==> x == nodes[0] || x in nodes[1..];
      OverlayAsWritten(s, q, m[nodes[0] := Lookup(s, CellAt(q, nodes[0]))], nodes[1..])
  }

  function SeedAsWritten(sc: Scan): map<int, Option<real>>
  {
    if sc.seed.Some? then
      var z := ZeroMap(sc.seed.value.0, sc.seed.value.1);
      map b | b in z :: Some(z[b])
    else map[]
  }

  function ValuesAsObjectAsWritten(c: Config, s: Store, q: RetainerQuery, fill: bool): (r: Result<map<int, Option<real>>>)
    ensures ScanOf(c, s, q, fill).Err? ==> r == Err(ScanOf(c, s, q, fill).error)
    ensures ScanOf(c, s, q, fill).Ok? ==> (r.Ok? <==> q.metricKey.Some?)
    ensures r.Ok? ==>
              var sc := ScanOf(c, s, q, fill).value;
              && (forall b :: b in r.value <==>
                    b in sc.nodes || (sc.seed.Some? && sc.seed.value.0 <= b <= sc.seed.value.1))
              && (forall b :: b in r.value ==>
                    r.value[b] == if b in sc.nodes then Lookup(s, CellAt(q, b)) else Some(0.0))
  {
    match ScanOf(c, s, q, fill)
    case Err(e) => Err(e)
    case Ok(sc) =>
      if q.metricKey.None? then Err(NullReference)
      else Ok(OverlayAsWritten(s, q, SeedAsWritten(sc), sc.nodes))
  }

  /**
   * Where a visited bucket lacks the metric (another property wrote to it), the code
   * reports null there even inside a filled range, where the intended reading is the
   * fill value 0, as for a bucket nobody wrote.
   */
  lemma NullOverridesFill(c: Config, s: Store, q: RetainerQuery, b: int)
    requires q.filter.Some? && q.filterKey.Some? && q.retainer.Some? && q.metricKey.Some?
    requires q.start != 0 && q.end != 0
    requires ScanOf(c, s, q, true).Ok?
    requires b in ScanOf(c, s, q, true).value.nodes
    requires Lookup(s, CellAt(q, b)).None?
    ensures ValuesAsObjectAsWritten(c, s, q, true).Ok? && ValuesAsObjectAsWritten(c, s, q, true).value[b] == None
    ensures ValuesAsObject(c, s, q, true).Ok? && ValuesAsObject(c, s, q, true).value[b] == 0.0
  {
    AsWrittenReadsNull(c, s, q, b);
    IntendedReadsZero(c, s, q, b);
  }

  lemma AsWrittenReadsNull(c: Config, s: Store, q: RetainerQuery, b: int)
    requires q.metricKey.Some?
    requires ScanOf(c, s, q, true).Ok? && b in ScanOf(c, s, q, true).value.nodes
    requires Lookup(s, CellAt(q, b)).None?
    ensures ValuesAsObjectAsWritten(c, s, q, true).Ok? && ValuesAsObjectAsWritten(c, s, q, true).value[b] == None
  {
  }

  lemma IntendedReadsZero(c: Config, s: Store, q: RetainerQuery, b: int)
    requires q.metricKey.Some? && q.start != 0 && q.end != 0
    requires ScanOf(c, s, q, true).Ok? && b in ScanOf(c, s, q, true).value.nodes
    requires Lookup(s, CellAt(q, b)).None?
    ensures ValuesAsObject(c, s, q, true).Ok? && ValuesAsObject(c, s, q, true).value[b] == 0.0
  {
    var sc := ScanOf(c, s, q, true).value;
    assert InBounds(b, sc.lo, sc.hi) && sc.seed.Some?;
  }

  // ---------------------------------------------------------------- the bucket list

  /** One entry of `values()`: the bucket key, the bucket's start time, and the value. */
  datatype BucketRecord = BucketRecord(bucket: string, timestamp: int, value: real)

  /** Every bucket the object can hold: the seeded range, then the visited nodes. */
  function Candidates(sc: Scan): seq<int>
  {
    (if sc.seed.Some? then Keys(ZeroRange(sc.seed.value.0, sc.seed.value.1)) else []) + sc.nodes
  }

  lemma KeysOfZeroRange(lo: int, hi: int, b: int)
    ensures b in Keys(ZeroRange(lo, hi)) <==> lo <= b <= hi
  {
    if lo <= b <= hi {
      assert Keys(ZeroRange(lo, hi))[b - lo] == b;
    }
  }

  /** The members of `xs` that are keys of `m`, in order. */
  function Present<V>(xs: seq<int>, m: map<int, V>): (r: seq<int>)
    requires Ascending(xs)
    ensures Ascending(r)
    ensures forall b :: b in r <==> b in xs && b in m
  {
    if |xs| == 0 then []
    else
      var rest := Present(xs[1..], m);
      assert forall b :: b in xs <==> b == xs[0] || b in xs[1..];
      if xs[0] in m then
        assert forall k :: 0 <= k < |rest| ==> rest[k] in xs[1..];
        assert forall k :: 0 <= k < |xs[1..]| ==> xs[0] < xs[1..][k];
        [xs[0]] + rest
      else rest
  }

  /** The record of bucket `k`: its key reads back as `k`, stamped `k * duration`, with the object's value. */
  predicate BucketOf(br: BucketRecord, k: int, obj: map<int, real>, d: int)
  {
    && ParseInt(br.bucket) == Some(k)
    && br.timestamp == k * d
    && k in obj && br.value == obj[k]
  }

  function Records(keys: seq<int>, obj: map<int, real>, d: int): (r: seq<BucketRecord>)
    requires forall k :: k in keys ==> k in obj
    ensures |r| == |keys|
    ensures forall i :: 0 <= i < |r| ==> BucketOf(r[i], keys[i], obj, d)
  {
    if |keys| == 0 then []
    else
      IntRoundTrip(keys[0]);
      var head := BucketRecord(IntToString(keys[0]), keys[0] * d, obj[keys[0]]);
      assert BucketOf(head, keys[0], obj, d);
      [head] + Records(keys[1..], obj, d)
  }

  /** The keys of the object are all candidates of the scan. */
  lemma ObjectWithinCandidates(c: Config, s: Store, q: RetainerQuery, fill: bool)
    requires ValuesAsObject(c, s, q, fill).Ok?
    ensures forall b :: b in ValuesAsObject(c, s, q, fill).value ==> b in Candidates(ScanOf(c, s, q, fill).value)
  {
    var sc := ScanOf(c, s, q, fill).value;
    var obj := ValuesAsObject(c, s, q, fill).value;
    forall b | b in obj ensures b in Candidates(sc) {
      if InBounds(b, sc.lo, sc.hi) && Lookup(s, CellAt(q, b)).Some? {
        LookupHasBucket(s, q.filter.value, q.filterKey.value, q.retainer.value, b, q.metricKey.value);
        assert b in sc.nodes;
      } else {
        KeysOfZeroRange(sc.seed.value.0, sc.seed.value.1, b);
      }
    }
  }

  /** The records of an object whose keys all lie among `cands`, in ascending bucket order. */
  function RecordsOf(obj: map<int, real>, cands: seq<int>, d: int): (r: seq<BucketRecord>)
    requires forall b :: b in obj ==> b in cands
    ensures forall i :: 0 <= i < |r| ==>
              && ParseInt(r[i].bucket).Some?
              && ParseInt(r[i].bucket).value in obj
              && r[i].value == obj[ParseInt(r[i].bucket).value]
              && r[i].timestamp == ParseInt(r[i].bucket).value * d
    ensures forall b :: b in obj ==> exists i :: 0 <= i < |r| && ParseInt(r[i].bucket) == Some(b)
    ensures forall i, j :: 0 <= i < j < |r| ==> ParseInt(r[i].bucket).value < ParseInt(r[j].bucket).value
  {
    var keys := Present(SortedSet(cands), obj);
    var r := Records(keys, obj, d);
    assert forall b :: b in obj ==> exists i :: 0 <= i < |r| && ParseInt(r[i].bucket) == Some(b) by {
      forall b | b in obj ensures exists i :: 0 <= i < |r| && ParseInt(r[i].bucket) == Some(b) {
        var i :| 0 <= i < |keys| && keys[i] == b;
        assert ParseInt(r[i].bucket) == Some(b);
      }
    }
    r
  }

  /**
   * `values()`: one record per bucket of the object, in ascending bucket order, each
   * with its value and its start time (bucket times the retainer's duration).
   */
  function Values(c: Config, s: Store, q: RetainerQuery, fill: bool): (r: Result<seq<BucketRecord>>)
    ensures r.Ok? ==> ValuesAsObject(c, s, q, fill).Ok? && GetRetainer(c, q.retainer.value).Ok?
    ensures ValuesAsObject(c, s, q, fill).Err? ==> r == Err(ValuesAsObject(c, s, q, fill).error)
    ensures r.Ok? ==>
              var obj, d := ValuesAsObject(c, s, q, fill).value, GetRetainer(c, q.retainer.value).value;
              && (forall i :: 0 <= i < |r.value| ==>
                    && ParseInt(r.value[i].bucket).Some?
                    && ParseInt(r.value[i].bucket).value in obj
                    && r.value[i].value == obj[ParseInt(r.value[i].bucket).value]
                    && r.value[i].timestamp == ParseInt(r.value[i].bucket).value * d)
              && (forall b :: b in obj ==> exists i :: 0 <= i < |r.value| && ParseInt(r.value[i].bucket) == Some(b))
              && (forall i, j :: 0 <= i < j < |r.value| ==>
                    ParseInt(r.value[i].bucket).value < ParseInt(r.value[j].bucket).value)
  {
    match ValuesAsObject(c, s, q, fill)
    case Err(e) => Err(e)
    case Ok(obj) =>
      match GetRetainer(c, q.retainer.value)
      case Err(e) => Err(e)
      case Ok(d) =>
        ObjectWithinCandidates(c, s, q, fill);
        Ok(RecordsOf(obj, Candidates(ScanOf(c, s, q, fill).value), d))
  }

  lemma MulStrict(a: int, b: int, d: int)
    requires a < b && d > 0
    ensures a * d < b * d
  {
  }

  /** With a positive duration the records come in ascending time. */
  lemma ValuesTimestampsAscending(c: Config, s: Store, q: RetainerQuery, fill: bool)
    requires Values(c, s, q, fill).Ok?
    requires GetRetainer(c, q.retainer.value).value > 0
    ensures var r := Values(c, s, q, fill).value;
            forall i, j :: 0 <= i < j < |r| ==> r[i].timestamp < r[j].timestamp
  {
    var r := Values(c, s, q, fill).value;
    var d := GetRetainer(c, q.retainer.value).value;
    forall i, j | 0 <= i < j < |r| ensures r[i].timestamp < r[j].timestamp {
      MulStrict(ParseInt(r[i].bucket).value, ParseInt(r[j].bucket).value, d);
    }
  }

  // ---------------------------------------------------------------- the bucket list as the code orders it

  /** An entry of the list the code returns; a bucket without the metric carries null. */
  datatype RawRecord = RawRecord(bucket: string, timestamp: int, value: Option<real>)

  /** Buckets compared by their decimal names, as a default array sort compares them. */
  function NameLe(a: int, b: int): bool
  {
    LexLe(IntToString(a), IntToString(b))
  }

  lemma NameLeIsTotalPreorder()
    ensures TotalPreorder(NameLe)
  {
    forall x: int, y: int ensures NameLe(x, y) || NameLe(y, x) {
      LexLeTotal(IntToString(x), IntToString(y));
    }
    forall x: int, y: int, z: int | NameLe(x, y) && NameLe(y, z) ensures NameLe(x, z) {
      LexLeTransitive(IntToString(x), IntToString(y), IntToString(z));
    }
  }

  /** The keys in the order of their decimal names. */
  function SortedByName(keys: seq<int>): (ks: seq<int>)
    ensures forall i, j :: 0 <= i < j < |ks| ==> LexLe(IntToString(ks[i]), IntToString(ks[j]))
    ensures forall b :: b in ks <==> b in keys
  {
    NameLeIsTotalPreorder();
    SortKeepsMembers(keys, NameLe);
    var ks := Sort(keys, NameLe);
    assert forall i, j :: 0 <= i < j < |ks| ==> NameLe(ks[i], ks[j]);
    ks
  }

  /** The record of key `k`: its name, `(+name) * duration`, and the object's entry. */
  predicate RecordOfKey(rr: RawRecord, k: int, obj: map<int, Option<real>>, d: int)
  {
    && rr.bucket == IntToString(k)
    && ParseInt(rr.bucket) == Some(k)
    && k in obj && rr.value == obj[k]
    && rr.timestamp == k * d
  }

  /** One record per key, in the order of the keys. */
  function RawRecords(ks: seq<int>, obj: map<int, Option<real>>, d: int): (r: seq<RawRecord>)
    requires forall k :: k in ks ==> k in obj
    ensures |r| == |ks|
    ensures forall i :: 0 <= i < |r| ==> RecordOfKey(r[i], ks[i], obj, d)
  {
    if |ks| == 0 then []
    else
      IntRoundTrip(ks[0]);
      var tail := RawRecords(ks[1..], obj, d);
      var head := RawRecord(IntToString(ks[0]), ParseInt(IntToString(ks[0])).value * d, obj[ks[0]]);
      assert RecordOfKey(head, ks[0], obj, d);
      [head] + tail
  }

  /** The records of the as-written object, with the keys sorted as strings. */
  function RawRecordsOf(obj: map<int, Option<real>>, cands: seq<int>, d: int): (r: seq<RawRecord>)
    requires forall b :: b in obj ==> b in cands
    ensures forall i, j :: 0 <= i < j < |r| ==> LexLe(r[i].bucket, r[j].bucket)
    ensures forall i :: 0 <= i < |r| ==>
              && ParseInt(r[i].bucket).Some?
              && ParseInt(r[i].bucket).value in obj
              && r[i].value == obj[ParseInt(r[i].bucket).value]
              && r[i].timestamp == ParseInt(r[i].bucket).value * d
    ensures forall b :: b in obj ==> exists i :: 0 <= i < |r| && r[i].bucket == IntToString(b)
  {
    var ks := SortedByName(Present(SortedSet(cands), obj));
    var r := RawRecords(ks, obj, d);
    assert forall b :: b in obj ==> exists i :: 0 <= i < |r| && r[i].bucket == IntToString(b) by {
      forall b | b in obj ensures exists i :: 0 <= i < |r| && r[i].bucket == IntToString(b) {
        var i :| 0 <= i < |ks| && ks[i] == b;
        assert r[i].bucket == IntToString(b);
      }
    }
    r
  }

  /** The keys of the as-written object are all candidates of the scan. */
  lemma ObjectAsWrittenWithinCandidates(c: Config, s: Store, q: RetainerQuery, fill: bool)
    requires ValuesAsObjectAsWritten(c, s, q, fill).Ok?
    ensures forall b :: b in ValuesAsObjectAsWritten(c, s, q, fill).value ==> b in Candidates(ScanOf(c, s, q, fill).value)
  {
    var sc := ScanOf(c, s, q, fill).value;
    forall b | b in ValuesAsObjectAsWritten(c, s, q, fill).value ensures b in Candidates(sc) {
      if b !in sc.nodes {
        KeysOfZeroRange(sc.seed.value.0, sc.seed.value.1, b);
      }
    }
  }

  /** `values()` as written: the object's keys sorted as strings, each with `(+key) * duration`. */
  function ValuesAsWritten(c: Config, s: Store, q: RetainerQuery, fill: bool): (r: Result<seq<RawRecord>>)
    ensures r.Ok? ==> ValuesAsObjectAsWritten(c, s, q, fill).Ok? && GetRetainer(c, q.retainer.value).Ok?
    ensures r.Ok? ==>
              var obj, d := ValuesAsObjectAsWritten(c, s, q, fill).value, GetRetainer(c, q.retainer.value).value;
              && (forall i, j :: 0 <= i < j < |r.value| ==> LexLe(r.value[i].bucket, r.value[j].bucket))
              && (forall i :: 0 <= i < |r.value| ==>
                    && ParseInt(r.value[i].bucket).Some?
                    && r.value[i].timestamp == ParseInt(r.value[i].bucket).value * d)
              && (forall b :: b in obj ==> exists i :: 0 <= i < |r.value| && r.value[i].bucket == IntToString(b))
  {
    match ValuesAsObjectAsWritten(c, s, q, fill)
    case Err(e) => Err(e)
    case Ok(obj) =>
      match GetRetainer(c, q.retainer.value)
      case Err(e) => Err(e)
      case Ok(d) =>
        ObjectAsWrittenWithinCandidates(c, s, q, fill);
        Ok(RawRecordsOf(obj, Candidates(ScanOf(c, s, q, fill).value), d))
  }

  /**
   * Sorting bucket keys as strings puts bucket 10 before bucket 9, so once the
   * buckets cross a power of ten the list runs backwards in time.
   */
  lemma StringSortMisorders(c: Config, s: Store, q: RetainerQuery, fill: bool)
    requires ValuesAsWritten(c, s, q, fill).Ok?
    requires 9 in ValuesAsObjectAsWritten(c, s, q, fill).value && 10 in ValuesAsObjectAsWritten(c, s, q, fill).value
    requires GetRetainer(c, q.retainer.value).value > 0
    ensures var r := ValuesAsWritten(c, s, q, fill).value;
            exists i, j :: 0 <= i < j < |r| && r[i].bucket == "10" && r[j].bucket == "9" && r[i].timestamp > r[j].timestamp
  {
    NineAndTen();
    TenBeforeNine(ValuesAsWritten(c, s, q, fill).value, GetRetainer(c, q.retainer.value).value);
  }

  /** In any list sorted by name with timestamps `bucket * d`, "10" comes first and is later. */
  lemma TenBeforeNine(r: seq<RawRecord>, d: int)
    requires d > 0
    requires forall i, j :: 0 <= i < j < |r| ==> LexLe(r[i].bucket, r[j].bucket)
    requires forall i :: 0 <= i < |r| ==>
               ParseInt(r[i].bucket).Some? && r[i].timestamp == ParseInt(r[i].bucket).value * d
    requires exists i :: 0 <= i < |r| && r[i].bucket == "10"
    requires exists j :: 0 <= j < |r| && r[j].bucket == "9"
    ensures exists i, j :: 0 <= i < j < |r| && r[i].bucket == "10" && r[j].bucket == "9" && r[i].timestamp > r[j].timestamp
  {
    NineAndTen();
    var i :| 0 <= i < |r| && r[i].bucket == "10";
    var j :| 0 <= j < |r| && r[j].bucket == "9";
    if j < i {
      assert false;
    }
    MulStrict(9, 10, d);
  }

  /** "10" sorts before "9" as a string. */
  lemma NineAndTen()
    ensures IntToString(9) == "9" && IntToString(10) == "10"
    ensures ParseInt("9") == Some(9) && ParseInt("10") == Some(10)
    ensures !LexLe("9", "10")
  {
    IntRoundTrip(9);
    IntRoundTrip(10);
  }
}

=== FILE: selection.dfy ===
/**
 * The two scans the queries run over the children of an ordered node: the top-k
 * selection (ordered by value, limited to the first or last k, then sorted) and the
 * inclusive range count (startAt / endAt on the ordering value).
 */
module Selection {
  import opened Common
  import opened Sorting

  /** The `order` argument of a selection; anything but "desc"/"asc" neither limits the side nor sorts. */
  datatype Order = Desc | Asc | Unsorted

  /** `order || 'desc'`. */
  function ParseOrder(s: string): (o: Order)
    ensures o == Desc <==> s == "" || s == "desc"
    ensures o == Asc <==> s == "asc"
  {
    if s == "" || s == "desc" then Desc else if s == "asc" then Asc else Unsorted
  }

  function Le(a: real, b: real): bool
  {
    a <= b
  }

  lemma LeIsTotalPreorder()
    ensures TotalPreorder(Le)
  {
  }

  /** `limit || 1`. */
  function EffectiveLimit(limit: nat): (k: nat)
    ensures k >= 1
    ensures limit > 0 ==> k == limit
  {
    if limit == 0 then 1 else limit
  }

  function Min(a: nat, b: nat): nat
  {
    if a <= b then a else b
  }

  /** In an ascending sequence, everything before position m is at most everything from m on. */
  lemma SplitSorted(s: seq<real>, m: nat)
    requires SortedBy(s, Le) && m <= |s|
    ensures forall x, y :: x in multiset(s[..m]) && y in multiset(s[m..]) ==> x <= y
    ensures multiset(s) == multiset(s[..m]) + multiset(s[m..])
  {
    assert s == s[..m] + s[m..];
    forall x, y | x in multiset(s[..m]) && y in multiset(s[m..]) ensures x <= y {
      var i :| 0 <= i < m && s[..m][i] == x;
      var j :| 0 <= j < |s| - m && s[m..][j] == y;
      assert Le(s[i], s[m + j]);
    }
  }

  /** The last k of an ascending sequence, largest first. */
  function Largest(s: seq<real>, k: nat): (r: seq<real>)
    requires SortedBy(s, Le) && k <= |s|
    ensures |r| == k
    ensures multiset(r) <= multiset(s)
    ensures forall i, j :: 0 <= i < j < |r| ==> r[i] >= r[j]
    ensures forall x, y :: x in multiset(s) - multiset(r) && y in multiset(r) ==> x <= y
  {
    SplitSorted(s, |s| - k);
    ReverseMultiset(s[|s| - k..]);
    SuffixSorted(s, |s| - k);
    ReverseDescends(s[|s| - k..]);
    Reverse(s[|s| - k..])
  }

  lemma SuffixSorted(s: seq<real>, m: nat)
    requires SortedBy(s, Le) && m <= |s|
    ensures SortedBy(s[m..], Le)
  {
    forall i, j | 0 <= i < j < |s[m..]| ensures Le(s[m..][i], s[m..][j]) {
      assert s[m..][i] == s[m + i] && s[m..][j] == s[m + j];
    }
  }

  /** An ascending sequence read backwards is descending. */
  lemma ReverseDescends(t: seq<real>)
    requires SortedBy(t, Le)
    ensures forall i, j :: 0 <= i < j < |Reverse(t)| ==> Reverse(t)[i] >= Reverse(t)[j]
  {
    var r := Reverse(t);
    forall i, j | 0 <= i < j < |r| ensures r[i] >= r[j] {
      assert r[i] == t[|t| - 1 - i] && r[j] == t[|t| - 1 - j];
      assert Le(t[|t| - 1 - j], t[|t| - 1 - i]);
    }
  }

  /** The first k of an ascending sequence. */
  function Smallest(s: seq<real>, k: nat): (r: seq<real>)
    requires SortedBy(s, Le) && k <= |s|
    ensures |r| == k
    ensures multiset(r) <= multiset(s)
    ensures forall i, j :: 0 <= i < j < |r| ==> r[i] <= r[j]
    ensures forall x, y :: x in multiset(s) - multiset(r) && y in multiset(r) ==> y <= x
  {
    SplitSorted(s, k);
    var r := s[..k];
    assert forall i, j :: 0 <= i < j < |r| ==> r[i] <= r[j] by {
      forall i, j | 0 <= i < j < |r| ensures r[i] <= r[j] {
        assert Le(s[i], s[j]);
      }
    }
    r
  }

  /**
   * The values a selection returns: with a limit of k (0 meaning 1), the k largest
   * sorted descending for Desc, the k smallest ascending otherwise (the store hands
   * children over in ascending order; Asc sorts them again, other orders do not).
   */
  function TopK(vs: seq<real>, limit: nat, order: Order): (r: seq<real>)
    ensures |r| == Min(EffectiveLimit(limit), |vs|)
    ensures multiset(r) <= multiset(vs)
    ensures order == Desc ==> forall i, j :: 0 <= i < j < |r| ==> r[i] >= r[j]
    ensures order != Desc ==> forall i, j :: 0 <= i < j < |r| ==> r[i] <= r[j]
    ensures order == Desc ==>
              forall x, y :: x in multiset(vs) - multiset(r) && y in multiset(r) ==> x <= y
    ensures order != Desc ==>
              forall x, y :: x in multiset(vs) - multiset(r) && y in multiset(r) ==> y <= x
  {
    LeIsTotalPreorder();
    var s := Sort(vs, Le);
    var k := Min(EffectiveLimit(limit), |s|);
    if order == Desc then Largest(s, k) else Smallest(s, k)
  }

  /**
   * What a selection promises about its result `r` drawn from `vs`: as many values as
   * the limit allows, all taken from `vs`, in the order's direction, and none left
   * behind that beats one taken.
   */
  predicate Selected(vs: seq<real>, r: seq<real>, limit: nat, order: Order)
  {
    && |r| == Min(EffectiveLimit(limit), |vs|)
    && multiset(r) <= multiset(vs)
    && (order == Desc ==> forall i, j :: 0 <= i < j < |r| ==> r[i] >= r[j])
    && (order != Desc ==> forall i, j :: 0 <= i < j < |r| ==> r[i] <= r[j])
    && (order == Desc ==> forall x, y :: x in multiset(vs) - multiset(r) && y in multiset(r) ==> x <= y)
    && (order != Desc ==> forall x, y :: x in multiset(vs) - multiset(r) && y in multiset(r) ==> y <= x)
  }

  /** Asking for the largest value returns exactly the maximum. */
  lemma TopOneIsMax(vs: seq<real>, limit: nat, x: real)
    requires limit <= 1 && x in vs
    ensures |TopK(vs, limit, Desc)| == 1
    ensures TopK(vs, limit, Desc)[0] in vs
    ensures TopK(vs, limit, Desc)[0] >= x
  {
    var r := TopK(vs, limit, Desc);
    assert r[0] in multiset(r);
    assert x in multiset(vs);
    if x !in multiset(r) {
      assert x in multiset(vs) - multiset(r);
    }
  }

  /** A selection with no order other than "desc"/"asc" returns what "asc" returns. */
  lemma UnsortedIsAscending(vs: seq<real>, limit: nat)
    ensures TopK(vs, limit, Unsorted) == TopK(vs, limit, Asc)
  {
  }

  // ---------------------------------------------------------------- range counts

  /** The comparison a count query carries. */
  datatype Comparison = Lesser | Greater | Between

  /**
   * Whether a child whose ordering value is `x` survives the comparison: `lesser` is
   * endAt(v1), `greater` startAt(v1), `between` startAt(v1).endAt(v2). A missing bound
   * is a null, which orders before every number: endAt(null) keeps no number and
   * startAt(null) keeps them all.
   */
  predicate Matches(cmp: Option<Comparison>, v1: Option<real>, v2: Option<real>, x: real)
  {
    match cmp
    case None => true
    case Some(Lesser) => v1.Some? && x <= v1.value
    case Some(Greater) => v1.None? || v1.value <= x
    case Some(Between) => (v1.None? || v1.value <= x) && v2.Some? && x <= v2.value
  }

  /** The positions of the values that survive the comparison. */
  function MatchSet(vs: seq<real>, cmp: Option<Comparison>, v1: Option<real>, v2: Option<real>): set<int>
  {
    set i | 0 <= i < |vs| && Matches(cmp, v1, v2, vs[i])
  }

  /** How many of the values survive the comparison. */
  function CountWhere(vs: seq<real>, cmp: Option<Comparison>, v1: Option<real>, v2: Option<real>): (n: nat)
    ensures n == |MatchSet(vs, cmp, v1, v2)|
    ensures n <= |vs|
    ensures n == |vs| <==> forall i :: 0 <= i < |vs| ==> Matches(cmp, v1, v2, vs[i])
    ensures n == 0 <==> forall i :: 0 <= i < |vs| ==> !Matches(cmp, v1, v2, vs[i])
  {
    if |vs| == 0 then 0
    else
      var init, last := vs[..|vs| - 1], vs[|vs| - 1];
      var rest := CountWhere(init, cmp, v1, v2);
      MatchSetSnoc(vs, cmp, v1, v2);
      assert forall i :: 0 <= i < |init| ==> init[i] == vs[i];
      rest + (if Matches(cmp, v1, v2, last) then 1 else 0)
  }

  /** The last position joins the matches of the others exactly when its value matches. */
  lemma MatchSetSnoc(vs: seq<real>, cmp: Option<Comparison>, v1: Option<real>, v2: Option<real>)
    requires |vs| > 0
    ensures MatchSet(vs, cmp, v1, v2)
            == MatchSet(vs[..|vs| - 1], cmp, v1, v2) + (if Matches(cmp, v1, v2, vs[|vs| - 1]) then {|vs| - 1} else {})
    ensures |vs| - 1 !in MatchSet(vs[..|vs| - 1], cmp, v1, v2)
  {
    assert forall i :: 0 <= i < |vs| - 1 ==> vs[..|vs| - 1][i] == vs[i];
  }

  /**
   * What a count promises: the number of values the comparison keeps, so at most all
   * of them, all exactly when every value matches, none exactly when none does.
   */
  predicate Counted(vs: seq<real>, n: nat, cmp: Option<Comparison>, v1: Option<real>, v2: Option<real>)
  {
    && n == |MatchSet(vs, cmp, v1, v2)|
    && n <= |vs|
    && (n == |vs| <==> forall i :: 0 <= i < |vs| ==> Matches(cmp, v1, v2, vs[i]))
    && (n == 0 <==> forall i :: 0 <= i < |vs| ==> !Matches(cmp, v1, v2, vs[i]))
  }

  /** Counting v with v <= t and v >= t counts every value once and the values equal to t twice. */
  lemma {:induction false} LesserPlusGreater(vs: seq<real>, t: real)
    ensures CountWhere(vs, Some(Lesser), Some(t), None) + CountWhere(vs, Some(Greater), Some(t), None)
            == |vs| + CountWhere(vs, Some(Between), Some(t), Some(t))
  {
    if |vs| > 0 {
      LesserPlusGreater(vs[..|vs| - 1], t);
    }
  }

  /** A lower bound only removes values: between(lo, hi) never counts more than lesser(hi). */
  lemma {:induction false} BetweenWithinLesser(vs: seq<real>, lo: Option<real>, hi: real)
    ensures CountWhere(vs, Some(Between), lo, Some(hi)) <= CountWhere(vs, Some(Lesser), Some(hi), None)
  {
    if |vs| > 0 {
      BetweenWithinLesser(vs[..|vs| - 1], lo, hi);
    }
  }
}

=== FILE: sorting.dfy ===
/**
 * An insertion sort over any total preorder, used for the engine's numeric
 * sorts of selected values and for the string sort of bucket keys.
 */
module Sorting {

  ghost predicate TotalPreorder<T(!new)>(le: (T, T) -> bool)
  {
    && (forall x, y :: le(x, y) || le(y, x))
    && (forall x, y, z :: le(x, y) && le(y, z) ==> le(x, z))
  }

  predicate SortedBy<T>(s: seq<T>, le: (T, T) -> bool)
  {
    forall i, j :: 0 <= i < j < |s| ==> le(s[i], s[j])
  }

  function Insert<T(!new)>(x: T, s: seq<T>, le: (T, T) -> bool): (r: seq<T>)
    requires TotalPreorder(le)
    requires SortedBy(s, le)
    ensures SortedBy(r, le)
    ensures multiset(r) == multiset(s) + multiset{x}
    ensures |r| == |s| + 1
  {
    if |s| == 0 then [x]
    else if le(x, s[0]) then [x] + s
    else
      var t := Insert(x, s[1..], le);
      assert s == [s[0]] + s[1..];
      assert forall k :: 0 <= k < |t| ==> le(s[0], t[k]) by {
        forall k | 0 <= k < |t| ensures le(s[0], t[k]) {
          assert t[k] in multiset(t);
          assert t[k] in multiset(s[1..]) || t[k] == x;
        }
      }
      [s[0]] + t
  }

  function Sort<T(!new)>(s: seq<T>, le: (T, T) -> bool): (r: seq<T>)
    requires TotalPreorder(le)
    ensures SortedBy(r, le)
    ensures multiset(r) == multiset(s)
    ensures |r| == |s|
  {
    if |s| == 0 then []
    else
      assert s == [s[0]] + s[1..];
      Insert(s[0], Sort(s[1..], le), le)
  }

  /** Sorting neither adds nor drops an element. */
  lemma SortKeepsMembers<T(!new)>(s: seq<T>, le: (T, T) -> bool)
    requires TotalPreorder(le)
    ensures forall x :: x in Sort(s, le) <==> x in s
  {
    var r := Sort(s, le);
    forall x ensures x in r <==> x in s {
      assert x in r <==> x in multiset(r);
      assert x in s <==> x in multiset(s);
    }
  }

  function Reverse<T>(s: seq<T>): (r: seq<T>)
    ensures |r| == |s|
    ensures forall i :: 0 <= i < |s| ==> r[i] == s[|s| - 1 - i]
  {
    if |s| == 0 then [] else Reverse(s[1..]) + [s[0]]
  }

  lemma {:induction false} ReverseMultiset<T>(s: seq<T>)
    ensures multiset(Reverse(s)) == multiset(s)
  {
    if |s| > 0 {
      ReverseMultiset(s[1..]);
      assert s == [s[0]] + s[1..];
    }
  }

  // ---------------------------------------------------------------- ascending integer sets

  /** Strictly ascending: what enumerating a set of integers in numeric order gives. */
  predicate Ascending(xs: seq<int>)
  {
    forall i, j :: 0 <= i < j < |xs| ==> xs[i] < xs[j]
  }

  function AddSorted(x: int, xs: seq<int>): (r: seq<int>)
    requires Ascending(xs)
    ensures Ascending(r)
    ensures forall y :: y in r <==> y in xs || y == x
  {
    if |xs| == 0 then [x]
    else if x < xs[0] then [x] + xs
    else if x == xs[0] then xs
    else
      var t := AddSorted(x, xs[1..]);
      assert forall k :: 0 <= k < |t| ==> xs[0] < t[k] by {
        forall k | 0 <= k < |t| ensures xs[0] < t[k] {
          assert t[k] in t;
          if t[k] != x {
            var i :| 0 <= i < |xs[1..]| && xs[1..][i] == t[k];
            assert xs[1..][i] == xs[i + 1];
          }
        }
      }
      [xs[0]] + t
  }

  /** The distinct elements of `xs` in ascending order. */
  function SortedSet(xs: seq<int>): (r: seq<int>)
    ensures Ascending(r)
    ensures forall y :: y in r <==> y in xs
  {
    if |xs| == 0 then [] else AddSorted(xs[|xs| - 1], SortedSet(xs[..|xs| - 1]))
  }
}

=== FILE: store.dfy ===
/**
 * The hosted database, reduced to a map from cell paths to numbers, and the
 * sequential application of update targets to it: each target is one transaction
 * folding a value into one cell.
 */
module Store {
  import opened Common
  import opened Assoc
  import opened Evaluators
  import opened Cells
  import opened Registry
  import opened Sorting
  import opened Buckets

  /**
   * Paths of the cells the engine writes and reads:
   *   <filter>/metrics/<partition>/<metric>
   *   <filter>/retainers/<partition>/<retainer>/<bucket>/<metric>
   * and the older layout without the "metrics" segment, <filter>/<partition>/<metric>.
   */
  datatype Cell =
    | MetricCell(filter: string, partition: string, metric: string)
    | BucketCell(filter: string, partition: string, retainer: string, bucket: Floor, metric: string)
    | FlatCell(filter: string, partition: string, metric: string)

  type Store = Assoc<Cell, real>

  /** One pending transaction: fold `value` into `cell` with the named evaluator. */
  datatype Target = Target(cell: Cell, evaluator: string, value: real)

  function ReducerOf(c: Config, name: string): Option<Reducer>
  {
    if name in c.reducers then Some(c.reducers[name]) else None
  }

  /** Runs one transaction. */
  function Transact(c: Config, s: Store, t: Target): (s': Store)
    ensures Lookup(s', t.cell) == Step(ReducerOf(c, t.evaluator), Lookup(s, t.cell), t.value)
    ensures forall k :: k != t.cell ==> Lookup(s', k) == Lookup(s, k)
  {
    var v := Step(ReducerOf(c, t.evaluator), Lookup(s, t.cell), t.value).value;
    LookupUpsertAll(s, t.cell, v);
    Upsert(s, t.cell, v)
  }

  /** No cell is ever stored twice. */
  lemma {:induction false} ApplyKeepsDistinct(c: Config, s: Store, ts: seq<Target>)
    requires DistinctKeys(s)
    ensures DistinctKeys(ApplyTargets(c, s, ts))
  {
    if |ts| > 0 {
      var s1 := ApplyTargets(c, s, ts[..|ts| - 1]);
      ApplyKeepsDistinct(c, s, ts[..|ts| - 1]);
      var t := ts[|ts| - 1];
      UpsertKeepsDistinct(s1, t.cell, Step(ReducerOf(c, t.evaluator), Lookup(s1, t.cell), t.value).value);
    }
  }

  /** Runs the transactions in order. */
  function ApplyTargets(c: Config, s: Store, ts: seq<Target>): Store
  {
    if |ts| == 0 then s else Transact(c, ApplyTargets(c, s, ts[..|ts| - 1]), ts[|ts| - 1])
  }

  /** The values the targets fold into cell `k`, in order. */
  function ValuesAt(ts: seq<Target>, k: Cell): (vs: seq<real>)
    ensures |vs| <= |ts|
    ensures |vs| == 0 <==> forall i :: 0 <= i < |ts| ==> ts[i].cell != k
  {
    if |ts| == 0 then []
    else if ts[|ts| - 1].cell == k then ValuesAt(ts[..|ts| - 1], k) + [ts[|ts| - 1].value]
    else
      assert forall i :: 0 <= i < |ts| - 1 ==> ts[..|ts| - 1][i] == ts[i];
      ValuesAt(ts[..|ts| - 1], k)
  }

  /** Every target at `k` uses evaluator `e`. */
  predicate OneEvaluatorAt(ts: seq<Target>, k: Cell, e: string)
  {
    forall i :: 0 <= i < |ts| && ts[i].cell == k ==> ts[i].evaluator == e
  }

  /**
   * Applying a target list sequentially is, cell by cell, the fold of the values aimed
   * at that cell: the cells are independent, so the interleaving does not matter.
   */
  lemma {:induction false} ApplyPerCell(c: Config, s: Store, ts: seq<Target>, k: Cell, e: string)
    requires OneEvaluatorAt(ts, k, e)
    ensures Lookup(ApplyTargets(c, s, ts), k) == FoldAll(ReducerOf(c, e), Lookup(s, k), ValuesAt(ts, k))
  {
    if |ts| > 0 {
      var p := ts[..|ts| - 1];
      assert OneEvaluatorAt(p, k, e) by {
        forall i | 0 <= i < |p| && p[i].cell == k ensures p[i].evaluator == e {
          assert p[i] == ts[i];
        }
      }
      ApplyPerCell(c, s, p, k, e);
      if ts[|ts| - 1].cell == k {
        assert ValuesAt(ts, k)[..|ValuesAt(ts, k)| - 1] == ValuesAt(p, k);
      }
    }
  }

  /** Cells no target aims at keep their value. */
  lemma ApplyUntouched(c: Config, s: Store, ts: seq<Target>, k: Cell)
    requires forall i :: 0 <= i < |ts| ==> ts[i].cell != k
    ensures Lookup(ApplyTargets(c, s, ts), k) == Lookup(s, k)
  {
    ApplyPerCell(c, s, ts, k, "");
  }

  /** A cell some target aims at holds a value afterwards. */
  lemma ApplyTouchedPresent(c: Config, s: Store, ts: seq<Target>, i: nat)
    requires i < |ts|
    ensures Lookup(ApplyTargets(c, s, ts), ts[i].cell).Some?
  {
    var k := ts[i].cell;
    ApplyPresent(c, s, ts, k, ts[i].evaluator, i);
  }

  lemma {:induction false} ApplyPresent(c: Config, s: Store, ts: seq<Target>, k: Cell, e: string, i: nat)
    requires i < |ts| && ts[i].cell == k
    ensures Lookup(ApplyTargets(c, s, ts), k).Some?
  {
    if i == |ts| - 1 {
    } else {
      assert ts[..|ts| - 1][i] == ts[i];
      ApplyPresent(c, s, ts[..|ts| - 1], k, e, i);
      var s1 := ApplyTargets(c, s, ts[..|ts| - 1]);
      assert Lookup(Transact(c, s1, ts[|ts| - 1]), k).Some?;
    }
  }

  // ---------------------------------------------------------------- reading a snapshot

  /** The values of metric `metric` over the partitions of `filter`, in store order. */
  function MetricValues(s: Store, filter: string, metric: string): (vs: seq<real>)
    ensures |vs| <= |s|
    ensures forall v :: v in vs <==> exists p :: (MetricCell(filter, p, metric), v) in s
  {
    if |s| == 0 then []
    else
      var rest := MetricValues(s[1..], filter, metric);
      assert forall p, v :: (MetricCell(filter, p, metric), v) in s <==>
        (s[0] == (MetricCell(filter, p, metric), v) || (MetricCell(filter, p, metric), v) in s[1..]);
      match s[0].0
      case MetricCell(f, _, m) => if f == filter && m == metric then [s[0].1] + rest else rest
      case _ => rest
  }

  /** The children of `<filter>/metrics`: every partition holding some metric cell. */
  function Partitions(s: Store, filter: string): (ps: set<string>)
    ensures forall p :: p in ps <==> exists i :: 0 <= i < |s| && s[i].0.MetricCell? && s[i].0.filter == filter && s[i].0.partition == p
  {
    set i | 0 <= i < |s| && s[i].0.MetricCell? && s[i].0.filter == filter :: s[i].0.partition
  }

  /** The older layout: the values of child `metric` over the children of node `node`, in store order. */
  function FlatValues(s: Store, node: string, metric: string): (vs: seq<real>)
    ensures |vs| <= |s|
    ensures forall v :: v in vs <==> exists p :: (FlatCell(node, p, metric), v) in s
  {
    if |s| == 0 then []
    else
      var rest := FlatValues(s[1..], node, metric);
      assert forall p, v :: (FlatCell(node, p, metric), v) in s <==>
        (s[0] == (FlatCell(node, p, metric), v) || (FlatCell(node, p, metric), v) in s[1..]);
      match s[0].0
      case FlatCell(f, _, m) => if f == node && m == metric then [s[0].1] + rest else rest
      case _ => rest
  }

  /** The children of `node` in the older layout. */
  function FlatChildren(s: Store, node: string): (ps: set<string>)
    ensures forall p :: p in ps <==> exists i :: 0 <= i < |s| && s[i].0.FlatCell? && s[i].0.filter == node && s[i].0.partition == p
  {
    set i | 0 <= i < |s| && s[i].0.FlatCell? && s[i].0.filter == node :: s[i].0.partition
  }

  /** Some cell of the store lies in bucket `b` of the retainer node. */
  predicate HasBucket(s: Store, filter: string, partition: string, retainer: string, b: int)
  {
    exists i :: 0 <= i < |s| && s[i].0.BucketCell? && s[i].0 == BucketCell(filter, partition, retainer, Whole(b), s[i].0.metric)
  }

  /** The bucket nodes under `<filter>/retainers/<partition>/<retainer>`, in ascending order. */
  function BucketNodes(s: Store, filter: string, partition: string, retainer: string): (bs: seq<int>)
    ensures Ascending(bs)
    ensures forall b :: b in bs <==> HasBucket(s, filter, partition, retainer, b)
  {
    SortedSet(BucketsIn(s, filter, partition, retainer))
  }

  function BucketsIn(s: Store, filter: string, partition: string, retainer: string): (bs: seq<int>)
    ensures forall b :: b in bs <==> HasBucket(s, filter, partition, retainer, b)
  {
    if |s| == 0 then []
    else
      var rest := BucketsIn(s[1..], filter, partition, retainer);
      assert forall b :: HasBucket(s, filter, partition, retainer, b) <==>
        (s[0].0 == BucketCell(filter, partition, retainer, Whole(b), s[0].0.metric) || HasBucket(s[1..], filter, partition, retainer, b)) by {
        forall b ensures HasBucket(s, filter, partition, retainer, b) <==>
          (s[0].0 == BucketCell(filter, partition, retainer, Whole(b), s[0].0.metric) || HasBucket(s[1..], filter, partition, retainer, b))
        {
          if HasBucket(s[1..], filter, partition, retainer, b) {
            var i :| 0 <= i < |s[1..]| && s[1..][i].0.BucketCell? && s[1..][i].0 == BucketCell(filter, partition, retainer, Whole(b), s[1..][i].0.metric);
            assert s[i + 1] == s[1..][i];
          }
          if HasBucket(s, filter, partition, retainer, b) {
            var i :| 0 <= i < |s| && s[i].0.BucketCell? && s[i].0 == BucketCell(filter, partition, retainer, Whole(b), s[i].0.metric);
            if i > 0 {
              assert s[1..][i - 1] == s[i];
            }
          }
        }
      }
      if s[0].0.BucketCell? && s[0].0.bucket.Whole? && s[0].0 == BucketCell(filter, partition, retainer, s[0].0.bucket, s[0].0.metric) then
        [s[0].0.bucket.n] + rest
      else rest
  }

  /** A bucket cell the store holds makes its bucket a node of the scan. */
  lemma LookupHasBucket(s: Store, filter: string, partition: string, retainer: string, b: int, m: string)
    requires Lookup(s, BucketCell(filter, partition, retainer, Whole(b), m)).Some?
    ensures HasBucket(s, filter, partition, retainer, b)
  {
    var v := Lookup(s, BucketCell(filter, partition, retainer, Whole(b), m)).value;
    var i :| 0 <= i < |s| && s[i] == (BucketCell(filter, partition, retainer, Whole(b), m), v);
    assert s[i].0.BucketCell?;
  }
}

=== FILE: text.dfy ===
/**
 * Decimal rendering and parsing of integers, and the string order JavaScript's
 * default `Array.prototype.sort` uses. Bucket keys and partition-key segments are
 * integers rendered with `toString()`; derived retainer names start with a decimal
 * multiplier read by `parseInt`.
 */
module Text {
  import opened Common

  predicate IsDigit(c: char)
  {
    '0' <= c <= '9'
  }

  /** Characters that can occur in the rendering of an integer. */
  predicate IsNumeralChar(c: char)
  {
    IsDigit(c) || c == '-'
  }

  predicate AllDigits(s: string)
  {
    forall i :: 0 <= i < |s| ==> IsDigit(s[i])
  }

  function DigitChar(d: nat): (c: char)
    requires d < 10
    ensures IsDigit(c)
  {
    ('0' as int + d) as char
  }

  function DigitValue(c: char): (d: nat)
    requires IsDigit(c)
    ensures d < 10
  {
    (c as int - '0' as int) as nat
  }

  lemma DigitRoundTrip(d: nat)
    requires d < 10
    ensures DigitValue(DigitChar(d)) == d
  {
  }

  /** `n.toString()` for a non-negative integer. */
  function NatToString(n: nat): (s: string)
    ensures |s| > 0 && AllDigits(s)
  {
    if n < 10 then [DigitChar(n)] else NatToString(n / 10) + [DigitChar(n % 10)]
  }

  /** `i.toString()` for any integer. */
  function IntToString(i: int): (s: string)
    ensures |s| > 0
    ensures forall k :: 0 <= k < |s| ==> IsNumeralChar(s[k])
  {
    if i < 0 then "-" + NatToString(-i) else NatToString(i)
  }

  /** The value of a string of decimal digits (what `parseInt` computes for it). */
  function DecimalValue(s: string): nat
    requires AllDigits(s)
  {
    if |s| == 0 then 0 else 10 * DecimalValue(s[..|s| - 1]) + DigitValue(s[|s| - 1])
  }

  lemma {:induction false} DecimalOfNatToString(n: nat)
    ensures DecimalValue(NatToString(n)) == n
  {
    var s := NatToString(n);
    if n < 10 {
      DigitRoundTrip(n);
    } else {
      assert s[..|s| - 1] == NatToString(n / 10);
      DecimalOfNatToString(n / 10);
      DigitRoundTrip(n % 10);
    }
  }

  /** Length of the longest prefix of `s` made of decimal digits (the match of /^([0-9]+)/). */
  function LeadingDigits(s: string): (n: nat)
    ensures n <= |s|
    ensures AllDigits(s[..n])
    ensures n < |s| ==> !IsDigit(s[n])
  {
    if |s| == 0 || !IsDigit(s[0]) then 0
    else
      var m := LeadingDigits(s[1..]);
      assert s[..m + 1] == [s[0]] + s[1..][..m];
      m + 1
  }

  /** The digit prefix of a rendered number followed by a non-digit is exactly that rendering. */
  lemma {:induction false} LeadingDigitsOfPrefix(d: string, rest: string)
    requires AllDigits(d)
    requires |rest| == 0 || !IsDigit(rest[0])
    ensures LeadingDigits(d + rest) == |d|
  {
    if |d| > 0 {
      assert (d + rest)[1..] == d[1..] + rest;
      LeadingDigitsOfPrefix(d[1..], rest);
    }
  }

  /** Length of the longest prefix of `s` made of numeral characters. */
  function NumeralLength(s: string): (n: nat)
    ensures n <= |s|
    ensures n < |s| ==> !IsNumeralChar(s[n])
    ensures forall k :: 0 <= k < n ==> IsNumeralChar(s[k])
  {
    if |s| == 0 || !IsNumeralChar(s[0]) then 0 else NumeralLength(s[1..]) + 1
  }

  lemma {:induction false} NumeralLengthOfPrefix(d: string, rest: string)
    requires forall k :: 0 <= k < |d| ==> IsNumeralChar(d[k])
    requires |rest| == 0 || !IsNumeralChar(rest[0])
    ensures NumeralLength(d + rest) == |d|
  {
    if |d| > 0 {
      assert (d + rest)[1..] == d[1..] + rest;
      NumeralLengthOfPrefix(d[1..], rest);
    }
  }

  /** Reads an integer rendered by IntToString; None for anything else. */
  function ParseInt(s: string): Option<int>
  {
    if |s| > 0 && s[0] == '-' then
      (if |s| > 1 && AllDigits(s[1..]) then Some(-(DecimalValue(s[1..]) as int)) else None)
    else if |s| > 0 && AllDigits(s) then Some(DecimalValue(s) as int)
    else None
  }

  /** Rendering an integer and parsing it back gives the integer. */
  lemma IntRoundTrip(i: int)
    ensures ParseInt(IntToString(i)) == Some(i)
  {
    if i < 0 {
      NegativeRoundTrip(-i);
    } else {
      DecimalOfNatToString(i);
      assert IsDigit(NatToString(i)[0]);
    }
  }

  lemma NegativeRoundTrip(n: nat)
    requires n > 0
    ensures ParseInt("-" + NatToString(n)) == Some(-(n as int))
  {
    var d := NatToString(n);
    assert ("-" + d)[1..] == d;
    DecimalOfNatToString(n);
  }

  /** Distinct integers render to distinct strings. */
  lemma IntToStringInjective(a: int, b: int)
    requires IntToString(a) == IntToString(b)
    ensures a == b
  {
    IntRoundTrip(a);
    IntRoundTrip(b);
  }

  /**
   * String order by character code: a prefix precedes its extensions, otherwise the
   * first differing character decides. This is the default comparison of `sort()`.
   */
  predicate LexLe(a: string, b: string)
  {
    if |a| == 0 then true
    else if |b| == 0 then false
    else if a[0] != b[0] then a[0] < b[0]
    else LexLe(a[1..], b[1..])
  }

  lemma {:induction false} LexLeTotal(a: string, b: string)
    ensures LexLe(a, b) || LexLe(b, a)
  {
    if |a| > 0 && |b| > 0 && a[0] == b[0] {
      LexLeTotal(a[1..], b[1..]);
    }
  }

  lemma {:induction false} LexLeTransitive(a: string, b: string, c: string)
    requires LexLe(a, b) && LexLe(b, c)
    ensures LexLe(a, c)
  {
    if |a| > 0 && |b| > 0 && |c| > 0 && a[0] == b[0] && b[0] == c[0] {
      LexLeTransitive(a[1..], b[1..], c[1..]);
    }
  }

  lemma {:induction false} LexLeAntisymmetric(a: string, b: string)
    requires LexLe(a, b) && LexLe(b, a)
    ensures a == b
  {
    if |a| > 0 && |b| > 0 {
      LexLeAntisymmetric(a[1..], b[1..]);
      assert a == [a[0]] + a[1..] && b == [b[0]] + b[1..];
    }
  }
}
